=== FILE: README.md ===
# Cinema ticketing backend: booking core

This project models the booking core of a cinema ticketing backend:

- **Seat inventory.** The default 8 x 12 seat grid an auditorium gets, and the per-showtime seat status rows that follow the auditorium's seats.
- **Checkout engine.** It prices a reservation's seats, opens at most one order per reservation, and finalizes a paid order. Finalizing re-checks the holds, marks the seats SOLD, completes the reservation and mints one QR ticket per seat.
- **Checkout routes.** The user-scoped demo confirmation, and the payment-provider webhook with its set-if-absent replay gate.
- **Staff ticket scan.** A VALID ticket is turned into USED exactly once.
- **Ticket lifecycle window.** The UPCOMING / ACTIVE / EXPIRED / USED / VOID / INVALID state shown for a ticket.
- **Refresh-session table** behind register, login, refresh and logout. Sessions are pruned to a per-user cap of live sessions and rotated on refresh.
- **Fixed-window rate limiter.** It runs over a key-value store.
- **Metrics.** The in-process counter store and its Prometheus text exposition.
- **Recommendation helpers.** Genre extraction, the reason shown with a recommendation, and the not-interested / save-for-later feedback toggles.
- **Similarity rebuild.** The offline "movies like this one" table: the per-feature similarity measures, the co-watch counts gathered from paid orders, and the per-movie top-k neighbour rows.

## How the model is built

The database is the class `BookingStore.CinemaDb`, whose fields are the tables. Each service operation is a method over it. Every such method states its new state as a function of the old one (`db.State() == Sweep(old(db.State()), now)`, `FinalizesTo(...)`). The database invariants live in `BookingStore.TablesConsistent`:

- row ids stay below the auto-increment counters;
- there is at most one order per reservation;
- provider session ids and QR tokens are unique;
- tickets exist only for PAID orders;
- a PAID order holds exactly one ticket per reserved seat.

Lemmas prove that every operation keeps these invariants.

The auth tables (`AuthSessions.AuthDb`), the dedup store of the webhook, the rate-limit store, the metrics store and the feedback table are classes in the same way. Pure helpers are functions:

- the price table;
- the lifecycle window;
- the similarity measures;
- the reason chain;
- the Prometheus line layout.

Loops of the source are methods with invariants:

- the default-seat grid;
- the held-row check;
- the ticket minting;
- the status-row insert;
- the genre extraction;
- the co-watch pair counting;
- the neighbour collection;
- the exposition rendering.

Clocks, uuid4 tokens, password hashing, JWT minting and decoding, and the configured settings are parameters. Generated session ids and QR tokens are derived from the row id: `cs_mock_<id>` and `tkt_<id>`. This gives the one guarantee the code relies on, that a new token never equals an earlier one.

## Model

| member | source | states |
|---|---|---|
| BookingStore.OrderStatusName | apps/backend/app/models/order.py:9-25 | An order status is one of PENDING, PAID, FAILED. |
| BookingStore.TicketStatusName | apps/backend/app/models/order.py:28-38 | A ticket status is one of VALID, USED, VOID. |
| BookingStore.SessionIdInjective | apps/backend/app/services/payment_service.py:87 | Two orders with the same minted provider session id are the same order. |
| BookingStore.QrTokenInjective | apps/backend/app/services/payment_service.py:198-205 | Two tickets with the same minted QR token are the same ticket. |
| BookingStore.PrefixedInjective | apps/backend/app/api/v1/checkout.py:75-86 | A fixed prefix followed by two texts gives the same key only for the same text. |
| BookingStore.QrTokensUnique | apps/backend/app/models/order.py:28-38 | In consistent tables the unique constraint on tickets.qr_token holds. |
| BookingStore.SessionIdsUnique | apps/backend/app/models/order.py:9-25 | In consistent tables no two orders share a provider session id. |
| BookingStore.Swept | apps/backend/app/services/payment_service.py:38 | After the sweep no reservation is overdue, and a reservation is EXPIRED exactly when it was an overdue ACTIVE one or was EXPIRED already. A reservation that changes was overdue and only its status changed. |
| BookingStore.Released | apps/backend/app/services/payment_service.py:118 | After the sweep no seat row is held by an overdue reservation. A row that changes was held by one and is now AVAILABLE with no holder. |
| BookingStore.Sweep | apps/backend/app/services/payment_service.py:38 | The sweep keeps every reservation's id and seats. |
| BookingStore.SweepIdempotent | apps/backend/app/services/payment_service.py:118 | A second sweep at the same instant changes nothing. |
| BookingStore.SweepFixedPoint | apps/backend/app/services/payment_service.py:118 | Tables with no overdue reservation are left as they are by the sweep. |
| BookingStore.SweepTouchesOnlyOverdue | apps/backend/app/services/payment_service.py:118 | Reservations that are not overdue, and rows not held by an overdue reservation, are left as they were. |
| BookingStore.SweepConsistent | apps/backend/app/services/payment_service.py:118 | The sweep keeps the database invariants. |
| BookingStore.CinemaDb.constructor | apps/backend/app/models/reservation.py:9-44 | The database opens on consistent tables. |
| BookingStore.CinemaDb.ExpireOverdueHolds | apps/backend/app/services/payment_service.py:38 | The new state is the swept old state. |
| PaymentService.SeatPriceCents | apps/backend/app/services/payment_service.py:15-23 | A seat costs 2600 exactly when its upper-cased type is VIP, and 2000 exactly when it is PREMIUM. Any other type costs 1500. |
| PaymentService.SeatPriceIgnoresCase | apps/backend/app/services/payment_service.py:22-23 | Seat types are priced case-insensitively ("vip", "Premium"), and an unknown type gets the default. |
| PaymentService.PricedSeats | apps/backend/app/services/payment_service.py:75-82 | The priced seats are exactly the reservation's seats that exist in the seat table, in increasing id order. |
| PaymentService.SumOfPricesBounds | apps/backend/app/services/payment_service.py:86 | A sum of seat prices lies between 1500 and 2600 per seat. |
| PaymentService.ReservationTotalBounds | apps/backend/app/services/payment_service.py:75-86 | The order total lies between 1500 and 2600 per priced seat. There are never more priced seats than reserved ones. |
| PaymentService.SessionRead | apps/backend/app/services/payment_service.py:100-110 | The checkout response carries the order's id, reservation, status, total and provider session id. |
| PaymentService.ReservationError | apps/backend/app/services/payment_service.py:40-52 | 404 exactly when the reservation is missing or foreign. Otherwise 409 "not active" exactly when it is not ACTIVE, otherwise 409 "expired" exactly when its hold has run out. No error only when it is the user's open hold. |
| PaymentService.FindOrder | apps/backend/app/services/payment_service.py:54-58 | Finds an order exactly when the reservation has one, and the order found belongs to that reservation. |
| PaymentService.AddOrderConsistent | apps/backend/app/services/payment_service.py:87-99 | Adding a PENDING order for a reservation without one, with a freshly minted session id, keeps the invariants. |
| PaymentService.CheckoutConsistent | apps/backend/app/services/payment_service.py:30-110 | Every outcome of a checkout keeps the database invariants. |
| PaymentService.CreateCheckoutSession | apps/backend/app/services/payment_service.py:30-110 | An error changes nothing. The checks read the swept tables, in order. An existing order is returned as it is. A reservation with no priced seats is a 400. Otherwise one PENDING order is added under the next id, with the sum of the seat prices. |
| PaymentService.TicketIds | apps/backend/app/services/payment_service.py:254-279 | The listed ids are the payload rows' ids, in order. |
| PaymentService.FinalizePayload | apps/backend/app/services/payment_service.py:254-279 | The payload lists every ticket of the order exactly once, by ascending id, with its seat, token and status. Its count is the number of the order's tickets. |
| PaymentService.RowCountMatches | apps/backend/app/services/payment_service.py:148-162 | The count check of the locked rows passes exactly when every reserved seat has a status row at the showtime. |
| PaymentService.HeldForSale | apps/backend/app/services/payment_service.py:148-170 | The count and per-row checks pass exactly when every reserved seat's row exists and is HELD by this reservation. |
| PaymentService.SoldRows | apps/backend/app/services/payment_service.py:172-180 | The bulk update keeps the key set of the status rows. |
| PaymentService.SoldRowsEffect | apps/backend/app/services/payment_service.py:172-180 | After the sale every reserved seat is SOLD with no holder. No row held by another reservation changes. |
| PaymentService.NewTickets | apps/backend/app/services/payment_service.py:190-207 | The minted tickets take exactly the ids next .. next + n - 1. |
| PaymentService.MintTickets | apps/backend/app/services/payment_service.py:190-207 | One VALID ticket per missing seat, in seat order, with a fresh id and token. The ticket counter advances by the number minted. |
| PaymentService.Sell | apps/backend/app/services/payment_service.py:172-207 | The new state is the swept tables with the seats SOLD, the reservation COMPLETED, the order PAID and the missing tickets minted. |
| PaymentService.FinalizePaidOrder | apps/backend/app/services/payment_service.py:112-209 | A 404 when the reservation is gone, with no change. A PAID order returns its payload after the sweep. An order whose reservation is not ACTIVE, has no seats, or does not hold every seat becomes FAILED. Otherwise the sale is made and the payload lists the new tickets. |
| PaymentService.FailureConsistent | apps/backend/app/services/payment_service.py:131-170 | Marking an unpaid order FAILED keeps the invariants. |
| PaymentService.UnpaidHasNoTickets | apps/backend/app/services/payment_service.py:128-129 | An order that is not PAID has no tickets. |
| PaymentService.StatusChangeKeepsOrders | apps/backend/app/services/payment_service.py:168-182 | Changing an order's status keeps one order per reservation and the minted session ids. |
| PaymentService.MintedSeats | apps/backend/app/services/payment_service.py:190-207 | The minted tickets cover exactly the missing seats, one per seat, with minted tokens. |
| PaymentService.MintedTicketSeats | apps/backend/app/services/payment_service.py:185-207 | Minting for an order with no tickets leaves it ticketed for exactly the missing seats, and leaves every other order's tickets alone. |
| PaymentService.MintedTicketsConsistent | apps/backend/app/services/payment_service.py:185-207 | Minting for an order with no tickets keeps the ticket constraints. |
| PaymentService.MissingSeatsAll | apps/backend/app/services/payment_service.py:185-193 | For an order with no tickets, the missing seats are all the reserved seats, in increasing order. |
| PaymentService.SaleOfConsistent | apps/backend/app/services/payment_service.py:172-207 | Selling and minting keeps the invariants. The paid order holds a ticket for exactly its reserved seats, and other orders keep theirs. |
| PaymentService.SaleConsistent | apps/backend/app/services/payment_service.py:172-207 | A successful finalize keeps the invariants and tickets exactly the reserved seats. |
| PaymentService.PaidStaysTicketed | apps/backend/app/services/payment_service.py:180-207 | Paying one order whose tickets match its reservation, while other orders' tickets are unchanged, keeps every PAID order fully ticketed. |
| PaymentService.FinalizeConsistent | apps/backend/app/services/payment_service.py:112-209 | Every path of finalize keeps the invariants. |
| PaymentService.FinalizePaidIdempotent | apps/backend/app/services/payment_service.py:118-129 | After a finalize that leaves the order PAID, a second finalize at the same instant changes no table and answers the same payload, so a replayed webhook is harmless. |
| PaymentService.GetOrderForUser | apps/backend/app/services/payment_service.py:211-227 | Finds the order exactly when it exists and belongs to the user. Otherwise a 404. |
| PaymentService.GetOrderByProviderSession | apps/backend/app/services/payment_service.py:229-244 | Finds an order exactly when one carries the session id. That order is the only one. Otherwise a 404. |
| PaymentService.GetOrderById | apps/backend/app/services/payment_service.py:246-252 | Finds the order exactly when it exists. Otherwise a 404. |
| SeatInventory.SeatTypeForRow | apps/backend/app/services/seat_inventory.py:20-25 | Rows A and B are VIP, rows C and D are PREMIUM, and every other row is STANDARD (each as an if-and-only-if). |
| SeatInventory.RowPrices | apps/backend/app/services/seat_inventory.py:20-25 | With the checkout price table a generated seat costs 2600 in rows A-B, 2000 in rows C-D and 1500 elsewhere. |
| SeatInventory.DefaultSeats | apps/backend/app/services/seat_inventory.py:7-8 | The default grid has 8 x 12 = 96 seats. |
| SeatInventory.SeatAtGrid | apps/backend/app/services/seat_inventory.py:49-60 | Grid position (r, n) holds seat n of row r, with code row letter + number and the row's seat type. |
| SeatInventory.NextGridSeat | apps/backend/app/services/seat_inventory.py:49-60 | Each inner-loop step appends exactly the next seat of the grid. |
| SeatInventory.BuildDefaultSeats | apps/backend/app/services/seat_inventory.py:49-60 | The nested loops produce the default grid, row by row and seat by seat. |
| SeatInventory.DefaultSeatsCoverGrid | apps/backend/app/services/seat_inventory.py:49-60 | Every row letter A-H with every number 1-12 occurs in the grid, and nothing else does. |
| SeatInventory.DefaultSeatCodesDistinct | apps/backend/app/services/seat_inventory.py:49-60 | The generated seat codes are pairwise distinct. |
| SeatInventory.Numbered | apps/backend/app/services/seat_inventory.py:61 | The batch insert gives the rows exactly the ids next .. next + n - 1, in order. |
| SeatInventory.NumberedSize | apps/backend/app/services/seat_inventory.py:61 | It inserts exactly one row per seat. |
| SeatInventory.EnsureAuditoriumSeatInventory | apps/backend/app/services/seat_inventory.py:28-62 | A seat map named "<auditorium> Standard Layout" is attached only when none is set. The 96 default seats are inserted under fresh ids only when the auditorium has no seats. Nothing else changes. |
| SeatInventory.EnsureIdempotent | apps/backend/app/services/seat_inventory.py:41-47 | After ensure the auditorium has 96 seats, so a second ensure adds none. |
| SeatInventory.EnsureKeepsIdsBelow | apps/backend/app/services/seat_inventory.py:49-62 | The inserted grid takes ids that no seat row holds yet, and every seat id stays below the advanced counter. |
| SeatInventory.InsertedSeatsOwned | apps/backend/app/services/seat_inventory.py:49-61 | The auditorium's seats are exactly the inserted rows. |
| SeatInventory.SyncedExactly | apps/backend/app/services/seat_inventory.py:65-113 | After a sync the showtime has a row for exactly the auditorium's seats. Rows kept are unchanged, new rows are AVAILABLE with no holder, and other showtimes are untouched. |
| SeatInventory.SyncIdempotent | apps/backend/app/services/seat_inventory.py:65-113 | A second sync against the same seats changes nothing. |
| SeatInventory.InsertAvailableRows | apps/backend/app/services/seat_inventory.py:103-113 | The insert loop adds one AVAILABLE row per missing seat and changes nothing else. |
| SeatInventory.DeleteStaleRows | apps/backend/app/services/seat_inventory.py:90-97 | The bulk delete removes exactly the showtime's rows whose seat left the auditorium. When there are none, nothing changes. |
| SeatInventory.MissingAreUnrowed | apps/backend/app/services/seat_inventory.py:99-101 | The missing seats are exactly the target seats without a row. |
| SeatInventory.SyncSteps | apps/backend/app/services/seat_inventory.py:90-113 | Delete-then-insert yields the synced rows. |
| SeatInventory.SyncShowtimeSeatStatuses | apps/backend/app/services/seat_inventory.py:65-113 | An auditorium without seats changes nothing. Otherwise the status rows become the synced rows, and nothing else changes. |
| TicketScan.ScanFound | apps/backend/app/api/v1/tickets.py:52-84 | A USED ticket is ALREADY_USED with its earlier use time. A VOID ticket is INVALID. Both leave the tickets unchanged. A VALID ticket is reported VALID and becomes USED at now, and no other ticket changes. |
| TicketScan.ScanTicket | apps/backend/app/api/v1/tickets.py:24-84 | A wrong staff token is a 401 with no change. An unknown token is INVALID "Ticket not found" with no change. Otherwise the response and new tickets are those of the found ticket. |
| TicketScan.FoundUnique | apps/backend/app/api/v1/tickets.py:34-43 | In consistent tables a QR token names at most one ticket. |
| TicketScan.NeverValidTwice | apps/backend/app/api/v1/tickets.py:52-84 | A second scan of a validated ticket is ALREADY_USED and reports the first scan's time. |
| TicketScan.SameTicketSeats | apps/backend/app/api/v1/tickets.py:73-76 | Changing status and use time keeps each order's ticketed seats. |
| TicketScan.StatusChangeConsistent | apps/backend/app/api/v1/tickets.py:73-76 | Changing ticket status and use time keeps the database invariants. |
| TicketScan.ScanConsistent | apps/backend/app/api/v1/tickets.py:73-84 | A scan keeps the database invariants. |
| Checkout.DedupStore.constructor | apps/backend/app/api/v1/checkout.py:75-86 | The dedup store opens with the given keys. |
| Checkout.DedupStore.SetIfAbsent | apps/backend/app/api/v1/checkout.py:76-84 | SET NX answers true exactly when the key was absent, and the key is set afterwards. |
| Checkout.EventKeyInjective | apps/backend/app/api/v1/checkout.py:75 | Distinct event ids never share a dedup key. |
| Checkout.AckOf | apps/backend/app/api/v1/checkout.py:108-114 | A finalize error is the webhook's error. A finalize result is acknowledged as finalized, not duplicate, with the order's new status. |
| Checkout.StripeWebhook | apps/backend/app/api/v1/checkout.py:65-114 | A wrong secret is a 401 that changes nothing. A replayed event id is acknowledged as duplicate with no change. A first delivery of another type is ignored. A completed event finalizes the order named by its session id or else by its order id, and missing identifiers or a missing order are errors. |
| Checkout.ConfirmDemoCheckout | apps/backend/app/api/v1/checkout.py:50-61 | Another user's or a missing order is a 404 with no change. Otherwise the result is the finalize of that order. |
| TicketLifecycle.BuildWindow | apps/backend/app/core/ticket_lifecycle.py:11-24 | Entry opens max(minutes, 0) minutes before the start. The window closes max(grace, 0) minutes after the end, or after the start when the end is missing. |
| TicketLifecycle.ResolveState | apps/backend/app/core/ticket_lifecycle.py:27-44 | Each state holds exactly when its condition on the stripped upper-cased status and the window holds: USED, VOID, INVALID for other statuses, and for VALID: UPCOMING before, ACTIVE inside with both ends included, EXPIRED after. |
| TicketLifecycle.ValidTicketMovesForward | apps/backend/app/core/ticket_lifecycle.py:40-44 | As time passes a VALID ticket only moves from UPCOMING to ACTIVE to EXPIRED. |
| TicketLifecycle.ActiveDuringShowtime | apps/backend/app/core/ticket_lifecycle.py:11-44 | A VALID ticket is ACTIVE from the showtime's start to its effective end. |
| TicketLifecycle.PaddingIgnored | apps/backend/app/core/ticket_lifecycle.py:33 | Surrounding whitespace on the stored status changes nothing. |
| TicketLifecycle.CaseIgnored | apps/backend/app/core/ticket_lifecycle.py:33 | Lower-casing the stored status changes nothing. |
| TicketLifecycle.UnknownStatusIsInvalid | apps/backend/app/core/ticket_lifecycle.py:38-39 | A status such as "refunded" is INVALID. |
| AuthSessions.AuthDb.constructor | apps/backend/app/models/auth_session.py:9-21 | The refresh_token_sessions table, and the users table beside it, open empty with their id counters at 0. Every id stays below its counter (`Valid`), which register, login, refresh, logout and the prune keep, so an insert never overwrites a row. |
| AuthSessions.PruneRefreshSessions | apps/backend/app/api/v1/auth.py:89-126 | The sessions become the pruned sessions, and users and counters are unchanged. The id invariant is kept. |
| AuthSessions.PruneEffect | apps/backend/app/api/v1/auth.py:95-126 | The prune deletes exactly the user's revoked or expired sessions. It only ever revokes, at now. Other users' sessions are untouched. |
| AuthSessions.OldestExists | apps/backend/app/api/v1/auth.py:113-116 | The order (created_at desc, id desc) has an oldest member in every non-empty set. |
| AuthSessions.LiveAfterRevoke | apps/backend/app/api/v1/auth.py:120-126 | A session is live after revoking the overflow exactly when it was live and lies within the first cap of the ordered live list. |
| AuthSessions.RevokeOverflowCap | apps/backend/app/api/v1/auth.py:103-126 | After the overflow is revoked at most cap live sessions remain. |
| AuthSessions.RevokeOverflowKeepsNewest | apps/backend/app/api/v1/auth.py:104-126 | Every session kept live is newer than every live session revoked. |
| AuthSessions.PruneCap | apps/backend/app/api/v1/auth.py:103 | After a prune a user has at most max(cap, 1) live sessions. |
| AuthSessions.IssueAuthTokens | apps/backend/app/api/v1/auth.py:54-86 | A session for the new refresh token's hash is added under the next id, then the user's sessions are pruned. The response carries the tokens and the user id. |
| AuthSessions.IssuedSessionSurvives | apps/backend/app/api/v1/auth.py:54-126 | A freshly issued session with a future expiry survives its own prune live. |
| AuthSessions.FindSession | apps/backend/app/api/v1/auth.py:211-226 | The lookup finds a session of this user with this token hash exactly when there is one. |
| AuthSessions.FindSessionFirst | apps/backend/app/api/v1/auth.py:211-220 | The scan stops at the first matching id in the order it is given. |
| AuthSessions.LookupSessionSmallest | apps/backend/app/api/v1/auth.py:211-220 | The session lookup takes the smallest matching row id. |
| AuthSessions.PlanRefresh | apps/backend/app/api/v1/auth.py:185-245 | A rotation happens only for a decoded subject that is a known user whose pruned session for this token is live. An undecodable token is "Invalid refresh token", and an unknown one "Refresh token not recognized". |
| AuthSessions.ExpiredOrRevokedOnlyForOverflow | apps/backend/app/api/v1/auth.py:210-232 | "Expired or revoked" is only reached by a session that was live but revoked by this very prune as overflow. |
| AuthSessions.RefreshTokens | apps/backend/app/api/v1/auth.py:185-245 | Every rejection is a 401 with the plan's detail, and the sessions roll back, since the checks read the pruned table and only a success writes it. A rotation prunes, revokes the presented session at now and issues a new one, and the response carries the new tokens. |
| AuthSessions.RefreshRotates | apps/backend/app/api/v1/auth.py:241-243 | After a rotation the presented session is gone: it is revoked at now, and the prune inside the new issue deletes it. |
| AuthSessions.RefreshReplayRejected | apps/backend/app/api/v1/auth.py:210-226 | With unique token hashes and a new token whose hash differs, presenting the rotated token again is refused as "Refresh token not recognized", at any later time and under any cap. |
| AuthSessions.FindUser | apps/backend/app/api/v1/auth.py:136-140 | A user with the email is found exactly when one exists. |
| AuthSessions.FindUserFirst | apps/backend/app/api/v1/auth.py:136-140 | The scan stops at the first matching id in the order it is given. |
| AuthSessions.LookupUserSmallest | apps/backend/app/api/v1/auth.py:136-140 | The user lookup takes the smallest matching user id. |
| AuthSessions.LookupUser | apps/backend/app/api/v1/auth.py:136-140 | A user with the email is found exactly when one exists, and the user found has that email. |
| AuthSessions.Register | apps/backend/app/api/v1/auth.py:130-151 | A taken normalized email is a 409 with no change. Otherwise one USER is added under the next id with the normalized email, and a session is issued. |
| AuthSessions.RegisterKeepsEmailsUnique | apps/backend/app/api/v1/auth.py:134-150 | A successful registration keeps emails unique. |
| AuthSessions.LookupUserUnique | apps/backend/app/api/v1/auth.py:136-140 | With unique emails the lookup finds the one user with the email, so scanning in id order does not matter. |
| AuthSessions.LookupSessionUnique | apps/backend/app/api/v1/auth.py:211-226 | With unique token hashes the lookup finds the one session stored under the hash, when it is this user's, so scanning in id order does not matter. |
| AuthSessions.NormalizeEmailIdempotent | apps/backend/app/api/v1/auth.py:134 | A stored email is its own normal form. |
| AuthSessions.Login | apps/backend/app/api/v1/auth.py:155-181 | An unknown email and a wrong password give the same 401 with no change. Otherwise a session is issued for the user found. |
| AuthSessions.LogoutEffect | apps/backend/app/api/v1/auth.py:275-288 | Logout removes the presented token's session and keeps every other user's sessions unchanged. |
| AuthSessions.Logout | apps/backend/app/api/v1/auth.py:249-288 | An undecodable token is a 401 and a token of another user a 403, both with no change. Otherwise the presented session and the user's revoked-and-expired sessions are deleted. |
| RateLimit.RateLimitKey | apps/backend/app/core/rate_limit.py:40-47 | The key is the prefix followed by user:<id> when a user id is sent, else ip:<host>, else ip:unknown. |
| RateLimit.KeysSeparateCallers | apps/backend/app/core/rate_limit.py:40-47 | Two callers share a counter exactly when they are the same user, or both anonymous from the same host. |
| RateLimit.RateLimitExceeded | apps/backend/app/core/rate_limit.py:55-58 | The error is a 429 naming the retry time. |
| RateLimit.RateLimitStore.constructor | apps/backend/app/core/rate_limit.py:15 | The store opens empty. |
| RateLimit.RateLimitStore.Incr | apps/backend/app/core/rate_limit.py:17 | INCR counts from 0 and returns the new count, leaving expiries alone. |
| RateLimit.RateLimitStore.Expire | apps/backend/app/core/rate_limit.py:19 | EXPIRE arms the key's lifetime. A non-positive lifetime deletes the key. |
| RateLimit.RateLimitStore.Ttl | apps/backend/app/core/rate_limit.py:20 | TTL is -2 for a missing key, -1 for one without expiry, and the positive lifetime otherwise. |
| RateLimit.RateLimitStore.Consume | apps/backend/app/core/rate_limit.py:9-27 | As written: the counter is incremented first, and the expiry is armed only by the hit that brings it to 1. Any store failure lets the request through with retry 0, and a failed first EXPIRE leaves a counter without expiry. Without faults the request is allowed exactly when the new count is within the limit, and the retry is the window's remaining lifetime. Other keys are untouched. |
| RateLimit.RateLimitStore.CheckRequest | apps/backend/app/core/rate_limit.py:36-58 | Over the corrected consume: without faults the request is rejected with 429 exactly when the caller's new count exceeds the limit. The retry time is the key's lifetime, or the window for a key that had none. A store failure lets the request through. Other callers' counters are untouched. |
| RateLimit.ThirdRequestRejected | apps/backend/app/core/rate_limit.py:36-58 | On the login limiter's key prefix "auth:login" with a limit of 2 per 60 s, one user's third request is rejected with "Retry in 60s". |
| RateLimit.StuckCounterExample | apps/backend/app/core/rate_limit.py:17-27 | As written, with a limit of 1, a failed EXPIRE on the first hit leaves a counter without expiry. The next two requests are both refused with a retry of 0 s, and the counter still has no expiry. |
| RateLimit.RateLimitStore.ConsumeRearmingExpiry | apps/backend/app/core/rate_limit.py:17-27 | Corrected consume: a counter found without an expiry is armed with the window, whatever its count. After a fault-free request the key always has an expiry. Otherwise it allows, counts and reports the wait as the source does, and touches no other key. |
| RateLimit.RearmedCounterExample | apps/backend/app/core/rate_limit.py:36-58 | With the corrected limiter, the request after a failed EXPIRE is refused with "Retry in 60s", and the key expires after 60 s. |
| Metrics.ExposedNames | apps/backend/app/core/metrics.py:43 | The exposed names are exactly the defined and the recorded metrics, in strictly increasing order. |
| Metrics.ExpositionLines | apps/backend/app/core/metrics.py:44-49 | Three lines per name. |
| Metrics.ExpositionShape | apps/backend/app/core/metrics.py:44-49 | The name at position i has its HELP, TYPE and value lines at positions 3i, 3i+1 and 3i+2. |
| Metrics.EveryMetricRendered | apps/backend/app/core/metrics.py:43-49 | Every defined or recorded metric is rendered with its help text (the default for an undefined one) and its counter value. |
| Metrics.UnrecordedMetricRendersZero | apps/backend/app/core/metrics.py:46 | A defined metric that was never incremented is rendered with value 0. |
| Metrics.ExpositionLinesStep | apps/backend/app/core/metrics.py:44-49 | Each loop step appends the next name's three lines. |
| Metrics.MetricsStore.constructor | apps/backend/app/core/metrics.py:4-22 | The store opens with no counters and the fixed definition table. |
| Metrics.MetricsStore.Increment | apps/backend/app/core/metrics.py:24-26 | Adds the value to one counter, starting from 0. Every other counter is unchanged. |
| Metrics.MetricsStore.Snapshot | apps/backend/app/core/metrics.py:28-30 | The snapshot equals the current counters. |
| Metrics.MetricsStore.RenderPrometheus | apps/backend/app/core/metrics.py:40-50 | The text is the exposition lines of the sorted names joined by newlines, with a final newline. |
| Recommendations.KeptEntry | apps/backend/app/api/v1/me.py:41-43 | An entry contributes at most one genre, and it is non-blank and stripped. |
| Recommendations.EntryParts | apps/backend/app/api/v1/me.py:41-43 | One contribution per entry, in order. |
| Recommendations.FlattenMembership | apps/backend/app/api/v1/me.py:40-44 | A genre is in the flattened list exactly when some part holds it. |
| Recommendations.KeptGenresMembership | apps/backend/app/api/v1/me.py:40-44 | A genre is kept exactly when some entry of the list contributes it. |
| Recommendations.KeptGenresStripped | apps/backend/app/api/v1/me.py:42-43 | Every kept genre is non-blank and stripped. |
| Recommendations.MalformedMetadataHasNoGenres | apps/backend/app/api/v1/me.py:35-39 | Metadata that is not an object, or whose genre entry is not a list, has no genres. |
| Recommendations.KeptGenresStep | apps/backend/app/api/v1/me.py:41-43 | Each loop step appends the entry's contribution. |
| Recommendations.ExtractGenres | apps/backend/app/api/v1/me.py:34-44 | The loop returns the kept genres, in list order, all non-blank and stripped. |
| Recommendations.MatchingGenres | apps/backend/app/api/v1/me.py:92 | Every matching genre is in the list and has a positive lower-cased weight. |
| Recommendations.FirstMatchingGenre | apps/backend/app/api/v1/me.py:92-94 | The first matching genre is the first genre in list order with a positive weight. |
| Recommendations.NoMatchingGenre | apps/backend/app/api/v1/me.py:92-93 | No genre matches exactly when none has a positive weight. |
| Recommendations.SavedForLaterFirst | apps/backend/app/api/v1/me.py:85-86 | Saved for later wins over every other reason. |
| Recommendations.WatchedSourceSecond | apps/backend/app/api/v1/me.py:88-89 | A watched source movie is named by its title. |
| Recommendations.GenreThird | apps/backend/app/api/v1/me.py:91-94 | Otherwise the first positively weighted genre is named. |
| Recommendations.PopularityLast | apps/backend/app/api/v1/me.py:96-99 | Otherwise sold tickets give "Trending", and no sales give "Fresh pick". |
| Recommendations.FeedbackOutcome | apps/backend/app/api/v1/me.py:185-218 | After a submission the event is recorded exactly when active, and never beside the other toggle. It keeps its first recording time. Other users', movies' and event types' rows are untouched. |
| Recommendations.TogglesExclusive | apps/backend/app/api/v1/me.py:185-192 | NOT_INTERESTED and SAVE_FOR_LATER are never both recorded after a submission. |
| Recommendations.FeedbackIdempotent | apps/backend/app/api/v1/me.py:185-218 | Submitting the same feedback twice has the effect of submitting it once. |
| Recommendations.FeedbackStore.constructor | apps/backend/app/api/v1/me.py:172-183 | The store opens on the given movies with no events. |
| Recommendations.FeedbackStore.SubmitFeedback | apps/backend/app/api/v1/me.py:172-227 | An unknown movie is a 404 with no change. Otherwise the events become the feedback outcome, and the answer echoes the request with the recording time of an active toggle. |
| MovieSimilarity.NormalizedGenreShape | apps/backend/app/services/movie_similarity_service.py:24-30 | A normalized genre is non-blank, stripped and lower-case. |
| MovieSimilarity.GenreSetNormalized | apps/backend/app/services/movie_similarity_service.py:24-30 | Every genre of the set is non-blank, stripped and lower-case. |
| MovieSimilarity.KeptEntryNormalized | apps/backend/app/services/movie_similarity_service.py:24-30 | A genre the recommendation side keeps from an entry is, lower-cased, the genre taken here. |
| MovieSimilarity.GenreSetCoversRecommendationGenres | apps/backend/app/services/movie_similarity_service.py:24-30 | Every recommendation-side genre appears here lower-cased. |
| MovieSimilarity.GenreSetOfStringEntries | apps/backend/app/services/movie_similarity_service.py:24-30 | For lists of strings the two extractors agree up to case. |
| MovieSimilarity.NonStringEntryOnlyCountedHere | apps/backend/app/services/movie_similarity_service.py:30 | A non-string genre entry that prints non-blank, such as the float 2.5, is a genre for the similarity rebuild but is skipped by the recommendation helper (apps/backend/app/api/v1/me.py:41-43). |
| MovieSimilarity.RatingSimilarity | apps/backend/app/services/movie_similarity_service.py:33-42 | 0 exactly when a rating is empty, and 1 exactly for equal ratings. Otherwise 0.7 exactly for a shared two-character prefix, and 0.35 exactly when the prefixes differ. |
| MovieSimilarity.RatingSimilaritySymmetric | apps/backend/app/services/movie_similarity_service.py:33-42 | The rating similarity is symmetric. |
| MovieSimilarity.RatingSimilarityPrefixOrder | apps/backend/app/services/movie_similarity_service.py:33-42 | A shared prefix scores higher than a different one. |
| MovieSimilarity.Distance | apps/backend/app/services/movie_similarity_service.py:46 | The distance is 0 exactly for equal runtimes. |
| MovieSimilarity.RuntimeSimilarity | apps/backend/app/services/movie_similarity_service.py:45-47 | In [0, 1]. 1 exactly for equal runtimes, and 0 exactly at 140 minutes apart or more. |
| MovieSimilarity.RuntimeSimilaritySymmetric | apps/backend/app/services/movie_similarity_service.py:45-47 | The runtime similarity is symmetric. |
| MovieSimilarity.RuntimeSimilarityMonotone | apps/backend/app/services/movie_similarity_service.py:45-47 | Closer runtimes are at least as similar. |
| MovieSimilarity.SharedGenreCounts | apps/backend/app/services/movie_similarity_service.py:50-57 | The intersection is no larger than either set or the union, and equals the union exactly for equal sets. |
| MovieSimilarity.GenreSimilarity | apps/backend/app/services/movie_similarity_service.py:50-57 | (0, 0) when either set is empty. Otherwise Jaccard ratio and shared count, in [0, 1], and 1 exactly for equal non-empty sets. |
| MovieSimilarity.GenreSimilaritySymmetric | apps/backend/app/services/movie_similarity_service.py:50-57 | The genre similarity is symmetric. |
| MovieSimilarity.CoWatchSymmetric | apps/backend/app/services/movie_similarity_service.py:108-114 | A pair's co-watch count is the same in both orders. |
| MovieSimilarity.RowViewersSymmetric | apps/backend/app/services/movie_similarity_service.py:95-114 | The users with watch rows for both movies are the same in both orders. |
| MovieSimilarity.GroupedViewers | apps/backend/app/services/movie_similarity_service.py:102-106 | Grouping the watch rows by user loses no viewer of a pair. |
| MovieSimilarity.CountPairsAt | apps/backend/app/services/movie_similarity_service.py:110-114 | The inner loop adds one to both orders of each pair formed with a later movie. |
| MovieSimilarity.CountUserPairs | apps/backend/app/services/movie_similarity_service.py:108-114 | One user's watch list adds one to every ordered pair of distinct movies on it. |
| MovieSimilarity.CountCoWatches | apps/backend/app/services/movie_similarity_service.py:108-114 | Each ordered pair of distinct movies maps to the number of users who watched both, and no movie is paired with itself. |
| MovieSimilarity.GroupWatchRows | apps/backend/app/services/movie_similarity_service.py:102-106 | Each user's set holds exactly the movies of that user's watch rows. |
| MovieSimilarity.CoWatchTable | apps/backend/app/services/movie_similarity_service.py:95-114 | The co-watch table counts, for each pair, the users with rows for both. |
| MovieSimilarity.FeaturesOf | apps/backend/app/services/movie_similarity_service.py:80-88 | A missing rating reads as "". A missing or zero runtime reads as 1, and a runtime is at least 1. The genres are the genre set. |
| MovieSimilarity.EffectiveTopK | apps/backend/app/services/movie_similarity_service.py:65-69 | The requested top-k, or else the configured one, raised to at least 1. |
| MovieSimilarity.Candidates | apps/backend/app/services/movie_similarity_service.py:118-146 | One candidate row per other movie, in id order. Each carries the pair's co-watch count, shared genre count and runtime distance. |
| MovieSimilarity.FeatureTable | apps/backend/app/services/movie_similarity_service.py:80-88 | One feature entry per movie. |
| MovieSimilarity.CollectRows | apps/backend/app/services/movie_similarity_service.py:118-163 | The per-movie loop keeps each movie's first k candidates. |
| MovieSimilarity.RebuiltTable | apps/backend/app/services/movie_similarity_service.py:118-163 | The collected rows, read against the inputs, form the neighbour table. |
| MovieSimilarity.NeighbourRows | apps/backend/app/services/movie_similarity_service.py:80-163 | Every movie gets min(k, n - 1) rows, ordered by (movie, neighbour). Each row describes another movie by its co-watch count, shared genres and runtime distance. |
| MovieSimilarity.RebuildMovieSimilarity | apps/backend/app/services/movie_similarity_service.py:60-169 | Empty with fewer than two movies. Otherwise the neighbour table for the effective top-k. |
| MovieSimilarity.AtMostTopK | apps/backend/app/services/movie_similarity_service.py:148-163 | No movie has more than top-k rows, and no row points to its own movie. |
| MovieSimilarity.PairsDistinct | apps/backend/app/services/movie_similarity_service.py:148-169 | No (movie, neighbour) pair is stored twice. |
| MovieSimilarity.CoWatchCountsSymmetric | apps/backend/app/services/movie_similarity_service.py:108-163 | A pair's stored co-watch count is the same in both directions. |

## Left out

- I/O, network calls, row locks and transactions. A service operation is one atomic method call. Concurrency between requests is not modelled.
- Clocks are integer parameters. Timezones and datetime arithmetic are not modelled.
- uuid4 values are replaced by id-derived tokens (`cs_mock_<order id>`, `tkt_<ticket id>`), which keep them unique but not random.
- The refresh-session and access-token bodies are not modelled. Password hashing, token hashing, JWT minting and JWT decoding are parameters (`verify`, `hashToken`, the decoded subject).
- `auth_max_active_sessions` and `jwt_refresh_token_minutes` are read by apps/backend/app/api/v1/auth.py but are not declared in apps/backend/app/core/config.py. The session cap and the refresh expiry are therefore parameters.
- MovieSimilarity.EffectiveTopK: `recommendation_similarity_top_k`, read by apps/backend/app/services/movie_similarity_service.py:68 whenever no top-k is given, is not declared in apps/backend/app/core/config.py either. The settings class ignores undeclared keys, so as written that read raises, and `rebuild_movie_similarity_job` (movie_similarity_service.py:172-175), which never passes a top-k, fails before it queries anything. The model takes the configured top-k as a parameter instead, so `RebuildMovieSimilarity` returns a table where the job as written raises.
- `expire_overdue_holds` has no body in the repository's reservation service. It is modelled as the sweep the callers rely on: overdue ACTIVE reservations expire and their HELD rows become AVAILABLE. Creating and releasing holds is not part of this model.
- The reservation_seats table is folded into `Reservation.seatIds`, a set, since it is unique per seat. `created_at` on orders and tickets is not modelled.
- `session.add_all` with an auto-increment key is modelled as inserts under consecutive ids, in list order.
- SQL `.first()` in the ticket scan (apps/backend/app/api/v1/tickets.py:43) is modelled as a choice among the matching tickets. `TicketScan.FoundUnique` shows that consistent tables hold at most one.
- `scalar_one_or_none` in the auth lookups (apps/backend/app/api/v1/auth.py:138,163,220) is modelled as the smallest matching id (`LookupUserSmallest`, `LookupSessionSmallest`). The database's unique constraints on users.email and refresh_token_sessions.token_hash are not carried by `AuthSessions.AuthDb` as an invariant. A token hash that collides with a stored one, which the database would reject, is accepted by the model. `LookupUserUnique` and `LookupSessionUnique` show that where the constraints hold, the smallest id is the only match. The users model file is not part of this model.
- The ticket status column is the enum VALID/USED/VOID that the code writes. Other stored strings are covered only by `TicketLifecycle.ResolveState`, which reads free text.
- Upper- and lower-casing cover ASCII letters only, so Python's Unicode case mapping is not modelled. Stripping uses Python's full `str.isspace` set (`Text.IsSpace`).
- Json: `str()` of a nested list or object inside a genre list is a fixed placeholder, not Python's repr. A JSON float is carried as the text `str()` prints for it (`JFloat`). The model does not derive that text from a binary float value.
- MovieSimilarity.RebuildMovieSimilarity: the weighted float score (0.45 genre + 0.15 rating + 0.15 runtime + 0.25 co-watch) and the sort by it are not modelled. Each movie keeps its candidates in neighbour-id order, so which k neighbours are kept differs from the source. What is proved is the count per movie, the row contents and the absence of duplicates.
- The similarity rebuild's database reads and the final delete-and-insert are modelled as inputs and the returned rows.
- Redis key lifetimes do not count down: the dedup key's TTL and the rate-limit window never elapse in the model.
- Metrics increments made inside handlers and logging are not modelled.
- Cache invalidation (`delete_cache_prefix`) is not modelled in any of its three places: after feedback, after a successful finalize (apps/backend/app/services/payment_service.py:183), and after the similarity rebuild (apps/backend/app/services/movie_similarity_service.py:92,168).
- The webhook consumes its event key before processing. A delivery whose processing then fails is not retried, and the model states that as it is.
- The list endpoints of the user portal (tickets, orders, recommendation listing with its freshness and popularity scores) are not part of this model.
- TicketScan.ScanTicket follows the code, not the test. The scan does not consult the lifecycle window, so a VALID ticket whose showtime is over is still admitted (apps/backend/app/api/v1/tickets.py:73-84). apps/backend/tests/test_portal_api.py:92-114 expects such a scan to answer INVALID with an "expired" message.
- The scan's admin-user dependency and its rate limiter are not part of `TicketScan.ScanTicket`. The limiter itself is modelled in `RateLimit`.
- The endpoints use the corrected limiter (`RateLimit.RateLimitStore.CheckRequest` calls `ConsumeRearmingExpiry`). The as-written `Consume` is kept beside it for the finding below.

## Findings

| source | as written | input that shows it | evidently intended | confidence | as-written member | corrected member |
|---|---|---|---|---|---|---|
| apps/backend/app/core/rate_limit.py:17-23 | The window's EXPIRE is issued only when INCR returns 1. If that one EXPIRE fails, the request fails open and the counter is left without a lifetime. | Limit 1 per 60 s. The first request's EXPIRE fails. Every later request from the same caller is then rejected with "Retry in 0s", forever. | A counter always expires within its window. | not executed | RateLimit.StuckCounterExample | RateLimit.RateLimitStore.ConsumeRearmingExpiry |

=== FILE: auth.dfy ===
/** The refresh-token session table behind register, login, refresh and logout: sessions are
    issued per login, pruned to a per-user cap of live sessions, rotated on refresh and deleted
    on logout. Password hashing, token minting, token hashing and JWT decoding are parameters. */
module AuthSessions {
  import opened Wrappers
  import opened Text
  import opened Sorting

  datatype User = User(email: string, passwordHash: string, role: string)

  /** A refresh_token_sessions row; times are integers on one clock. */
  datatype RefreshSession = RefreshSession(
    userId: nat,
    tokenHash: string,
    expiresAt: int,
    revokedAt: Option<int>,
    createdAt: int)

  datatype TokenResponse = TokenResponse(accessToken: string, refreshToken: string, userId: nat)

  /** The table the service keeps: users and their refresh sessions. */
  class AuthDb {
    var users: map<nat, User>
    var sessions: map<nat, RefreshSession>
    var nextUserId: nat
    var nextSessionId: nat

    /** Row ids are handed out upwards: every stored id lies below its table's counter, so an
        insert under the counter never overwrites a row. */
    predicate Valid()
      reads this
    {
      (forall u :: u in users ==> u < nextUserId) &&
      (forall s :: s in sessions ==> s < nextSessionId)
    }

    constructor ()
      ensures users == map[] && sessions == map[] && nextUserId == 0 && nextSessionId == 0
      ensures Valid()
    {
      users := map[];
      sessions := map[];
      nextUserId := 0;
      nextSessionId := 0;
    }
  }

  // ----- Pruning -----

  /** Lower-cased and stripped, as emails are looked up and stored. */
  function NormalizeEmail(email: string): string
  {
    Lower(Strip(email))
  }

  /** A session of `userId` that can still be refreshed at `now`. */
  predicate Live(s: RefreshSession, userId: int, now: int)
  {
    s.userId == userId && s.revokedAt.None? && s.expiresAt > now
  }

  /** A session of `userId` that the first prune step deletes. */
  predicate Dead(s: RefreshSession, userId: int, now: int)
  {
    s.userId == userId && (s.revokedAt.Some? || s.expiresAt <= now)
  }

  /** Session i comes before session j in the order (created_at desc, id desc). */
  predicate Newer(sessions: map<nat, RefreshSession>, i: nat, j: nat)
    requires i in sessions && j in sessions
  {
    sessions[i].createdAt > sessions[j].createdAt ||
    (sessions[i].createdAt == sessions[j].createdAt && i > j)
  }

  /** The live sessions of the user that come before session `id`: its position in the ordered
      list of live sessions. */
  function NewerLive(sessions: map<nat, RefreshSession>, userId: int, now: int, id: nat): set<nat>
    requires id in sessions
  {
    set j | j in sessions && Live(sessions[j], userId, now) && Newer(sessions, j, id)
  }

  /** Session `id` lies in the slice [cap:] of the ordered list of live sessions. */
  predicate Overflowing(sessions: map<nat, RefreshSession>, userId: int, now: int, cap: nat, id: nat)
    requires id in sessions
  {
    Live(sessions[id], userId, now) && |NewerLive(sessions, userId, now, id)| >= cap
  }

  /** The first prune step: delete the user's revoked or expired sessions. */
  function WithoutDead(sessions: map<nat, RefreshSession>, userId: int, now: int): map<nat, RefreshSession>
  {
    map id | id in sessions && !Dead(sessions[id], userId, now) :: sessions[id]
  }

  /** The second prune step: the user's live sessions beyond the cap are revoked at `now`. */
  function RevokeOverflow(sessions: map<nat, RefreshSession>, userId: int, now: int, cap: nat)
    : map<nat, RefreshSession>
  {
    map id | id in sessions ::
      if Overflowing(sessions, userId, now, cap, id) then sessions[id].(revokedAt := Some(now)) else sessions[id]
  }

  function Pruned(sessions: map<nat, RefreshSession>, userId: int, now: int, cap: int): map<nat, RefreshSession>
  {
    RevokeOverflow(WithoutDead(sessions, userId, now), userId, now, Max(cap, 1))
  }

  /** _prune_refresh_sessions; `cap` is the configured limit of live sessions per user. */
  method PruneRefreshSessions(db: AuthDb, userId: int, now: int, cap: int)
    requires db.Valid()
    modifies db
    ensures db.Valid()
    ensures db.sessions == Pruned(old(db.sessions), userId, now, cap)
    ensures db.users == old(db.users) && db.nextUserId == old(db.nextUserId) && db.nextSessionId == old(db.nextSessionId)
  {
    db.sessions := WithoutDead(db.sessions, userId, now);
    var maxActiveSessions := Max(cap, 1);
    var overflow := set id | id in db.sessions && Overflowing(db.sessions, userId, now, maxActiveSessions, id);
    if overflow != {} {
      db.sessions := RevokeOverflow(db.sessions, userId, now, maxActiveSessions);
    } else {
      forall id | id in db.sessions ensures !Overflowing(db.sessions, userId, now, maxActiveSessions, id) {
        assert id !in overflow;
      }
      assert RevokeOverflow(db.sessions, userId, now, maxActiveSessions) == db.sessions;
    }
    PruneEffect(old(db.sessions), userId, now, cap);
  }

  /** Pruning deletes exactly the user's revoked or expired sessions, only revokes (at `now`)
      otherwise, and leaves every other user's sessions as they were. */
  lemma PruneEffect(sessions: map<nat, RefreshSession>, userId: int, now: int, cap: int)
    ensures forall id :: id in Pruned(sessions, userId, now, cap) <==> id in sessions && !Dead(sessions[id], userId, now)
    ensures forall id :: id in Pruned(sessions, userId, now, cap) ==>
      Pruned(sessions, userId, now, cap)[id] == sessions[id] ||
      Pruned(sessions, userId, now, cap)[id] == sessions[id].(revokedAt := Some(now))
    ensures forall id :: id in sessions && sessions[id].userId != userId ==>
      id in Pruned(sessions, userId, now, cap) && Pruned(sessions, userId, now, cap)[id] == sessions[id]
  {
  }

  lemma NewerTransitive(sessions: map<nat, RefreshSession>, i: nat, j: nat, k: nat)
    requires i in sessions && j in sessions && k in sessions
    requires Newer(sessions, i, j) && Newer(sessions, j, k)
    ensures Newer(sessions, i, k)
  {
  }

  /** Every non-empty set of sessions has an oldest member. */
  lemma {:induction false} OldestExists(sessions: map<nat, RefreshSession>, s: set<nat>)
    requires s != {} && s <= sessions.Keys
    ensures exists m :: m in s && forall x :: x in s && x != m ==> Newer(sessions, x, m)
    decreases |s|
  {
    var x :| x in s;
    if s == {x} {
      assert x in s;
    } else {
      var rest := s - {x};
      OldestExists(sessions, rest);
      var m :| m in rest && forall y :: y in rest && y != m ==> Newer(sessions, y, m);
      if Newer(sessions, x, m) {
        assert forall y :: y in s && y != m ==> Newer(sessions, y, m);
      } else {
        forall y | y in s && y != x ensures Newer(sessions, y, x) {
          if y != m {
            NewerTransitive(sessions, y, m, x);
          }
        }
      }
    }
  }

  /** The live sessions of a user after revoking the overflow are the live ones before it that
      are not overflowing. */
  lemma LiveAfterRevoke(sessions: map<nat, RefreshSession>, userId: int, now: int, cap: nat, id: nat)
    requires id in sessions
    ensures id in RevokeOverflow(sessions, userId, now, cap)
    ensures Live(RevokeOverflow(sessions, userId, now, cap)[id], userId, now) <==>
      Live(sessions[id], userId, now) && !Overflowing(sessions, userId, now, cap, id)
  {
  }

  function LiveSessions(sessions: map<nat, RefreshSession>, userId: int, now: int): set<nat>
  {
    set id | id in sessions && Live(sessions[id], userId, now)
  }

  /** After revoking the overflow at most `cap` live sessions remain. */
  lemma RevokeOverflowCap(sessions: map<nat, RefreshSession>, userId: int, now: int, cap: nat)
    ensures |LiveSessions(RevokeOverflow(sessions, userId, now, cap), userId, now)| <= cap
  {
    var after := RevokeOverflow(sessions, userId, now, cap);
    var kept := LiveSessions(after, userId, now);
    forall id | id in kept ensures id in sessions && Live(sessions[id], userId, now) && !Overflowing(sessions, userId, now, cap, id) {
      LiveAfterRevoke(sessions, userId, now, cap, id);
    }
    if kept != {} {
      OldestExists(sessions, kept);
      var m :| m in kept && forall x :: x in kept && x != m ==> Newer(sessions, x, m);
      assert kept - {m} <= NewerLive(sessions, userId, now, m);
      assert |NewerLive(sessions, userId, now, m)| < cap;
      SubsetCardinality(kept - {m}, NewerLive(sessions, userId, now, m));
    }
  }

  /** The sessions kept live are newer than every live session that was revoked. */
  lemma RevokeOverflowKeepsNewest(sessions: map<nat, RefreshSession>, userId: int, now: int, cap: nat, a: nat, b: nat)
    requires a in sessions && b in sessions
    requires Live(sessions[a], userId, now) && Live(sessions[b], userId, now)
    requires Live(RevokeOverflow(sessions, userId, now, cap)[a], userId, now)
    requires !Live(RevokeOverflow(sessions, userId, now, cap)[b], userId, now)
    ensures Newer(sessions, a, b)
  {
    LiveAfterRevoke(sessions, userId, now, cap, a);
    LiveAfterRevoke(sessions, userId, now, cap, b);
    if !Newer(sessions, a, b) {
      assert a != b;
      assert Newer(sessions, b, a);
      var nb := NewerLive(sessions, userId, now, b);
      var na := NewerLive(sessions, userId, now, a);
      forall j | j in nb + {b} ensures j in na {
        if j != b {
          NewerTransitive(sessions, j, b, a);
        }
      }
      SubsetCardinality(nb + {b}, na);
    }
  }

  /** After a prune the user has at most max(cap, 1) live sessions. */
  lemma PruneCap(sessions: map<nat, RefreshSession>, userId: int, now: int, cap: int)
    ensures |LiveSessions(Pruned(sessions, userId, now, cap), userId, now)| <= Max(cap, 1)
  {
    RevokeOverflowCap(WithoutDead(sessions, userId, now), userId, now, Max(cap, 1));
  }

  // ----- Issuing, refreshing, logging out -----

  /** A new session for `userId`, then a prune (_issue_auth_tokens). */
  function Issued(sessions: map<nat, RefreshSession>, id: nat, userId: nat, tokenHash: string, expiresAt: int, now: int, cap: int)
    : map<nat, RefreshSession>
  {
    Pruned(sessions[id := RefreshSession(userId, tokenHash, expiresAt, None, now)], userId, now, cap)
  }

  /** _issue_auth_tokens; `refreshToken` and `expiresAt` come from the token minter,
      `accessToken` from the access-token minter. */
  method IssueAuthTokens(db: AuthDb, userId: nat, accessToken: string, refreshToken: string,
                         hashToken: string -> string, expiresAt: int, now: int, cap: int)
    returns (response: TokenResponse)
    requires db.Valid()
    modifies db
    ensures db.Valid()
    ensures db.sessions == Issued(old(db.sessions), old(db.nextSessionId), userId, hashToken(refreshToken), expiresAt, now, cap)
    ensures db.nextSessionId == old(db.nextSessionId) + 1
    ensures db.users == old(db.users) && db.nextUserId == old(db.nextUserId)
    ensures response == TokenResponse(accessToken, refreshToken, userId)
  {
    db.sessions := db.sessions[db.nextSessionId := RefreshSession(userId, hashToken(refreshToken), expiresAt, None, now)];
    db.nextSessionId := db.nextSessionId + 1;
    PruneRefreshSessions(db, userId, now, cap);
    response := TokenResponse(accessToken, refreshToken, userId);
  }

  /** A freshly issued session with a future expiry survives its own prune live: it is the newest
      session of its user when ids are allocated upwards and no session was created later. */
  lemma IssuedSessionSurvives(sessions: map<nat, RefreshSession>, id: nat, userId: nat, tokenHash: string,
                              expiresAt: int, now: int, cap: int)
    requires forall j :: j in sessions ==> j < id && sessions[j].createdAt <= now
    requires expiresAt > now
    ensures id in Issued(sessions, id, userId, tokenHash, expiresAt, now, cap)
    ensures Live(Issued(sessions, id, userId, tokenHash, expiresAt, now, cap)[id], userId, now)
  {
    var added := sessions[id := RefreshSession(userId, tokenHash, expiresAt, None, now)];
    var alive := WithoutDead(added, userId, now);
    assert id in alive;
    assert NewerLive(alive, userId, now, id) == {};
    LiveAfterRevoke(alive, userId, now, Max(cap, 1), id);
  }

  /** The first row id, in id order, whose session belongs to `userId` and carries `tokenHash`. */
  function FindSession(ids: seq<nat>, sessions: map<nat, RefreshSession>, userId: int, tokenHash: string): (found: Option<nat>)
    ensures found.Some? ==> found.value in ids
    ensures found.Some? ==>
      found.value in sessions && sessions[found.value].userId == userId && sessions[found.value].tokenHash == tokenHash
    ensures found.None? <==> forall id :: id in ids && id in sessions ==>
      !(sessions[id].userId == userId && sessions[id].tokenHash == tokenHash)
  {
    if ids == [] then None
    else if ids[0] in sessions && sessions[ids[0]].userId == userId && sessions[ids[0]].tokenHash == tokenHash then Some(ids[0])
    else FindSession(ids[1..], sessions, userId, tokenHash)
  }

  function LookupSession(sessions: map<nat, RefreshSession>, userId: int, tokenHash: string): Option<nat>
  {
    FindSession(SortedNats(sessions.Keys), sessions, userId, tokenHash)
  }

  /** The scan stops at the first match: the id found comes no later than any matching id. */
  lemma {:induction false} FindSessionFirst(ids: seq<nat>, sessions: map<nat, RefreshSession>, userId: int,
                                            tokenHash: string, k: nat)
    requires k < |ids| && ids[k] in sessions && sessions[ids[k]].userId == userId && sessions[ids[k]].tokenHash == tokenHash
    ensures FindSession(ids, sessions, userId, tokenHash).Some?
    ensures FindSession(ids, sessions, userId, tokenHash).value in ids[..k + 1]
    decreases k
  {
    var m := ids[0];
    if !(m in sessions && sessions[m].userId == userId && sessions[m].tokenHash == tokenHash) {
      FindSessionFirst(ids[1..], sessions, userId, tokenHash, k - 1);
      assert ids[1..][..k] == ids[1..k + 1];
    }
  }

  /** The session lookup takes the smallest matching row id. */
  lemma LookupSessionSmallest(sessions: map<nat, RefreshSession>, userId: int, tokenHash: string, id: nat)
    requires id in sessions && sessions[id].userId == userId && sessions[id].tokenHash == tokenHash
    ensures LookupSession(sessions, userId, tokenHash).Some?
    ensures LookupSession(sessions, userId, tokenHash).value <= id
  {
    var ids := SortedNats(sessions.Keys);
    var k :| 0 <= k < |ids| && ids[k] == id;
    FindSessionFirst(ids, sessions, userId, tokenHash, k);
    var found := FindSession(ids, sessions, userId, tokenHash).value;
    var j :| 0 <= j <= k && ids[j] == found;
    assert j < k ==> ids[j] < ids[k];
  }

  /** What refresh_tokens does to `sessions`: the prune, the lookup of the presented token and
      its checks; every failure rolls back and leaves the sessions as they were. */
  datatype RefreshPlan = Reject(detail: string) | Rotate(presented: nat)

  function PlanRefresh(sessions: map<nat, RefreshSession>, users: map<nat, User>, subject: Option<int>,
                       tokenHash: string, now: int, cap: int): (plan: RefreshPlan)
    ensures plan.Rotate? ==>
      subject.Some? && subject.value >= 0 && subject.value as nat in users &&
      plan.presented in Pruned(sessions, subject.value, now, cap) &&
      Live(Pruned(sessions, subject.value, now, cap)[plan.presented], subject.value, now) &&
      Pruned(sessions, subject.value, now, cap)[plan.presented].tokenHash == tokenHash
    ensures subject.None? ==> plan == Reject("Invalid refresh token")
    ensures subject.Some? && LookupSession(Pruned(sessions, subject.value, now, cap), subject.value, tokenHash).None? ==>
      plan == Reject("Refresh token not recognized")
  {
    if subject.None? then Reject("Invalid refresh token")
    else
      var userId := subject.value;
      var pruned := Pruned(sessions, userId, now, cap);
      match LookupSession(pruned, userId, tokenHash)
      case None => Reject("Refresh token not recognized")
      case Some(id) =>
        if pruned[id].revokedAt.Some? || pruned[id].expiresAt <= now then Reject("Refresh token expired or revoked")
        else if userId < 0 || userId as nat !in users then Reject("User not found")
        else Rotate(id)
  }

  /** Only a session revoked by this very prune, as one of the oldest beyond the cap, reaches the
      "expired or revoked" answer: the prune has already deleted every revoked or expired one. */
  lemma ExpiredOrRevokedOnlyForOverflow(sessions: map<nat, RefreshSession>, users: map<nat, User>, subject: Option<int>,
                                        tokenHash: string, now: int, cap: int)
    requires PlanRefresh(sessions, users, subject, tokenHash, now, cap) == Reject("Refresh token expired or revoked")
    ensures subject.Some?
    ensures var id := LookupSession(Pruned(sessions, subject.value, now, cap), subject.value, tokenHash).value;
      id in sessions && Live(sessions[id], subject.value, now) &&
      Overflowing(WithoutDead(sessions, subject.value, now), subject.value, now, Max(cap, 1), id)
  {
    var userId := subject.value;
    var id := LookupSession(Pruned(sessions, userId, now, cap), userId, tokenHash).value;
    PruneEffect(sessions, userId, now, cap);
    LiveAfterRevoke(WithoutDead(sessions, userId, now), userId, now, Max(cap, 1), id);
  }

  /** refresh_tokens. `subject` is the user id decoded from the token (None when the token does not
      decode or its subject is not an integer); `hashToken` is the token hash; `next...` the
      newly minted tokens. */
  method RefreshTokens(db: AuthDb, refreshToken: string, subject: Option<int>, hashToken: string -> string,
                       accessToken: string, nextRefreshToken: string, nextExpiresAt: int, now: int, cap: int)
    returns (r: Result<TokenResponse>)
    requires db.Valid()
    modifies db
    ensures db.Valid()
    ensures var plan := PlanRefresh(old(db.sessions), old(db.users), subject, hashToken(refreshToken), now, cap);
      (plan.Reject? ==>
        r == Err(HttpError(401, plan.detail)) &&
        db.sessions == old(db.sessions) && db.nextSessionId == old(db.nextSessionId)) &&
      (plan.Rotate? ==>
        var pruned := Pruned(old(db.sessions), subject.value, now, cap);
        r == Ok(TokenResponse(accessToken, nextRefreshToken, subject.value as nat)) &&
        db.sessions == Issued(pruned[plan.presented := pruned[plan.presented].(revokedAt := Some(now))],
                              old(db.nextSessionId), subject.value as nat, hashToken(nextRefreshToken), nextExpiresAt, now, cap) &&
        db.nextSessionId == old(db.nextSessionId) + 1)
    ensures db.users == old(db.users) && db.nextUserId == old(db.nextUserId)
  {
    if subject.None? {
      return Err(HttpError(401, "Invalid refresh token"));
    }
    var userId := subject.value;
    var tokenHash := hashToken(refreshToken);
    // The prune, the lookup and the checks run in one transaction, and every raise rolls the
    // prune back with it: the checks read the pruned table, which is written only on success.
    var pruned := Pruned(db.sessions, userId, now, cap);
    ghost var plan := PlanRefresh(db.sessions, db.users, subject, tokenHash, now, cap);
    var found := LookupSession(pruned, userId, tokenHash);
    var rejection: Option<string> := None;
    if found.None? {
      rejection := Some("Refresh token not recognized");
    } else if pruned[found.value].revokedAt.Some? || pruned[found.value].expiresAt <= now {
      rejection := Some("Refresh token expired or revoked");
    } else if userId < 0 || userId as nat !in db.users {
      rejection := Some("User not found");
    }
    if rejection.Some? {
      assert plan == Reject(rejection.value);
      return Err(HttpError(401, rejection.value));
    }
    var id := found.value;
    assert plan == Rotate(id);
    PruneRefreshSessions(db, userId, now, cap);
    db.sessions := db.sessions[id := db.sessions[id].(revokedAt := Some(now))];
    var response := IssueAuthTokens(db, userId as nat, accessToken, nextRefreshToken, hashToken, nextExpiresAt, now, cap);
    return Ok(response);
  }

  /** A successful refresh rotates: the presented session is revoked at `now`, and the prune
      inside the new issue then deletes it, since it is a revoked session of the same user. */
  lemma RefreshRotates(sessions: map<nat, RefreshSession>, presented: nat, id: nat, userId: nat,
                       tokenHash: string, expiresAt: int, now: int, cap: int)
    requires presented in sessions && presented != id && sessions[presented].userId == userId
    ensures var rotated := sessions[presented := sessions[presented].(revokedAt := Some(now))];
      presented !in Issued(rotated, id, userId, tokenHash, expiresAt, now, cap)
  {
    var rotated := sessions[presented := sessions[presented].(revokedAt := Some(now))];
    PruneEffect(rotated[id := RefreshSession(userId, tokenHash, expiresAt, None, now)], userId, now, cap);
  }

  /** Presenting a rotated refresh token again is refused as not recognized, at any later time
      and under any cap: its session is gone, no other session carries its hash while token
      hashes are unique, and the new session carries the new token's hash. */
  lemma RefreshReplayRejected(sessions: map<nat, RefreshSession>, users: map<nat, User>, presented: nat, id: nat,
                              userId: nat, tokenHash: string, newHash: string, expiresAt: int, now: int, cap: int,
                              later: int, laterCap: int)
    requires UniqueTokenHashes(sessions) && id !in sessions && newHash != tokenHash
    requires presented in sessions && sessions[presented].userId == userId && sessions[presented].tokenHash == tokenHash
    ensures var rotated := sessions[presented := sessions[presented].(revokedAt := Some(now))];
      PlanRefresh(Issued(rotated, id, userId, newHash, expiresAt, now, cap), users, Some(userId), tokenHash, later, laterCap)
        == Reject("Refresh token not recognized")
  {
    var rotated := sessions[presented := sessions[presented].(revokedAt := Some(now))];
    var added := rotated[id := RefreshSession(userId, newHash, expiresAt, None, now)];
    var after := Issued(rotated, id, userId, newHash, expiresAt, now, cap);
    PruneEffect(added, userId, now, cap);
    forall k | k in after ensures after[k].tokenHash != tokenHash {
      assert k in added && k != presented;
    }
    var pruned := Pruned(after, userId, later, laterCap);
    PruneEffect(after, userId, later, laterCap);
    forall k | k in pruned ensures pruned[k].tokenHash != tokenHash {
      assert k in after;
    }
  }

  /** The first user id, in id order, registered with `email`. */
  function FindUser(ids: seq<nat>, users: map<nat, User>, email: string): (found: Option<nat>)
    ensures found.Some? ==> found.value in users && users[found.value].email == email
    ensures found.None? <==> forall id :: id in ids && id in users ==> users[id].email != email
  {
    if ids == [] then None
    else if ids[0] in users && users[ids[0]].email == email then Some(ids[0])
    else FindUser(ids[1..], users, email)
  }

  /** The scan stops at the first match: the id found comes no later than any matching id. */
  lemma {:induction false} FindUserFirst(ids: seq<nat>, users: map<nat, User>, email: string, k: nat)
    requires k < |ids| && ids[k] in users && users[ids[k]].email == email
    ensures FindUser(ids, users, email).Some?
    ensures FindUser(ids, users, email).value in ids[..k + 1]
    decreases k
  {
    if !(ids[0] in users && users[ids[0]].email == email) {
      FindUserFirst(ids[1..], users, email, k - 1);
      assert ids[1..][..k] == ids[1..k + 1];
    }
  }

  /** The user lookup takes the smallest matching user id. */
  lemma LookupUserSmallest(users: map<nat, User>, email: string, id: nat)
    requires id in users && users[id].email == email
    ensures LookupUser(users, email).Some?
    ensures LookupUser(users, email).value <= id
  {
    var ids := SortedNats(users.Keys);
    var k :| 0 <= k < |ids| && ids[k] == id;
    FindUserFirst(ids, users, email, k);
    var found := FindUser(ids, users, email).value;
    var j :| 0 <= j <= k && ids[j] == found;
    assert j < k ==> ids[j] < ids[k];
  }

  function LookupUser(users: map<nat, User>, email: string): (found: Option<nat>)
    ensures found.None? <==> forall id :: id in users ==> users[id].email != email
    ensures found.Some? ==> found.value in users && users[found.value].email == email
  {
    FindUser(SortedNats(users.Keys), users, email)
  }

  /** register. `passwordHash` is the hash of the submitted password. */
  method Register(db: AuthDb, email: string, passwordHash: string, accessToken: string, refreshToken: string,
                  hashToken: string -> string, expiresAt: int, now: int, cap: int)
    returns (r: Result<TokenResponse>)
    requires db.Valid()
    modifies db
    ensures db.Valid()
    ensures (exists id :: id in old(db.users) && old(db.users)[id].email == NormalizeEmail(email)) ==>
      r == Err(HttpError(409, "Email is already registered")) &&
      db.users == old(db.users) && db.sessions == old(db.sessions) &&
      db.nextUserId == old(db.nextUserId) && db.nextSessionId == old(db.nextSessionId)
    ensures (forall id :: id in old(db.users) ==> old(db.users)[id].email != NormalizeEmail(email)) ==>
      db.users == old(db.users)[old(db.nextUserId) := User(NormalizeEmail(email), passwordHash, "USER")] &&
      db.nextUserId == old(db.nextUserId) + 1 &&
      db.sessions == Issued(old(db.sessions), old(db.nextSessionId), old(db.nextUserId), hashToken(refreshToken), expiresAt, now, cap) &&
      db.nextSessionId == old(db.nextSessionId) + 1 &&
      r == Ok(TokenResponse(accessToken, refreshToken, old(db.nextUserId)))
  {
    var normalized := NormalizeEmail(email);
    if LookupUser(db.users, normalized).Some? {
      return Err(HttpError(409, "Email is already registered"));
    }
    var userId := db.nextUserId;
    db.users := db.users[userId := User(normalized, passwordHash, "USER")];
    db.nextUserId := userId + 1;
    var response := IssueAuthTokens(db, userId, accessToken, refreshToken, hashToken, expiresAt, now, cap);
    return Ok(response);
  }

  /** No two users share an email. */
  predicate UniqueEmails(users: map<nat, User>)
  {
    forall a, b :: a in users && b in users && users[a].email == users[b].email ==> a == b
  }

  /** A registration that succeeds keeps emails unique. */
  lemma RegisterKeepsEmailsUnique(users: map<nat, User>, id: nat, email: string, passwordHash: string)
    requires UniqueEmails(users) && id !in users
    requires forall u :: u in users ==> users[u].email != NormalizeEmail(email)
    ensures UniqueEmails(users[id := User(NormalizeEmail(email), passwordHash, "USER")])
  {
  }

  /** Where emails are unique, as the users table's unique email column keeps them, the lookup
      finds the one user registered with the email, whatever order it scans in. */
  lemma LookupUserUnique(users: map<nat, User>, email: string, id: nat)
    requires UniqueEmails(users) && id in users && users[id].email == email
    ensures LookupUser(users, email) == Some(id)
  {
  }

  /** refresh_token_sessions.token_hash is unique. */
  predicate UniqueTokenHashes(sessions: map<nat, RefreshSession>)
  {
    forall a, b :: a in sessions && b in sessions && sessions[a].tokenHash == sessions[b].tokenHash ==> a == b
  }

  /** Where token hashes are unique, the session lookup finds the one session stored under the
      hash, provided it belongs to the user. */
  lemma LookupSessionUnique(sessions: map<nat, RefreshSession>, userId: int, tokenHash: string, id: nat)
    requires UniqueTokenHashes(sessions)
    requires id in sessions && sessions[id].userId == userId && sessions[id].tokenHash == tokenHash
    ensures LookupSession(sessions, userId, tokenHash) == Some(id)
  {
  }

  /** A stored email is its own normal form, so registering or logging in with it again finds
      the same user. */
  lemma NormalizeEmailIdempotent(email: string)
    ensures NormalizeEmail(NormalizeEmail(email)) == NormalizeEmail(email)
  {
    var stripped := Strip(email);
    StripCharacterized(email);
    LowerKeepsStripped(stripped);
    StripStripped(Lower(stripped));
    LowerIdempotent(stripped);
  }

  /** login. `verify` checks a password against a stored hash; an unknown email and a wrong
      password get the same answer. */
  method Login(db: AuthDb, email: string, password: string, verify: (string, string) -> bool,
               accessToken: string, refreshToken: string, hashToken: string -> string, expiresAt: int, now: int, cap: int)
    returns (r: Result<TokenResponse>)
    requires db.Valid()
    modifies db
    ensures db.Valid()
    ensures var found := LookupUser(old(db.users), NormalizeEmail(email));
      (found.None? || !verify(password, old(db.users)[found.value].passwordHash) ==>
        r == Err(HttpError(401, "Invalid credentials")) &&
        db.sessions == old(db.sessions) && db.nextSessionId == old(db.nextSessionId)) &&
      (found.Some? && verify(password, old(db.users)[found.value].passwordHash) ==>
        r == Ok(TokenResponse(accessToken, refreshToken, found.value)) &&
        db.sessions == Issued(old(db.sessions), old(db.nextSessionId), found.value, hashToken(refreshToken), expiresAt, now, cap) &&
        db.nextSessionId == old(db.nextSessionId) + 1)
    ensures db.users == old(db.users) && db.nextUserId == old(db.nextUserId)
  {
    var found := LookupUser(db.users, NormalizeEmail(email));
    var passwordValid := false;
    if found.Some? {
      passwordValid := verify(password, db.users[found.value].passwordHash);
    }
    if found.None? || !passwordValid {
      return Err(HttpError(401, "Invalid credentials"));
    }
    var response := IssueAuthTokens(db, found.value, accessToken, refreshToken, hashToken, expiresAt, now, cap);
    return Ok(response);
  }

  /** The two deletes of logout: the presented token's session, then the user's sessions that are
      both revoked and expired. */
  function LoggedOut(sessions: map<nat, RefreshSession>, userId: int, tokenHash: string, now: int): map<nat, RefreshSession>
  {
    var first := map id | id in sessions && !(sessions[id].userId == userId && sessions[id].tokenHash == tokenHash) :: sessions[id];
    map id | id in first && !(first[id].userId == userId && first[id].revokedAt.Some? && first[id].expiresAt <= now) :: first[id]
  }

  /** Logout removes the presented token's session and only sessions of the same user. */
  lemma LogoutEffect(sessions: map<nat, RefreshSession>, userId: int, tokenHash: string, now: int)
    ensures forall id :: id in LoggedOut(sessions, userId, tokenHash, now) ==>
      id in sessions && LoggedOut(sessions, userId, tokenHash, now)[id] == sessions[id] &&
      !(sessions[id].userId == userId && sessions[id].tokenHash == tokenHash)
    ensures forall id :: id in sessions && sessions[id].userId != userId ==> id in LoggedOut(sessions, userId, tokenHash, now)
  {
  }

  /** logout. `currentUserId` is the authenticated caller, `subject` the user id decoded from
      the refresh token. */
  method Logout(db: AuthDb, currentUserId: nat, refreshToken: string, subject: Option<int>,
                hashToken: string -> string, now: int)
    returns (r: Result<()>)
    requires db.Valid()
    modifies db
    ensures db.Valid()
    ensures subject.None? ==> r == Err(HttpError(401, "Invalid refresh token")) && db.sessions == old(db.sessions)
    ensures subject.Some? && subject.value != currentUserId ==>
      r == Err(HttpError(403, "Token user mismatch")) && db.sessions == old(db.sessions)
    ensures subject == Some(currentUserId as int) ==>
      r == Ok(()) && db.sessions == LoggedOut(old(db.sessions), currentUserId, hashToken(refreshToken), now)
    ensures db.users == old(db.users) && db.nextUserId == old(db.nextUserId) && db.nextSessionId == old(db.nextSessionId)
  {
    if subject.None? {
      return Err(HttpError(401, "Invalid refresh token"));
    }
    var userId := subject.value;
    if currentUserId != userId {
      return Err(HttpError(403, "Token user mismatch"));
    }
    var tokenHash := hashToken(refreshToken);
    db.sessions := map id | id in db.sessions && !(db.sessions[id].userId == userId && db.sessions[id].tokenHash == tokenHash) :: db.sessions[id];
    db.sessions := map id | id in db.sessions && !(db.sessions[id].userId == userId && db.sessions[id].revokedAt.Some? && db.sessions[id].expiresAt <= now) :: db.sessions[id];
    return Ok(());
  }
}

=== FILE: booking_store.dfy ===
/** The tables of the booking core (seats, seat maps, auditoriums, per-showtime seat status rows,
    reservations, orders and tickets), the integrity constraints the schema and the services keep
    on them, and the hold-expiry sweep the payment service runs before it reads a reservation. */
module BookingStore {
  import opened Wrappers
  import opened Text

  // ----- Catalogue rows touched by the seat inventory -----

  datatype Seat = Seat(auditoriumId: nat, code: string, rowLabel: string, number: nat, seatType: string)

  /** The layout document stored with a seat map. */
  datatype Layout = Layout(rows: seq<string>, seatsPerRow: nat, aislesAfter: seq<nat>, screenPosition: string)

  datatype SeatMap = SeatMap(name: string, layout: Layout)

  datatype Auditorium = Auditorium(name: string, seatmapId: Option<nat>)

  // ----- Booking rows -----

  datatype SeatStatus = Available | Held | Sold

  /** A showtime_seat_status row; the table is keyed by (showtime id, seat id), which is the
      schema's uniqueness constraint on that pair. */
  datatype SeatStatusRow = SeatStatusRow(status: SeatStatus, heldBy: Option<nat>)

  datatype ReservationStatus = Active | Expired | Canceled | Completed

  /** A reservation together with its reservation_seats rows (unique per seat, hence a set). */
  datatype Reservation = Reservation(
    userId: nat, showtimeId: nat, status: ReservationStatus, expiresAt: int, seatIds: set<nat>)

  datatype OrderStatus = Pending | Paid | Failed

  datatype Order = Order(
    userId: nat, showtimeId: nat, reservationId: nat, status: OrderStatus, totalCents: int,
    currency: string, provider: string, providerSessionId: Option<string>)

  datatype TicketStatus = Valid | Used | Void

  datatype Ticket = Ticket(orderId: nat, seatId: nat, qrToken: string, status: TicketStatus, usedAt: Option<int>)

  function OrderStatusName(s: OrderStatus): (name: string)
    ensures name in {"PENDING", "PAID", "FAILED"}
  {
    match s
    case Pending => "PENDING"
    case Paid => "PAID"
    case Failed => "FAILED"
  }

  function TicketStatusName(s: TicketStatus): (name: string)
    ensures name in {"VALID", "USED", "VOID"}
  {
    match s
    case Valid => "VALID"
    case Used => "USED"
    case Void => "VOID"
  }

  // ----- Generated tokens -----
  // The services draw these from uuid4; the model draws them from the row id, which gives the
  // same guarantee the code relies on: a fresh token never equals an earlier one.

  function SessionIdFor(orderId: nat): string
  {
    "cs_mock_" + NatToString(orderId)
  }

  function QrTokenFor(ticketId: nat): string
  {
    "tkt_" + NatToString(ticketId)
  }

  lemma PrefixedInjective(p: string, a: string, b: string)
    requires p + a == p + b
    ensures a == b
  {
    assert a == (p + a)[|p|..];
    assert b == (p + b)[|p|..];
  }

  lemma SessionIdInjective(a: nat, b: nat)
    requires SessionIdFor(a) == SessionIdFor(b)
    ensures a == b
  {
    PrefixedInjective("cs_mock_", NatToString(a), NatToString(b));
    NatToStringInjective(a, b);
  }

  lemma QrTokenInjective(a: nat, b: nat)
    requires QrTokenFor(a) == QrTokenFor(b)
    ensures a == b
  {
    PrefixedInjective("tkt_", NatToString(a), NatToString(b));
    NatToStringInjective(a, b);
  }

  // ----- The whole database as a value -----

  datatype Tables = Tables(
    seats: map<nat, Seat>,
    auditoriums: map<nat, Auditorium>,
    seatMaps: map<nat, SeatMap>,
    statuses: map<(nat, nat), SeatStatusRow>,
    reservations: map<nat, Reservation>,
    orders: map<nat, Order>,
    tickets: map<nat, Ticket>,
    nextSeatId: nat,
    nextSeatMapId: nat,
    nextOrderId: nat,
    nextTicketId: nat)

  /** Auto-increment keys: every row id is below the next id to be handed out. */
  predicate IdsBelow(t: Tables)
  {
    (forall s :: s in t.seats ==> s < t.nextSeatId) &&
    (forall m :: m in t.seatMaps ==> m < t.nextSeatMapId) &&
    (forall o :: o in t.orders ==> o < t.nextOrderId) &&
    (forall k :: k in t.tickets ==> k < t.nextTicketId)
  }

  /** orders.reservation_id is unique. */
  predicate OnePerReservation(orders: map<nat, Order>)
  {
    forall o1, o2 :: o1 in orders && o2 in orders && orders[o1].reservationId == orders[o2].reservationId ==> o1 == o2
  }

  predicate SessionIdsMinted(orders: map<nat, Order>)
  {
    forall o :: o in orders ==> orders[o].providerSessionId == Some(SessionIdFor(o))
  }

  predicate QrTokensMinted(tickets: map<nat, Ticket>)
  {
    forall k :: k in tickets ==> tickets[k].qrToken == QrTokenFor(k)
  }

  /** Tickets are only ever minted for an order that has just become PAID. */
  predicate TicketsOfPaidOrders(tickets: map<nat, Ticket>, orders: map<nat, Order>)
  {
    forall k :: k in tickets ==> tickets[k].orderId in orders && orders[tickets[k].orderId].status == Paid
  }

  /** No order holds two tickets for the same seat. */
  predicate OneTicketPerSeat(tickets: map<nat, Ticket>)
  {
    forall k1, k2 ::
      k1 in tickets && k2 in tickets && tickets[k1].orderId == tickets[k2].orderId && tickets[k1].seatId == tickets[k2].seatId
      ==> k1 == k2
  }

  /** The seat ids already ticketed on an order. */
  function TicketSeats(tickets: map<nat, Ticket>, orderId: nat): set<nat>
  {
    set k | k in tickets && tickets[k].orderId == orderId :: tickets[k].seatId
  }

  /** The ticket ids of an order. */
  function TicketsOf(tickets: map<nat, Ticket>, orderId: nat): set<nat>
  {
    set k | k in tickets && tickets[k].orderId == orderId
  }

  /** A PAID order holds a ticket for exactly the seats of its reservation. */
  predicate PaidOrdersTicketed(tickets: map<nat, Ticket>, orders: map<nat, Order>, reservations: map<nat, Reservation>)
  {
    forall o :: o in orders && orders[o].status == Paid && orders[o].reservationId in reservations ==>
      TicketSeats(tickets, o) == reservations[orders[o].reservationId].seatIds
  }

  predicate TablesConsistent(t: Tables)
  {
    IdsBelow(t) &&
    OnePerReservation(t.orders) &&
    SessionIdsMinted(t.orders) &&
    QrTokensMinted(t.tickets) &&
    TicketsOfPaidOrders(t.tickets, t.orders) &&
    OneTicketPerSeat(t.tickets) &&
    PaidOrdersTicketed(t.tickets, t.orders, t.reservations)
  }

  /** The unique constraint on tickets.qr_token follows from how tokens are minted. */
  lemma QrTokensUnique(tickets: map<nat, Ticket>, k1: nat, k2: nat)
    requires QrTokensMinted(tickets)
    requires k1 in tickets && k2 in tickets && tickets[k1].qrToken == tickets[k2].qrToken
    ensures k1 == k2
  {
    QrTokenInjective(k1, k2);
  }

  lemma SessionIdsUnique(orders: map<nat, Order>, o1: nat, o2: nat)
    requires SessionIdsMinted(orders)
    requires o1 in orders && o2 in orders && orders[o1].providerSessionId == orders[o2].providerSessionId
    ensures o1 == o2
  {
    SessionIdInjective(o1, o2);
  }

  // ----- The hold-expiry sweep -----
  // The services call expire_overdue_holds before reading a reservation, but its body is not part
  // of this model. The step below is the behaviour the callers rely on: every ACTIVE reservation
  // whose hold has run out becomes EXPIRED, and the seat rows it holds become AVAILABLE again.

  predicate Overdue(r: Reservation, now: int)
  {
    r.status == Active && r.expiresAt <= now
  }

  function Swept(reservations: map<nat, Reservation>, now: int): (swept: map<nat, Reservation>)
    ensures swept.Keys == reservations.Keys
    ensures forall r :: r in swept ==> !Overdue(swept[r], now)
    ensures forall r :: r in swept && swept[r] != reservations[r] ==>
      Overdue(reservations[r], now) && swept[r] == reservations[r].(status := Expired)
    ensures forall r :: r in swept ==>
      (swept[r].status == Expired <==> Overdue(reservations[r], now) || reservations[r].status == Expired)
  {
    map r | r in reservations :: if Overdue(reservations[r], now) then reservations[r].(status := Expired) else reservations[r]
  }

  predicate HeldByOverdue(row: SeatStatusRow, reservations: map<nat, Reservation>, now: int)
  {
    row.heldBy.Some? && row.heldBy.value in reservations && Overdue(reservations[row.heldBy.value], now)
  }

  function Released(statuses: map<(nat, nat), SeatStatusRow>, reservations: map<nat, Reservation>, now: int)
    : (released: map<(nat, nat), SeatStatusRow>)
    ensures released.Keys == statuses.Keys
    ensures forall k :: k in released ==> !HeldByOverdue(released[k], reservations, now)
    ensures forall k :: k in released && released[k] != statuses[k] ==>
      HeldByOverdue(statuses[k], reservations, now) && released[k] == SeatStatusRow(Available, None)
  {
    map k | k in statuses :: if HeldByOverdue(statuses[k], reservations, now) then SeatStatusRow(Available, None) else statuses[k]
  }

  /** The tables after the sweep. */
  function Sweep(t: Tables, now: int): (s: Tables)
    ensures s.reservations.Keys == t.reservations.Keys
    ensures forall r :: r in s.reservations ==> s.reservations[r].seatIds == t.reservations[r].seatIds
  {
    t.(reservations := Swept(t.reservations, now), statuses := Released(t.statuses, t.reservations, now))
  }

  /** A second sweep at the same instant finds nothing left to expire or release. */
  lemma SweepIdempotent(t: Tables, now: int)
    ensures Sweep(Sweep(t, now), now) == Sweep(t, now)
  {
    SweepFixedPoint(Sweep(t, now), now);
  }

  /** Tables with no overdue reservation are left as they are by the sweep. */
  lemma SweepFixedPoint(t: Tables, now: int)
    requires forall r :: r in t.reservations ==> !Overdue(t.reservations[r], now)
    ensures Sweep(t, now) == t
  {
    assert Swept(t.reservations, now) == t.reservations;
    forall k | k in t.statuses ensures !HeldByOverdue(t.statuses[k], t.reservations, now) {
    }
    assert Released(t.statuses, t.reservations, now) == t.statuses;
  }

  /** The sweep leaves alone every row that is not held by an overdue reservation, and every
      reservation that is not overdue. */
  lemma SweepTouchesOnlyOverdue(t: Tables, now: int, r: nat, k: (nat, nat))
    ensures r in t.reservations && !Overdue(t.reservations[r], now) ==>
      Sweep(t, now).reservations[r] == t.reservations[r]
    ensures k in t.statuses && !HeldByOverdue(t.statuses[k], t.reservations, now) ==>
      Sweep(t, now).statuses[k] == t.statuses[k]
  {
  }

  lemma SweepConsistent(t: Tables, now: int)
    requires TablesConsistent(t)
    ensures TablesConsistent(Sweep(t, now))
  {
    var s := Sweep(t, now);
    forall o | o in s.orders && s.orders[o].status == Paid && s.orders[o].reservationId in s.reservations
      ensures TicketSeats(s.tickets, o) == s.reservations[s.orders[o].reservationId].seatIds
    {
    }
  }

  /** The booking database. Each service operation is one method over it; the row locks and the
      enclosing transaction make such an operation atomic, which is what a method call is here. */
  class CinemaDb {
    var seats: map<nat, Seat>
    var auditoriums: map<nat, Auditorium>
    var seatMaps: map<nat, SeatMap>
    var statuses: map<(nat, nat), SeatStatusRow>
    var reservations: map<nat, Reservation>
    var orders: map<nat, Order>
    var tickets: map<nat, Ticket>
    var nextSeatId: nat
    var nextSeatMapId: nat
    var nextOrderId: nat
    var nextTicketId: nat

    function State(): Tables
      reads this
    {
      Tables(seats, auditoriums, seatMaps, statuses, reservations, orders, tickets,
             nextSeatId, nextSeatMapId, nextOrderId, nextTicketId)
    }

    predicate Consistent()
      reads this
    {
      TablesConsistent(State())
    }

    /** Opens the database on given tables. Holds (ACTIVE reservations whose seat rows are HELD by
        them) exist only as such given state. */
    constructor (initial: Tables)
      requires TablesConsistent(initial)
      ensures State() == initial
      ensures Consistent()
    {
      seats, auditoriums, seatMaps, statuses := initial.seats, initial.auditoriums, initial.seatMaps, initial.statuses;
      reservations, orders, tickets := initial.reservations, initial.orders, initial.tickets;
      nextSeatId, nextSeatMapId := initial.nextSeatId, initial.nextSeatMapId;
      nextOrderId, nextTicketId := initial.nextOrderId, initial.nextTicketId;
    }

    /** expire_overdue_holds, as the sweep above. */
    method ExpireOverdueHolds(now: int)
      modifies this
      ensures State() == Sweep(old(State()), now)
    {
      statuses := Released(statuses, reservations, now);
      reservations := Swept(reservations, now);
    }
  }
}

=== FILE: checkout.dfy ===
/** The checkout routes: the user-scoped demo confirmation and the payment-provider webhook,
    whose set-if-absent gate lets only the first delivery of an event reach finalize. */
module Checkout {
  import opened Wrappers
  import opened BookingStore
  import opened PaymentService

  /** The key-value store's view of webhook event keys: the keys currently set. */
  class DedupStore {
    var seen: set<string>

    constructor (initial: set<string>)
      ensures seen == initial
    {
      seen := initial;
    }

    /** SET key NX: records the key and answers whether it was absent. */
    method SetIfAbsent(key: string) returns (isNew: bool)
      modifies this
      ensures isNew <==> key !in old(seen)
      ensures seen == old(seen) + {key}
    {
      isNew := key !in seen;
      seen := seen + {key};
    }
  }

  const EventKeyPrefix: string := "webhook:stripe:event:"

  function EventKey(eventId: string): string
  {
    EventKeyPrefix + eventId
  }

  /** Distinct event ids never share a dedup key. */
  lemma EventKeyInjective(a: string, b: string)
    requires EventKey(a) == EventKey(b)
    ensures a == b
  {
    PrefixedInjective(EventKeyPrefix, a, b);
  }

  datatype WebhookData = WebhookData(providerSessionId: Option<string>, orderId: Option<nat>)

  datatype WebhookEvent = WebhookEvent(eventId: string, eventType: string, data: WebhookData)

  datatype WebhookAck = WebhookAck(acknowledged: bool, duplicate: bool, finalized: bool, orderStatus: Option<string>)

  const DuplicateAck: WebhookAck := WebhookAck(true, true, false, None)

  const IgnoredAck: WebhookAck := WebhookAck(true, false, false, None)

  /** Python truthiness of the two optional identifiers. */
  predicate SessionGiven(data: WebhookData)
  {
    data.providerSessionId.Some? && data.providerSessionId.value != ""
  }

  predicate OrderIdGiven(data: WebhookData)
  {
    data.orderId.Some? && data.orderId.value != 0
  }

  /** The acknowledgement of a finalized event carries the order's new status; a finalize error
      is the webhook's error. */
  function AckOf(finalized: Result<FinalizeRead>): (r: Result<WebhookAck>)
    ensures finalized.Err? ==> r == Err(finalized.error)
    ensures finalized.Ok? ==>
      r.Ok? && r.value.finalized && !r.value.duplicate &&
      r.value.orderStatus == Some(OrderStatusName(finalized.value.orderStatus))
  {
    match finalized
    case Err(e) => Err(e)
    case Ok(p) => Ok(WebhookAck(true, false, true, Some(OrderStatusName(p.orderStatus))))
  }

  /** What a first delivery does: an event of another type is acknowledged without a finalize;
      a completed event finalizes the order named by its session id or, failing that, by its
      order id, and a missing order or missing identifiers are errors that change nothing. */
  ghost predicate WebhookOutcome(t: Tables, event: WebhookEvent, sweepNow: int, r: Result<WebhookAck>, after: Tables)
  {
    var data := event.data;
    (event.eventType != "checkout.session.completed" ==> r == Ok(IgnoredAck) && after == t) &&
    (event.eventType == "checkout.session.completed" ==>
      (!SessionGiven(data) && !OrderIdGiven(data) ==>
        r == Err(HttpError(400, "Webhook data must include provider_session_id or order_id")) && after == t) &&
      (SessionGiven(data) && (forall o :: o in t.orders ==> t.orders[o].providerSessionId != data.providerSessionId) ==>
        r == Err(HttpError(404, "Order not found")) && after == t) &&
      (SessionGiven(data) ==> forall o :: o in t.orders && t.orders[o].providerSessionId == data.providerSessionId ==>
        exists f :: FinalizesTo(t, o, sweepNow, f, after) && r == AckOf(f)) &&
      (!SessionGiven(data) && OrderIdGiven(data) && data.orderId.value !in t.orders ==>
        r == Err(HttpError(404, "Order not found")) && after == t) &&
      (!SessionGiven(data) && OrderIdGiven(data) && data.orderId.value in t.orders ==>
        exists f :: FinalizesTo(t, data.orderId.value, sweepNow, f, after) && r == AckOf(f)))
  }

  /** stripe_webhook. `secret` is the x-webhook-secret header, `configured` the configured secret;
      `sweepNow` is the clock reading of the hold sweep inside finalize. */
  method StripeWebhook(db: CinemaDb, store: DedupStore, secret: Option<string>, configured: string,
                       event: WebhookEvent, sweepNow: int)
    returns (r: Result<WebhookAck>)
    requires db.Consistent()
    modifies db, store
    ensures secret != Some(configured) ==>
      r == Err(HttpError(401, "Invalid webhook secret")) &&
      store.seen == old(store.seen) && db.State() == old(db.State())
    ensures secret == Some(configured) ==> store.seen == old(store.seen) + {EventKey(event.eventId)}
    ensures secret == Some(configured) && EventKey(event.eventId) in old(store.seen) ==>
      r == Ok(DuplicateAck) && db.State() == old(db.State())
    ensures secret == Some(configured) && EventKey(event.eventId) !in old(store.seen) ==>
      WebhookOutcome(old(db.State()), event, sweepNow, r, db.State())
  {
    if secret != Some(configured) {
      return Err(HttpError(401, "Invalid webhook secret"));
    }
    var isNew := store.SetIfAbsent(EventKey(event.eventId));
    if !isNew {
      return Ok(DuplicateAck);
    }
    if event.eventType != "checkout.session.completed" {
      return Ok(IgnoredAck);
    }
    var lookup: Result<nat>;
    if SessionGiven(event.data) {
      lookup := GetOrderByProviderSession(db, event.data.providerSessionId.value);
    } else if OrderIdGiven(event.data) {
      lookup := GetOrderById(db, event.data.orderId.value);
    } else {
      return Err(HttpError(400, "Webhook data must include provider_session_id or order_id"));
    }
    if lookup.Err? {
      return Err(lookup.error);
    }
    var finalized := FinalizePaidOrder(db, lookup.value, sweepNow);
    return AckOf(finalized);
  }

  /** confirm_demo_checkout: finalize, but only an order of the calling user. */
  method ConfirmDemoCheckout(db: CinemaDb, userId: nat, orderId: nat, sweepNow: int) returns (r: Result<FinalizeRead>)
    modifies db
    ensures !(orderId in old(db.orders) && old(db.orders)[orderId].userId == userId) ==>
      r == Err(HttpError(404, "Order not found")) && db.State() == old(db.State())
    ensures orderId in old(db.orders) && old(db.orders)[orderId].userId == userId ==>
      FinalizesTo(old(db.State()), orderId, sweepNow, r, db.State())
  {
    var lookup := GetOrderForUser(db, orderId, userId);
    if lookup.Err? {
      return Err(lookup.error);
    }
    r := FinalizePaidOrder(db, lookup.value, sweepNow);
  }
}

=== FILE: json.dfy ===
/** The decoded JSON values of a movie's metadata column, and Python's str() of them. A float is
    carried as the text Python's str() prints for it ("2.5", "1e+16", "nan"); float arithmetic is
    not needed, since the backend only turns metadata values into text. */
module Json {
  import opened Text

  datatype Json =
    | JNull
    | JBool(b: bool)
    | JInt(i: int)
    | JFloat(text: string)
    | JStr(s: string)
    | JList(items: seq<Json>)
    | JObject(fields: map<string, Json>)

  /** dict.get(key) on a JSON object: None (here JNull) when the key is absent. */
  function Get(obj: map<string, Json>, key: string): Json
  {
    if key in obj then obj[key] else JNull
  }

  /** Python's str() of a decoded JSON scalar. A nested list or object is rendered by a fixed
      placeholder rather than by Python's repr. */
  function PyStr(j: Json): string
  {
    match j
    case JNull => "None"
    case JBool(b) => if b then "True" else "False"
    case JInt(i) => IntToString(i)
    case JFloat(text) => text
    case JStr(s) => s
    case JList(_) => "[...]"
    case JObject(_) => "{...}"
  }
}

=== FILE: metrics.dfy ===
/** The in-process counter store and its rendering in the Prometheus text exposition format. */
module Metrics {
  import opened Text
  import opened Sorting

  /** The metrics that are always exposed, with their help text. */
  const MetricDefinitions: map<string, string> := map[
    "app_requests_total" := "Total HTTP requests handled by the API process.",
    "reservation_attempt_total" := "Reservation create attempts.",
    "reservation_success_total" := "Successful reservation holds created.",
    "reservation_conflict_total" := "Reservation attempts rejected due to seat conflicts.",
    "checkout_session_attempt_total" := "Checkout session creation attempts.",
    "checkout_session_success_total" := "Successful checkout sessions created.",
    "checkout_finalize_success_total" := "Orders finalized as PAID.",
    "ticket_scan_attempt_total" := "Ticket scan attempts.",
    "ticket_scan_valid_total" := "Ticket scans validated and marked used.",
    "ticket_scan_invalid_total" := "Ticket scans rejected as invalid.",
    "ticket_scan_already_used_total" := "Ticket scans rejected as already used."
  ]

  const DefaultHelp: string := "Application metric."

  /** A counter that was never incremented reads as 0. */
  function CounterValue(counters: map<string, int>, name: string): int
  {
    if name in counters then counters[name] else 0
  }

  function HelpText(defs: map<string, string>, name: string): string
  {
    if name in defs then defs[name] else DefaultHelp
  }

  function HelpLine(defs: map<string, string>, name: string): string
  {
    "# HELP " + name + " " + HelpText(defs, name)
  }

  function TypeLine(name: string): string { "# TYPE " + name + " counter" }

  function ValueLine(name: string, value: int): string { name + " " + IntToString(value) }

  /** The exposed names: every defined metric and every recorded one, in sorted order. */
  function ExposedNames(defs: map<string, string>, snapshot: map<string, int>): (names: seq<string>)
    ensures IncreasingStrings(names)
    ensures forall m :: m in names <==> m in defs || m in snapshot
  {
    SortedStrings(defs.Keys + snapshot.Keys)
  }

  /** The lines for a list of names: HELP, TYPE and value for each name in turn. */
  function ExpositionLines(defs: map<string, string>, names: seq<string>,
                           snapshot: map<string, int>): (lines: seq<string>)
    ensures |lines| == 3 * |names|
  {
    if names == [] then []
    else
      var last := names[|names| - 1];
      ExpositionLines(defs, names[..|names| - 1], snapshot)
        + [HelpLine(defs, last), TypeLine(last), ValueLine(last, CounterValue(snapshot, last))]
  }

  /** Lines joined with a newline between each pair. */
  function JoinLines(lines: seq<string>): string
  {
    if lines == [] then ""
    else if |lines| == 1 then lines[0]
    else JoinLines(lines[..|lines| - 1]) + "\n" + lines[|lines| - 1]
  }

  /** Every name produces exactly three lines, in name order: the name at position i has its
      HELP line, its TYPE line and its current value at positions 3i, 3i + 1 and 3i + 2. */
  lemma {:induction false} ExpositionShape(defs: map<string, string>, names: seq<string>,
                                           snapshot: map<string, int>, i: nat)
    requires i < |names|
    ensures ExpositionLines(defs, names, snapshot)[3 * i] == HelpLine(defs, names[i])
    ensures ExpositionLines(defs, names, snapshot)[3 * i + 1] == TypeLine(names[i])
    ensures ExpositionLines(defs, names, snapshot)[3 * i + 2]
            == ValueLine(names[i], CounterValue(snapshot, names[i]))
  {
    var init := names[..|names| - 1];
    var last := names[|names| - 1];
    var prefix := ExpositionLines(defs, init, snapshot);
    var tail := [HelpLine(defs, last), TypeLine(last), ValueLine(last, CounterValue(snapshot, last))];
    assert ExpositionLines(defs, names, snapshot) == prefix + tail;
    assert |prefix| == 3 * |init|;
    if i < |init| {
      ExpositionShape(defs, init, snapshot, i);
      assert names[i] == init[i];
    } else {
      assert i == |init| && names[i] == last;
    }
  }

  /** Every defined or recorded metric is rendered, at some position i of the sorted names: its
      HELP line carries its help text (the default for a metric without a definition) and its
      value line its counter. */
  lemma EveryMetricRendered(defs: map<string, string>, snapshot: map<string, int>, m: string)
    returns (i: nat)
    requires m in defs || m in snapshot
    ensures i < |ExposedNames(defs, snapshot)| && ExposedNames(defs, snapshot)[i] == m
    ensures ExpositionLines(defs, ExposedNames(defs, snapshot), snapshot)[3 * i]
            == "# HELP " + m + " " + HelpText(defs, m)
    ensures ExpositionLines(defs, ExposedNames(defs, snapshot), snapshot)[3 * i + 2]
            == m + " " + IntToString(CounterValue(snapshot, m))
  {
    var names := ExposedNames(defs, snapshot);
    assert m in names;
    i :| 0 <= i < |names| && names[i] == m;
    ExpositionShape(defs, names, snapshot, i);
  }

  /** A defined metric that was never incremented is rendered with the value 0. */
  lemma UnrecordedMetricRendersZero(defs: map<string, string>, snapshot: map<string, int>,
                                    m: string)
    returns (i: nat)
    requires m in defs && m !in snapshot
    ensures i < |ExposedNames(defs, snapshot)| && ExposedNames(defs, snapshot)[i] == m
    ensures ExpositionLines(defs, ExposedNames(defs, snapshot), snapshot)[3 * i + 2] == m + " 0"
  {
    i := EveryMetricRendered(defs, snapshot, m);
    assert IntToString(0) == "0";
    assert m + " " + "0" == m + " 0";
  }

  lemma ExpositionLinesStep(defs: map<string, string>, names: seq<string>, i: nat,
                            snapshot: map<string, int>)
    requires i < |names|
    ensures ExpositionLines(defs, names[..i + 1], snapshot)
            == ExpositionLines(defs, names[..i], snapshot)
               + [HelpLine(defs, names[i]), TypeLine(names[i]),
                  ValueLine(names[i], CounterValue(snapshot, names[i]))]
  {
    assert names[..i + 1][..i] == names[..i];
  }

  /** The counter store behind the metrics endpoint. */
  class MetricsStore {
    var counters: map<string, int>
    /** The definition table the store is exposed with. */
    const definitions: map<string, string>

    constructor ()
      ensures counters == map[] && definitions == MetricDefinitions
    {
      counters := map[];
      definitions := MetricDefinitions;
    }

    /** Adds value to one counter, starting from 0, and leaves every other counter as it was. */
    method Increment(name: string, value: int)
      modifies this
      ensures name in counters && counters[name] == CounterValue(old(counters), name) + value
      ensures counters.Keys == old(counters).Keys + {name}
      ensures forall k :: k in counters && k != name ==> counters[k] == old(counters)[k]
    {
      counters := counters[name := CounterValue(counters, name) + value];
    }

    /** A copy of the current counters. */
    method Snapshot() returns (snapshot: map<string, int>)
      ensures snapshot == counters
    {
      snapshot := counters;
    }

    /** The exposition text: three lines per exposed name, newline-separated, with a final
        newline. */
    method RenderPrometheus() returns (text: string)
      ensures text == JoinLines(ExpositionLines(definitions, ExposedNames(definitions, counters), counters)) + "\n"
      ensures |text| > 0 && text[|text| - 1] == '\n'
    {
      var snapshot := Snapshot();
      var lines: seq<string> := [];
      var names := ExposedNames(definitions, snapshot);
      var i := 0;
      while i < |names|
        invariant 0 <= i <= |names|
        invariant lines == ExpositionLines(definitions, names[..i], snapshot)
      {
        var name := names[i];
        lines := lines + [HelpLine(definitions, name), TypeLine(name), ValueLine(name, CounterValue(snapshot, name))];
        ExpositionLinesStep(definitions, names, i, snapshot);
        i := i + 1;
      }
      assert names[..i] == names;
      text := JoinLines(lines) + "\n";
    }
  }
}

=== FILE: movie_similarity.dfy ===
/** The offline "movies like this one" table: per-feature similarity measures, the co-watch
    counts gathered from paid orders, and the rebuild that keeps at most top-k neighbours per
    movie. */
module MovieSimilarity {
  import opened Wrappers
  import opened Text
  import opened Json
  import opened Sorting
  import Recommendations

  // ---------------------------------------------------------------------------------------
  // Genres

  /** str(genre).strip().lower() of one entry of a "genre" list. */
  function NormalizedGenre(j: Json): string
  {
    Lower(Strip(PyStr(j)))
  }

  /** The genre set of a movie: every entry of the "genre" list whose text is not blank,
      stripped and lower-cased; empty for metadata that is not an object or has no list. */
  function GenreSet(metadata: Json): set<string>
  {
    if !metadata.JObject? then {}
    else
      var raw := Get(metadata.fields, "genre");
      if !raw.JList? then {}
      else set j | j in raw.items && Strip(PyStr(j)) != "" :: NormalizedGenre(j)
  }

  lemma NormalizedGenreShape(j: Json)
    requires Strip(PyStr(j)) != ""
    ensures NormalizedGenre(j) != "" && IsStripped(NormalizedGenre(j))
    ensures Lower(NormalizedGenre(j)) == NormalizedGenre(j)
  {
    StripCharacterized(PyStr(j));
    LowerKeepsStripped(Strip(PyStr(j)));
    LowerIdempotent(Strip(PyStr(j)));
  }

  /** Every genre in the set is non-blank, stripped and already lower-case. */
  lemma GenreSetNormalized(metadata: Json)
    ensures forall g :: g in GenreSet(metadata) ==> g != "" && IsStripped(g) && Lower(g) == g
  {
    forall g | g in GenreSet(metadata)
      ensures g != "" && IsStripped(g) && Lower(g) == g
    {
      var raw := Get(metadata.fields, "genre");
      var j :| j in raw.items && Strip(PyStr(j)) != "" && g == NormalizedGenre(j);
      NormalizedGenreShape(j);
    }
  }

  /** A genre the recommendation side keeps from one entry is, lower-cased, the genre this
      side takes from it. */
  lemma KeptEntryNormalized(j: Json, g: string)
    requires g in Recommendations.KeptEntry(j)
    ensures Strip(PyStr(j)) != "" && Lower(g) == NormalizedGenre(j)
  {
    assert j.JStr? && g == Strip(j.s) && PyStr(j) == j.s;
  }

  /** The similarity extractor and the recommendation extractor agree up to case: every genre
      the recommendation side keeps appears here lower-cased. The similarity side also keeps
      entries that are not strings (by their str()), which the recommendation side skips. */
  lemma GenreSetCoversRecommendationGenres(metadata: Json, g: string)
    requires g in Recommendations.GenresOf(metadata)
    ensures Lower(g) in GenreSet(metadata)
  {
    var raw := Get(metadata.fields, "genre");
    Recommendations.KeptGenresMembership(raw.items, g);
    var i :| 0 <= i < |raw.items| && g in Recommendations.KeptEntry(raw.items[i]);
    KeptEntryNormalized(raw.items[i], g);
  }

  /** A genre entry that is not a string but prints non-blank, a number such as 2.5 or a
      boolean, counts as a genre here through str(), while the recommendation helper skips it. */
  lemma NonStringEntryOnlyCountedHere(j: Json)
    requires !j.JStr? && Strip(PyStr(j)) != ""
    ensures Recommendations.KeptEntry(j) == []
    ensures NormalizedGenre(j) in GenreSet(JObject(map["genre" := JList([j])]))
  {
    var metadata := JObject(map["genre" := JList([j])]);
    assert Get(metadata.fields, "genre") == JList([j]);
    assert j in Get(metadata.fields, "genre").items;
  }

  /** When every entry of the list is a string, the two extractors agree exactly up to case. */
  lemma GenreSetOfStringEntries(metadata: Json, g: string)
    requires metadata.JObject? && Get(metadata.fields, "genre").JList?
    requires forall j :: j in Get(metadata.fields, "genre").items ==> j.JStr?
    requires g in GenreSet(metadata)
    ensures exists h :: h in Recommendations.GenresOf(metadata) && Lower(h) == g
  {
    var raw := Get(metadata.fields, "genre");
    var j :| j in raw.items && Strip(PyStr(j)) != "" && g == NormalizedGenre(j);
    var i :| 0 <= i < |raw.items| && raw.items[i] == j;
    assert Strip(j.s) in Recommendations.KeptEntry(raw.items[i]);
    Recommendations.KeptGenresMembership(raw.items, Strip(j.s));
  }

  // ---------------------------------------------------------------------------------------
  // Rating, runtime and genre similarity

  /** Python's s[:2]. */
  function Prefix2(s: string): string
  {
    s[..Min(2, |s|)]
  }

  /** 0 when either rating is empty, 1 for equal ratings, 0.7 for ratings that share their
      first two characters and 0.35 otherwise. */
  function RatingSimilarity(left: string, right: string): (r: real)
    ensures r == 0.0 <==> left == "" || right == ""
    ensures r == 1.0 <==> left != "" && left == right
    ensures r == 0.7 <==> left != "" && right != "" && left != right && Prefix2(left) == Prefix2(right)
    ensures r == 0.35 <==> left != "" && right != "" && Prefix2(left) != Prefix2(right)
  {
    if left == "" || right == "" then 0.0
    else if left == right then 1.0
    else if Prefix2(left) == Prefix2(right) then 0.7
    else 0.35
  }

  lemma RatingSimilaritySymmetric(left: string, right: string)
    ensures RatingSimilarity(left, right) == RatingSimilarity(right, left)
  {
  }

  /** Sharing the two-character prefix never scores lower than not sharing it. */
  lemma RatingSimilarityPrefixOrder(base: string, near: string, far: string)
    requires base != "" && near != "" && far != ""
    requires Prefix2(base) == Prefix2(near) && Prefix2(base) != Prefix2(far)
    ensures RatingSimilarity(base, near) > RatingSimilarity(base, far)
  {
  }

  function Distance(a: int, b: int): (d: nat)
    ensures d == 0 <==> a == b
  {
    if a < b then b - a else a - b
  }

  /** max(0, 1 - |a - b| / 140): 1 for equal runtimes, falling linearly to 0 at 140 minutes
      apart. */
  function RuntimeSimilarity(left: int, right: int): (r: real)
    ensures 0.0 <= r <= 1.0
    ensures r == 1.0 <==> left == right
    ensures r == 0.0 <==> Distance(left, right) >= 140
  {
    var closeness := 1.0 - (Distance(left, right) as real) / 140.0;
    if closeness < 0.0 then 0.0 else closeness
  }

  lemma RuntimeSimilaritySymmetric(left: int, right: int)
    ensures RuntimeSimilarity(left, right) == RuntimeSimilarity(right, left)
  {
  }

  /** Closer runtimes are at least as similar. */
  lemma RuntimeSimilarityMonotone(a: int, b: int, c: int, d: int)
    requires Distance(a, b) <= Distance(c, d)
    ensures RuntimeSimilarity(a, b) >= RuntimeSimilarity(c, d)
  {
    var x, y := Distance(a, b) as real, Distance(c, d) as real;
    assert x / 140.0 <= y / 140.0;
  }

  /** A count over a larger positive count is a ratio in [0, 1], equal to 1 only for equal
      counts. */
  lemma RatioOfCounts(part: nat, whole: nat)
    requires 0 < whole && part <= whole
    ensures 0.0 <= (part as real) / (whole as real) <= 1.0
    ensures (part as real) / (whole as real) == 1.0 <==> part == whole
  {
    var ratio := (part as real) / (whole as real);
    assert ratio * (whole as real) == part as real;
  }

  /** The intersection of two sets is no larger than either or than their union, and it is as
      large as the union only when the two sets are equal. */
  lemma SharedGenreCounts(left: set<string>, right: set<string>)
    ensures |left * right| <= |left| && |left * right| <= |right|
    ensures |left * right| <= |left + right|
    ensures left != {} ==> |left + right| > 0
    ensures |left * right| == |left + right| <==> left == right
  {
    var shared, union := left * right, left + right;
    SubsetCardinality(shared, left);
    SubsetCardinality(shared, right);
    SubsetCardinality(shared, union);
    SubsetCardinality(left, union);
    if shared == union {
      assert forall x :: x in left ==> x in right;
      assert forall x :: x in right ==> x in left;
    }
  }

  /** (|A ∩ B| / |A ∪ B|, |A ∩ B|), and (0, 0) when either set is empty. */
  function GenreSimilarity(left: set<string>, right: set<string>): (r: (real, nat))
    ensures left == {} || right == {} ==> r == (0.0, 0)
    ensures left != {} && right != {} ==>
              r.1 == |left * right| && r.0 == (r.1 as real) / (|left + right| as real)
    ensures 0.0 <= r.0 <= 1.0
    ensures r.1 <= |left| && r.1 <= |right|
    ensures r.0 == 1.0 <==> left != {} && left == right
  {
    if left == {} || right == {} then (0.0, 0)
    else
      SharedGenreCounts(left, right);
      RatioOfCounts(|left * right|, |left + right|);
      ((|left * right| as real) / (|left + right| as real), |left * right|)
  }

  lemma GenreSimilaritySymmetric(left: set<string>, right: set<string>)
    ensures GenreSimilarity(left, right) == GenreSimilarity(right, left)
  {
    assert left * right == right * left;
    assert left + right == right + left;
  }

  // ---------------------------------------------------------------------------------------
  // Co-watch counting

  /** The users whose watched set holds both movies. */
  function Viewers(userMovies: map<nat, set<nat>>, a: nat, b: nat): set<nat>
  {
    set u | u in userMovies && a in userMovies[u] && b in userMovies[u]
  }

  /** The same, among the listed users only. */
  function ViewersAmong(users: seq<nat>, userMovies: map<nat, set<nat>>, a: nat, b: nat): set<nat>
  {
    set u | u in users && u in userMovies && a in userMovies[u] && b in userMovies[u]
  }

  /** The users who watched both movies, read straight off the (user, movie) watch rows. */
  function RowViewers(watchRows: seq<(nat, nat)>, a: nat, b: nat): set<nat>
  {
    set r | r in watchRows && r.1 == a && (r.0, b) in watchRows :: r.0
  }

  /** The co-watch count of an ordered pair: the number of users who watched both, and 0 for a
      movie paired with itself. */
  function CoWatch(userMovies: map<nat, set<nat>>, a: nat, b: nat): nat
  {
    if a == b then 0 else |Viewers(userMovies, a, b)|
  }

  /** co_watch_count.get(pair, 0). */
  function PairCount(counts: map<(nat, nat), nat>, a: nat, b: nat): nat
  {
    if (a, b) in counts then counts[(a, b)] else 0
  }

  lemma CoWatchSymmetric(userMovies: map<nat, set<nat>>, a: nat, b: nat)
    ensures CoWatch(userMovies, a, b) == CoWatch(userMovies, b, a)
  {
    assert Viewers(userMovies, a, b) == Viewers(userMovies, b, a);
  }

  lemma RowViewersSymmetric(watchRows: seq<(nat, nat)>, a: nat, b: nat)
    ensures RowViewers(watchRows, a, b) == RowViewers(watchRows, b, a)
  {
    forall u | u in RowViewers(watchRows, a, b) ensures u in RowViewers(watchRows, b, a) {
      assert (u, b) in watchRows;
    }
    forall u | u in RowViewers(watchRows, b, a) ensures u in RowViewers(watchRows, a, b) {
      assert (u, a) in watchRows;
    }
  }

  /** Grouping the rows by user loses nothing: the users holding both movies are the same. */
  lemma GroupedViewers(watchRows: seq<(nat, nat)>, userMovies: map<nat, set<nat>>, a: nat, b: nat)
    requires forall u, m :: u in userMovies && m in userMovies[u] <==> (u, m) in watchRows
    ensures Viewers(userMovies, a, b) == RowViewers(watchRows, a, b)
  {
    forall u | u in RowViewers(watchRows, a, b) ensures u in Viewers(userMovies, a, b) {
      var r :| r in watchRows && r.1 == a && (r.0, b) in watchRows && u == r.0;
      assert (u, a) in watchRows && (u, b) in watchRows;
    }
    forall u | u in Viewers(userMovies, a, b) ensures u in RowViewers(watchRows, a, b) {
      assert (u, a) in watchRows && (u, b) in watchRows;
    }
  }

  /** In a strictly increasing list every entry before position hi is below the entry there. */
  lemma BelowInIncreasing(w: seq<nat>, lo: nat, hi: nat)
    requires IncreasingNats(w) && lo <= hi < |w|
    ensures forall x :: x in w[lo..hi] ==> x < w[hi]
  {
    forall x | x in w[lo..hi] ensures x < w[hi] {
      var p :| 0 <= p < hi - lo && w[lo..hi][p] == x;
      assert w[lo + p] == x;
    }
  }

  /** The pairs of one sorted watch list that are fully counted once the movies before
      position `index` have been paired with everything after them: the smaller movie of the
      pair sits before `index`. */
  predicate Done(watched: seq<nat>, index: nat, a: nat, b: nat)
    requires index <= |watched|
  {
    a != b && a in watched && b in watched && Min(a, b) in watched[..index]
  }

  /** The pairs counted part-way through the movie at `index`: those of Done, and the movie at
      `index` with the movies at positions index + 1 .. next - 1, in both orders. */
  predicate Counted(watched: seq<nat>, index: nat, next: nat, a: nat, b: nat)
    requires index < next <= |watched|
  {
    Done(watched, index, a, b)
    || (a != b && Min(a, b) == watched[index] && Max(a, b) in watched[index + 1..next])
  }

  lemma CountedEnd(watched: seq<nat>, index: nat, a: nat, b: nat)
    requires IncreasingNats(watched) && index < |watched|
    ensures Counted(watched, index, |watched|, a, b) == Done(watched, index + 1, a, b)
  {
    var w := watched;
    assert w[..index + 1] == w[..index] + [w[index]];
    if a != b && a in w && b in w && Min(a, b) == w[index] {
      var hi := Max(a, b);
      assert hi in w && hi > w[index];
      var q :| 0 <= q < |w| && w[q] == hi;
      assert hi == w[index + 1..][q - index - 1];
    }
  }

  lemma CountedStep(watched: seq<nat>, index: nat, next: nat, a: nat, b: nat)
    requires IncreasingNats(watched) && index < next < |watched|
    ensures Counted(watched, index, next + 1, a, b)
            == (Counted(watched, index, next, a, b)
                || (a, b) == (watched[index], watched[next])
                || (a, b) == (watched[next], watched[index]))
    ensures (a, b) == (watched[index], watched[next]) || (a, b) == (watched[next], watched[index])
            ==> !Counted(watched, index, next, a, b)
  {
    var w := watched;
    assert w[index + 1..next + 1] == w[index + 1..next] + [w[next]];
    BelowInIncreasing(w, 0, index);
    BelowInIncreasing(w, index + 1, next);
  }

  /** One step of the inner loop: the pair (watched[index], watched[next]) gains one in both
      orders. */
  lemma PairStep(watched: seq<nat>, index: nat, next: nat, counts: map<(nat, nat), nat>,
                 before: map<(nat, nat), nat>, after: map<(nat, nat), nat>)
    requires IncreasingNats(watched) && index < next < |watched|
    requires forall a, b :: PairCount(before, a, b)
                            == PairCount(counts, a, b) + (if Counted(watched, index, next, a, b) then 1 else 0)
    requires after == before[(watched[index], watched[next]) := PairCount(before, watched[index], watched[next]) + 1]
                            [(watched[next], watched[index]) := PairCount(before, watched[next], watched[index]) + 1]
    ensures forall a, b :: PairCount(after, a, b)
                           == PairCount(counts, a, b) + (if Counted(watched, index, next + 1, a, b) then 1 else 0)
  {
    assert watched[index] < watched[next];
    forall a, b
      ensures PairCount(after, a, b)
              == PairCount(counts, a, b) + (if Counted(watched, index, next + 1, a, b) then 1 else 0)
    {
      CountedStep(watched, index, next, a, b);
    }
  }

  /** Before the inner loop for `index` starts, Counted and Done agree. */
  lemma InnerStart(watched: seq<nat>, index: nat, counts: map<(nat, nat), nat>, updated: map<(nat, nat), nat>)
    requires index < |watched|
    requires forall a, b :: PairCount(updated, a, b)
                            == PairCount(counts, a, b) + (if Done(watched, index, a, b) then 1 else 0)
    ensures forall a, b :: PairCount(updated, a, b)
                           == PairCount(counts, a, b) + (if Counted(watched, index, index + 1, a, b) then 1 else 0)
  {
    assert watched[index + 1..index + 1] == [];
  }

  /** Once the inner loop for `index` is through, the pairs of that movie are done. */
  lemma InnerEnd(watched: seq<nat>, index: nat, counts: map<(nat, nat), nat>, updated: map<(nat, nat), nat>)
    requires IncreasingNats(watched) && index < |watched|
    requires forall a, b :: PairCount(updated, a, b)
                            == PairCount(counts, a, b) + (if Counted(watched, index, |watched|, a, b) then 1 else 0)
    ensures forall a, b :: PairCount(updated, a, b)
                           == PairCount(counts, a, b) + (if Done(watched, index + 1, a, b) then 1 else 0)
  {
    forall a, b ensures Counted(watched, index, |watched|, a, b) == Done(watched, index + 1, a, b) {
      CountedEnd(watched, index, a, b);
    }
  }

  /** Once every position is done, exactly the pairs of distinct listed movies were counted. */
  lemma OuterEnd(watched: seq<nat>, counts: map<(nat, nat), nat>, updated: map<(nat, nat), nat>)
    requires forall a, b :: PairCount(updated, a, b)
                            == PairCount(counts, a, b) + (if Done(watched, |watched|, a, b) then 1 else 0)
    ensures forall a, b :: PairCount(updated, a, b)
                           == PairCount(counts, a, b) + (if a != b && a in watched && b in watched then 1 else 0)
  {
    assert watched[..|watched|] == watched;
  }

  /** The inner loop for position `index`: the movie there is paired, in both orders, with
      every later movie on the list. */
  method CountPairsAt(watched: seq<nat>, index: nat, counts: map<(nat, nat), nat>,
                      current: map<(nat, nat), nat>)
    returns (updated: map<(nat, nat), nat>)
    requires IncreasingNats(watched) && index < |watched|
    requires forall a, b :: PairCount(current, a, b)
                            == PairCount(counts, a, b) + (if Done(watched, index, a, b) then 1 else 0)
    requires forall p :: p in current ==> p.0 != p.1
    ensures forall a, b :: PairCount(updated, a, b)
                           == PairCount(counts, a, b) + (if Done(watched, index + 1, a, b) then 1 else 0)
    ensures forall p :: p in updated ==> p.0 != p.1
  {
    updated := current;
    var left := watched[index];
    var next := index + 1;
    InnerStart(watched, index, counts, updated);
    while next < |watched|
      invariant index < next <= |watched|
      invariant forall a, b :: PairCount(updated, a, b)
                               == PairCount(counts, a, b) + (if Counted(watched, index, next, a, b) then 1 else 0)
      invariant forall p :: p in updated ==> p.0 != p.1
    {
      var right := watched[next];
      ghost var before := updated;
      assert left < right;
      updated := updated[(left, right) := PairCount(updated, left, right) + 1]
                        [(right, left) := PairCount(updated, right, left) + 1];
      PairStep(watched, index, next, counts, before, updated);
      next := next + 1;
    }
    InnerEnd(watched, index, counts, updated);
  }

  /** Adds one user's sorted watch list to the counts: every ordered pair of distinct movies on
      the list gains one. */
  method CountUserPairs(watched: seq<nat>, counts: map<(nat, nat), nat>)
    returns (updated: map<(nat, nat), nat>)
    requires IncreasingNats(watched)
    requires forall p :: p in counts ==> p.0 != p.1
    ensures forall a, b :: PairCount(updated, a, b)
                           == PairCount(counts, a, b) + (if a != b && a in watched && b in watched then 1 else 0)
    ensures forall p :: p in updated ==> p.0 != p.1
  {
    updated := counts;
    var index := 0;
    while index < |watched|
      invariant index <= |watched|
      invariant forall a, b :: PairCount(updated, a, b)
                               == PairCount(counts, a, b) + (if Done(watched, index, a, b) then 1 else 0)
      invariant forall p :: p in updated ==> p.0 != p.1
    {
      updated := CountPairsAt(watched, index, counts, updated);
      index := index + 1;
    }
    OuterEnd(watched, counts, updated);
  }

  lemma ViewersStep(users: seq<nat>, i: nat, userMovies: map<nat, set<nat>>, a: nat, b: nat)
    requires IncreasingNats(users) && i < |users| && users[i] in userMovies
    ensures |ViewersAmong(users[..i + 1], userMovies, a, b)|
            == |ViewersAmong(users[..i], userMovies, a, b)|
               + (if a in userMovies[users[i]] && b in userMovies[users[i]] then 1 else 0)
  {
    var u := users[i];
    var before, after := ViewersAmong(users[..i], userMovies, a, b), ViewersAmong(users[..i + 1], userMovies, a, b);
    assert users[..i + 1] == users[..i] + [u];
    BelowInIncreasing(users, 0, i);
    assert u !in before;
    if a in userMovies[u] && b in userMovies[u] {
      assert after == before + {u};
    } else {
      assert after == before;
    }
  }

  /** One user's watch list added: the counts now cover the first i + 1 users. */
  lemma UserStep(users: seq<nat>, i: nat, userMovies: map<nat, set<nat>>,
                 before: map<(nat, nat), nat>, after: map<(nat, nat), nat>)
    requires IncreasingNats(users) && i < |users| && users[i] in userMovies
    requires forall a, b :: PairCount(before, a, b)
                            == (if a == b then 0 else |ViewersAmong(users[..i], userMovies, a, b)|)
    requires forall a, b :: PairCount(after, a, b)
                            == PairCount(before, a, b)
                               + (if a != b && a in userMovies[users[i]] && b in userMovies[users[i]] then 1 else 0)
    ensures forall a, b :: PairCount(after, a, b)
                           == (if a == b then 0 else |ViewersAmong(users[..i + 1], userMovies, a, b)|)
  {
    forall a, b
      ensures PairCount(after, a, b) == (if a == b then 0 else |ViewersAmong(users[..i + 1], userMovies, a, b)|)
    {
      ViewersStep(users, i, userMovies, a, b);
    }
  }

  /** The co-watch counts over every user's watched set: each ordered pair of distinct movies
      maps to the number of users who watched both, and no movie is paired with itself. */
  method CountCoWatches(userMovies: map<nat, set<nat>>) returns (counts: map<(nat, nat), nat>)
    ensures forall a, b :: PairCount(counts, a, b) == CoWatch(userMovies, a, b)
    ensures forall p :: p in counts ==> p.0 != p.1
  {
    counts := map[];
    var users := SortedNats(userMovies.Keys);
    var i := 0;
    while i < |users|
      invariant i <= |users|
      invariant forall a, b :: PairCount(counts, a, b)
                               == (if a == b then 0 else |ViewersAmong(users[..i], userMovies, a, b)|)
      invariant forall p :: p in counts ==> p.0 != p.1
    {
      var watched := SortedNats(userMovies[users[i]]);
      ghost var before := counts;
      counts := CountUserPairs(watched, counts);
      UserStep(users, i, userMovies, before, counts);
      i := i + 1;
    }
    forall a, b ensures ViewersAmong(users[..i], userMovies, a, b) == Viewers(userMovies, a, b) {
      assert users[..i] == users;
    }
  }

  /** The watched movies grouped by user: a user's set holds exactly the movies of that user's
      watch rows. */
  method GroupWatchRows(watchRows: seq<(nat, nat)>) returns (userMovies: map<nat, set<nat>>)
    ensures forall u :: u in userMovies <==> exists m :: (u, m) in watchRows
    ensures forall u, m :: u in userMovies && m in userMovies[u] <==> (u, m) in watchRows
  {
    userMovies := map[];
    var i := 0;
    while i < |watchRows|
      invariant i <= |watchRows|
      invariant forall u :: u in userMovies <==> exists m :: (u, m) in watchRows[..i]
      invariant forall u, m :: u in userMovies && m in userMovies[u] <==> (u, m) in watchRows[..i]
    {
      var (user, movie) := watchRows[i];
      var watched := if user in userMovies then userMovies[user] else {};
      userMovies := userMovies[user := watched + {movie}];
      assert watchRows[..i + 1] == watchRows[..i] + [(user, movie)];
      i := i + 1;
    }
    assert watchRows[..i] == watchRows;
  }

  /** The co-watch table of the rebuild, from the (user, movie) watch rows: each ordered pair
      of distinct movies maps to the number of users with rows for both. */
  method CoWatchTable(watchRows: seq<(nat, nat)>) returns (coWatch: map<(nat, nat), nat>)
    ensures forall a, b :: PairCount(coWatch, a, b) == if a == b then 0 else |RowViewers(watchRows, a, b)|
    ensures forall p :: p in coWatch ==> p.0 != p.1
  {
    var userMovies := GroupWatchRows(watchRows);
    coWatch := CountCoWatches(userMovies);
    forall a, b ensures Viewers(userMovies, a, b) == RowViewers(watchRows, a, b) {
      GroupedViewers(watchRows, userMovies, a, b);
    }
  }

  // ---------------------------------------------------------------------------------------
  // Rebuild

  /** A movie row as read for the rebuild. */
  datatype MovieRow = MovieRow(rating: Option<string>, runtimeMinutes: Option<int>, metadata: Json)

  datatype Features = Features(rating: string, runtimeMinutes: int, genres: set<string>)

  /** A stored neighbour row. Its float score is not modelled. */
  datatype SimilarityRow = SimilarityRow(movieId: nat, similarMovieId: nat, coWatchCount: nat,
                                         sharedGenreCount: nat, runtimeDistance: nat)

  /** rating or "", max(1, runtime or 1), and the genre set. */
  function FeaturesOf(row: MovieRow): (f: Features)
    ensures f.runtimeMinutes >= 1
    ensures row.runtimeMinutes.Some? && row.runtimeMinutes.value >= 1 ==> f.runtimeMinutes == row.runtimeMinutes.value
    ensures row.rating.Some? ==> f.rating == row.rating.value
    ensures row.rating.None? ==> f.rating == ""
    ensures f.genres == GenreSet(row.metadata)
  {
    var runtime := if row.runtimeMinutes.Some? && row.runtimeMinutes.value != 0 then row.runtimeMinutes.value else 1;
    Features(if row.rating.Some? then row.rating.value else "", Max(1, runtime), GenreSet(row.metadata))
  }

  /** The requested top-k, or the configured one, raised to at least 1. */
  function EffectiveTopK(topK: Option<int>, configured: int): (k: int)
    ensures k >= 1
    ensures topK.Some? && topK.value >= 1 ==> k == topK.value
    ensures topK.None? && configured >= 1 ==> k == configured
  {
    Max(1, if topK.Some? then topK.value else configured)
  }

  /** Rows ordered by movie and, within a movie, by neighbour. */
  predicate RowLess(x: SimilarityRow, y: SimilarityRow)
  {
    x.movieId < y.movieId || (x.movieId == y.movieId && x.similarMovieId < y.similarMovieId)
  }

  predicate SortedRows(rows: seq<SimilarityRow>)
  {
    forall i, j :: 0 <= i < j < |rows| ==> RowLess(rows[i], rows[j])
  }

  /** The number of rows stored for one movie. */
  function RowsFor(rows: seq<SimilarityRow>, movieId: nat): nat
  {
    if rows == [] then 0
    else RowsFor(rows[..|rows| - 1], movieId) + (if rows[|rows| - 1].movieId == movieId then 1 else 0)
  }

  lemma {:induction false} RowsForAppend(rows: seq<SimilarityRow>, block: seq<SimilarityRow>, movieId: nat, blockMovie: nat)
    requires forall i :: 0 <= i < |block| ==> block[i].movieId == blockMovie
    ensures RowsFor(rows + block, movieId) == RowsFor(rows, movieId) + (if movieId == blockMovie then |block| else 0)
  {
    if block != [] {
      var init := block[..|block| - 1];
      assert (rows + block)[..|rows + block| - 1] == rows + init;
      RowsForAppend(rows, init, movieId, blockMovie);
    } else {
      assert rows + block == rows;
    }
  }

  /** What a row says about a pair of movies, in terms of the rebuild's own tables: the
      co-watch count, the shared genre count and the runtime distance of the two movies. */
  predicate DescribesPair(row: SimilarityRow, features: map<nat, Features>, coWatch: map<(nat, nat), nat>)
  {
    row.movieId in features && row.similarMovieId in features
    && row.movieId != row.similarMovieId
    && row.coWatchCount == PairCount(coWatch, row.movieId, row.similarMovieId)
    && row.sharedGenreCount == GenreSimilarity(features[row.movieId].genres, features[row.similarMovieId].genres).1
    && row.runtimeDistance == Distance(features[row.movieId].runtimeMinutes, features[row.similarMovieId].runtimeMinutes)
  }

  /** The same, in terms of the inputs: the number of users with watch rows for both movies,
      the genres the two movies share and their runtime distance. */
  predicate DescribesMovies(row: SimilarityRow, movies: map<nat, MovieRow>, watchRows: seq<(nat, nat)>)
  {
    row.movieId in movies && row.similarMovieId in movies
    && row.movieId != row.similarMovieId
    && row.coWatchCount == |RowViewers(watchRows, row.movieId, row.similarMovieId)|
    && row.sharedGenreCount == |GenreSet(movies[row.movieId].metadata) * GenreSet(movies[row.similarMovieId].metadata)|
    && row.runtimeDistance == Distance(FeaturesOf(movies[row.movieId]).runtimeMinutes,
                                       FeaturesOf(movies[row.similarMovieId]).runtimeMinutes)
  }

  /** The candidates of the movie at position `at`: one row for every other movie, in id
      order. */
  method Candidates(ids: seq<nat>, at: nat, features: map<nat, Features>, coWatch: map<(nat, nat), nat>)
    returns (candidates: seq<SimilarityRow>)
    requires IncreasingNats(ids) && at < |ids|
    requires forall id :: id in ids ==> id in features
    ensures |candidates| == |ids| - 1
    ensures forall i :: 0 <= i < |candidates| ==>
              candidates[i].movieId == ids[at] && DescribesPair(candidates[i], features, coWatch)
    ensures forall i, j :: 0 <= i < j < |candidates| ==> candidates[i].similarMovieId < candidates[j].similarMovieId
  {
    var movieId := ids[at];
    var base := features[movieId];
    candidates := [];
    var j := 0;
    while j < |ids|
      invariant j <= |ids|
      invariant |candidates| == if j > at then j - 1 else j
      invariant forall i :: 0 <= i < |candidates| ==>
                  candidates[i].movieId == movieId && candidates[i].similarMovieId in ids[..j]
                  && DescribesPair(candidates[i], features, coWatch)
      invariant forall i, k :: 0 <= i < k < |candidates| ==> candidates[i].similarMovieId < candidates[k].similarMovieId
    {
      var other := ids[j];
      BelowInIncreasing(ids, 0, j);
      if j != at {
        assert other != movieId;
        var candidate := features[other];
        var (_, shared) := GenreSimilarity(base.genres, candidate.genres);
        var row := SimilarityRow(movieId, other, PairCount(coWatch, movieId, other), shared,
                                 Distance(base.runtimeMinutes, candidate.runtimeMinutes));
        candidates := candidates + [row];
      }
      assert ids[..j + 1] == ids[..j] + [other];
      j := j + 1;
    }
  }

  /** The rows of the first b movies, keep rows each, ordered, each describing its pair. */
  ghost predicate RebuiltPrefix(rows: seq<SimilarityRow>, ids: seq<nat>, b: nat, keep: nat,
                          features: map<nat, Features>, coWatch: map<(nat, nat), nat>)
    requires b <= |ids|
  {
    (forall m :: RowsFor(rows, m) == if m in ids[..b] then keep else 0)
    && (forall i :: 0 <= i < |rows| ==> rows[i].movieId in ids[..b] && DescribesPair(rows[i], features, coWatch))
    && SortedRows(rows)
  }

  lemma AppendBlockCounts(rows: seq<SimilarityRow>, block: seq<SimilarityRow>, ids: seq<nat>, b: nat, keep: nat)
    requires b < |ids| && |block| == keep
    requires forall m :: RowsFor(rows, m) == if m in ids[..b] then keep else 0
    requires forall i :: 0 <= i < |block| ==> block[i].movieId == ids[b]
    requires ids[b] !in ids[..b]
    ensures forall m :: RowsFor(rows + block, m) == if m in ids[..b + 1] then keep else 0
  {
    assert ids[..b + 1] == ids[..b] + [ids[b]];
    forall m ensures RowsFor(rows + block, m) == if m in ids[..b + 1] then keep else 0 {
      RowsForAppend(rows, block, m, ids[b]);
    }
  }

  lemma AppendBlockSorted(rows: seq<SimilarityRow>, block: seq<SimilarityRow>, movieId: nat)
    requires SortedRows(rows)
    requires forall i :: 0 <= i < |rows| ==> rows[i].movieId < movieId
    requires forall i :: 0 <= i < |block| ==> block[i].movieId == movieId
    requires forall i, j :: 0 <= i < j < |block| ==> block[i].similarMovieId < block[j].similarMovieId
    ensures SortedRows(rows + block)
  {
    var all := rows + block;
    forall i, j | 0 <= i < j < |all| ensures RowLess(all[i], all[j]) {
      if j < |rows| {
        assert RowLess(rows[i], rows[j]);
      } else if i >= |rows| {
        assert all[i] == block[i - |rows|] && all[j] == block[j - |rows|];
      } else {
        assert all[i] == rows[i] && all[j] == block[j - |rows|];
      }
    }
  }

  lemma AppendBlockDescribed(rows: seq<SimilarityRow>, block: seq<SimilarityRow>, ids: seq<nat>, b: nat,
                             features: map<nat, Features>, coWatch: map<(nat, nat), nat>)
    requires b < |ids|
    requires forall i :: 0 <= i < |rows| ==> rows[i].movieId in ids[..b] && DescribesPair(rows[i], features, coWatch)
    requires forall i :: 0 <= i < |block| ==> block[i].movieId == ids[b] && DescribesPair(block[i], features, coWatch)
    ensures forall i :: 0 <= i < |rows + block| ==>
              (rows + block)[i].movieId in ids[..b + 1] && DescribesPair((rows + block)[i], features, coWatch)
  {
    assert ids[..b + 1] == ids[..b] + [ids[b]];
    var all := rows + block;
    forall i | 0 <= i < |all| ensures all[i].movieId in ids[..b + 1] && DescribesPair(all[i], features, coWatch) {
      if i < |rows| {
        assert all[i] == rows[i];
      } else {
        assert all[i] == block[i - |rows|];
      }
    }
  }

  lemma AppendBlock(rows: seq<SimilarityRow>, block: seq<SimilarityRow>, ids: seq<nat>, b: nat, keep: nat,
                    features: map<nat, Features>, coWatch: map<(nat, nat), nat>)
    requires IncreasingNats(ids) && b < |ids| && |block| == keep
    requires RebuiltPrefix(rows, ids, b, keep, features, coWatch)
    requires forall i :: 0 <= i < |block| ==> block[i].movieId == ids[b] && DescribesPair(block[i], features, coWatch)
    requires forall i, j :: 0 <= i < j < |block| ==> block[i].similarMovieId < block[j].similarMovieId
    ensures RebuiltPrefix(rows + block, ids, b + 1, keep, features, coWatch)
  {
    BelowInIncreasing(ids, 0, b);
    AppendBlockCounts(rows, block, ids, b, keep);
    AppendBlockSorted(rows, block, ids[b]);
    AppendBlockDescribed(rows, block, ids, b, features, coWatch);
  }

  /** The feature table of the rebuild: one entry per movie. */
  function FeatureTable(movies: map<nat, MovieRow>): (features: map<nat, Features>)
    ensures features.Keys == movies.Keys
    ensures forall id :: id in features ==> features[id] == FeaturesOf(movies[id])
  {
    map id | id in movies :: FeaturesOf(movies[id])
  }

  /** The per-movie loop of the rebuild: for each movie in id order, its candidates cut to the
      first `keep`. */
  method CollectRows(ids: seq<nat>, keep: nat, features: map<nat, Features>, coWatch: map<(nat, nat), nat>)
    returns (rows: seq<SimilarityRow>)
    requires IncreasingNats(ids) && keep < |ids|
    requires forall id :: id in ids ==> id in features
    ensures RebuiltPrefix(rows, ids, |ids|, keep, features, coWatch)
  {
    rows := [];
    var b := 0;
    while b < |ids|
      invariant b <= |ids|
      invariant RebuiltPrefix(rows, ids, b, keep, features, coWatch)
    {
      var candidates := Candidates(ids, b, features, coWatch);
      var block := candidates[..keep];
      AppendBlock(rows, block, ids, b, keep, features, coWatch);
      rows := rows + block;
      b := b + 1;
    }
  }

  /** One collected row, read against the inputs. */
  lemma RowAgainstInputs(row: SimilarityRow, movies: map<nat, MovieRow>, watchRows: seq<(nat, nat)>,
                         features: map<nat, Features>, coWatch: map<(nat, nat), nat>)
    requires features == FeatureTable(movies)
    requires row.movieId != row.similarMovieId
    requires PairCount(coWatch, row.movieId, row.similarMovieId) == |RowViewers(watchRows, row.movieId, row.similarMovieId)|
    requires DescribesPair(row, features, coWatch)
    ensures DescribesMovies(row, movies, watchRows)
  {
  }

  /** The table the rebuild promises for two or more movies: every movie gets min(k, n - 1)
      rows, the rows are ordered by (movie, neighbour) so that no pair appears twice, and each
      row names another movie and carries the pair's co-watch count, shared genre count and
      runtime distance. */
  ghost predicate NeighbourTable(rows: seq<SimilarityRow>, movies: map<nat, MovieRow>,
                                 watchRows: seq<(nat, nat)>, k: int)
  {
    (forall m :: RowsFor(rows, m) == if m in movies then Min(k, |movies| - 1) else 0)
    && (forall i :: 0 <= i < |rows| ==> DescribesMovies(rows[i], movies, watchRows))
    && SortedRows(rows)
  }

  /** The collected rows, read against the inputs. */
  lemma RebuiltTable(rows: seq<SimilarityRow>, ids: seq<nat>, k: int, movies: map<nat, MovieRow>,
                     watchRows: seq<(nat, nat)>, features: map<nat, Features>,
                     coWatch: map<(nat, nat), nat>)
    requires forall x :: x in ids <==> x in movies
    requires |ids| == |movies| >= 2 && k >= 1
    requires features == FeatureTable(movies)
    requires forall a, b :: PairCount(coWatch, a, b) == if a == b then 0 else |RowViewers(watchRows, a, b)|
    requires RebuiltPrefix(rows, ids, |ids|, Min(k, |ids| - 1), features, coWatch)
    ensures NeighbourTable(rows, movies, watchRows, k)
  {
    assert ids[..|ids|] == ids;
    forall i | 0 <= i < |rows| ensures DescribesMovies(rows[i], movies, watchRows) {
      RowAgainstInputs(rows[i], movies, watchRows, features, coWatch);
    }
  }

  /** The rows for two or more movies: the features, the co-watch table, then the per-movie
      candidates cut to min(k, n - 1). */
  method NeighbourRows(movies: map<nat, MovieRow>, watchRows: seq<(nat, nat)>, k: int)
    returns (rows: seq<SimilarityRow>)
    requires |movies| >= 2 && k >= 1
    ensures NeighbourTable(rows, movies, watchRows, k)
  {
    var features := FeatureTable(movies);
    var ids := SortedNats(movies.Keys);
    var coWatch := CoWatchTable(watchRows);
    assert |ids| == |movies|;
    rows := CollectRows(ids, Min(k, |ids| - 1), features, coWatch);
    RebuiltTable(rows, ids, k, movies, watchRows, features, coWatch);
  }

  /** The rebuilt table: empty with fewer than two movies, the neighbour table otherwise. */
  method RebuildMovieSimilarity(movies: map<nat, MovieRow>, watchRows: seq<(nat, nat)>,
                                topK: Option<int>, configuredTopK: int)
    returns (rows: seq<SimilarityRow>)
    ensures |movies| < 2 ==> rows == []
    ensures |movies| >= 2 ==> NeighbourTable(rows, movies, watchRows, EffectiveTopK(topK, configuredTopK))
  {
    var k := EffectiveTopK(topK, configuredTopK);
    if |movies| < 2 {
      rows := [];
    } else {
      rows := NeighbourRows(movies, watchRows, k);
    }
  }

  /** Each movie gets at most top-k rows, and none of them points back to the movie itself. */
  lemma AtMostTopK(rows: seq<SimilarityRow>, movies: map<nat, MovieRow>, watchRows: seq<(nat, nat)>,
                   k: int, m: nat)
    requires NeighbourTable(rows, movies, watchRows, k) && k >= 1
    ensures RowsFor(rows, m) <= k
    ensures forall i :: 0 <= i < |rows| ==> rows[i].similarMovieId != rows[i].movieId
  {
  }

  /** No (movie, neighbour) pair is stored twice. */
  lemma PairsDistinct(rows: seq<SimilarityRow>, movies: map<nat, MovieRow>, watchRows: seq<(nat, nat)>,
                      k: int, i: nat, j: nat)
    requires NeighbourTable(rows, movies, watchRows, k)
    requires i < j < |rows|
    ensures (rows[i].movieId, rows[i].similarMovieId) != (rows[j].movieId, rows[j].similarMovieId)
  {
  }

  /** The co-watch count stored for a pair is the same in both directions. */
  lemma CoWatchCountsSymmetric(rows: seq<SimilarityRow>, movies: map<nat, MovieRow>,
                               watchRows: seq<(nat, nat)>, k: int, i: nat, j: nat)
    requires NeighbourTable(rows, movies, watchRows, k)
    requires i < |rows| && j < |rows|
    requires rows[i].movieId == rows[j].similarMovieId && rows[i].similarMovieId == rows[j].movieId
    ensures rows[i].coWatchCount == rows[j].coWatchCount
  {
    RowViewersSymmetric(watchRows, rows[i].movieId, rows[i].similarMovieId);
  }
}

=== FILE: payment_service.dfy ===
/** The checkout and finalize engine: pricing a reservation, opening at most one order for it, and
    finalizing an order into PAID (seats sold, reservation completed, tickets minted) or FAILED. */
module PaymentService {
  import opened Wrappers
  import opened Text
  import opened Sorting
  import opened BookingStore

  // ----- Pricing -----

  const SeatTypePriceCents: map<string, nat> := map["STANDARD" := 1500, "PREMIUM" := 2000, "VIP" := 2600]

  /** The price of one seat: looked up by the upper-cased seat type, 1500 for an unknown type. */
  function SeatPriceCents(seatType: string): (cents: nat)
    ensures cents == 2600 <==> Upper(seatType) == "VIP"
    ensures cents == 2000 <==> Upper(seatType) == "PREMIUM"
    ensures cents == 1500 <==> Upper(seatType) != "VIP" && Upper(seatType) != "PREMIUM"
  {
    var key := Upper(seatType);
    if key in SeatTypePriceCents then SeatTypePriceCents[key] else 1500
  }

  lemma SeatPriceIgnoresCase()
    ensures SeatPriceCents("vip") == 2600 && SeatPriceCents("Premium") == 2000
    ensures SeatPriceCents("balcony") == 1500
  {
    assert Upper("vip") == "VIP";
    assert Upper("Premium") == "PREMIUM";
    assert Upper("balcony") == "BALCONY";
  }

  /** The seats a checkout prices: the reservation's seats joined with the seat table, by id. */
  function PricedSeats(seats: map<nat, Seat>, seatIds: set<nat>): (ids: seq<nat>)
    ensures IncreasingNats(ids)
    ensures forall s :: s in ids <==> s in seatIds && s in seats
  {
    SortedNats(set s | s in seatIds && s in seats)
  }

  function SumOfPrices(seats: map<nat, Seat>, ids: seq<nat>): int
    requires forall i :: 0 <= i < |ids| ==> ids[i] in seats
  {
    if ids == [] then 0 else SeatPriceCents(seats[ids[0]].seatType) + SumOfPrices(seats, ids[1..])
  }

  /** The order total: the sum of the seat prices over the priced seats. */
  function ReservationTotal(seats: map<nat, Seat>, seatIds: set<nat>): int
  {
    SumOfPrices(seats, PricedSeats(seats, seatIds))
  }

  lemma {:induction false} SumOfPricesBounds(seats: map<nat, Seat>, ids: seq<nat>)
    requires forall i :: 0 <= i < |ids| ==> ids[i] in seats
    ensures 1500 * |ids| <= SumOfPrices(seats, ids) <= 2600 * |ids|
  {
    if ids != [] {
      SumOfPricesBounds(seats, ids[1..]);
    }
  }

  /** Every priced seat costs between 15 and 26 dollars, so a total is bounded by its seat count. */
  lemma ReservationTotalBounds(seats: map<nat, Seat>, seatIds: set<nat>)
    ensures 1500 * |PricedSeats(seats, seatIds)| <= ReservationTotal(seats, seatIds)
    ensures ReservationTotal(seats, seatIds) <= 2600 * |PricedSeats(seats, seatIds)|
    ensures |PricedSeats(seats, seatIds)| <= |seatIds|
  {
    var ids := PricedSeats(seats, seatIds);
    SumOfPricesBounds(seats, ids);
    SubsetCardinality((set s | s in seatIds && s in seats), seatIds);
  }

  // ----- Checkout session -----

  datatype CheckoutSessionRead = CheckoutSessionRead(
    orderId: nat, reservationId: nat, provider: string, providerSessionId: string, status: OrderStatus,
    totalCents: int, currency: string, checkoutUrl: string)

  /** The response for an order: a missing session id reads as "" in the field and as "None"
      inside the URL, as Python's `or ""` and f-string render it. */
  function SessionRead(orderId: nat, order: Order): (read: CheckoutSessionRead)
    ensures read.orderId == orderId && read.reservationId == order.reservationId
    ensures read.status == order.status && read.totalCents == order.totalCents
    ensures order.providerSessionId.Some? ==> read.providerSessionId == order.providerSessionId.value
  {
    var sid := if order.providerSessionId.Some? then order.providerSessionId.value else "";
    var shown := if order.providerSessionId.Some? then order.providerSessionId.value else "None";
    CheckoutSessionRead(orderId, order.reservationId, order.provider, sid, order.status, order.totalCents,
      order.currency, "/checkout/processing?order_id=" + NatToString(orderId) + "&session_id=" + shown)
  }

  /** The checkout's reservation checks, in order: missing or foreign, not ACTIVE, expired. */
  function ReservationError(reservations: map<nat, Reservation>, reservationId: nat, userId: nat, now: int)
    : (e: Option<HttpError>)
    ensures e == Some(HttpError(404, "Reservation not found")) <==>
      reservationId !in reservations || reservations[reservationId].userId != userId
    ensures e == Some(HttpError(409, "Reservation is not active")) <==>
      reservationId in reservations && reservations[reservationId].userId == userId &&
      reservations[reservationId].status != Active
    ensures e == Some(HttpError(409, "Reservation has expired")) <==>
      reservationId in reservations && reservations[reservationId].userId == userId &&
      reservations[reservationId].status == Active && reservations[reservationId].expiresAt <= now
    ensures e == None <==>
      reservationId in reservations && reservations[reservationId].userId == userId &&
      reservations[reservationId].status == Active && now < reservations[reservationId].expiresAt
  {
    if reservationId !in reservations || reservations[reservationId].userId != userId then
      Some(HttpError(404, "Reservation not found"))
    else if reservations[reservationId].status != Active then
      Some(HttpError(409, "Reservation is not active"))
    else if reservations[reservationId].expiresAt <= now then
      Some(HttpError(409, "Reservation has expired"))
    else
      None
  }

  predicate HasOrder(orders: map<nat, Order>, reservationId: nat)
  {
    exists o :: o in orders && orders[o].reservationId == reservationId
  }

  /** The query for an order already opened on the reservation. */
  method FindOrder(orders: map<nat, Order>, reservationId: nat) returns (found: Option<nat>)
    ensures found.Some? <==> HasOrder(orders, reservationId)
    ensures found.Some? ==> found.value in orders && orders[found.value].reservationId == reservationId
  {
    if exists o :: o in orders && orders[o].reservationId == reservationId {
      var o :| o in orders && orders[o].reservationId == reservationId;
      return Some(o);
    }
    return None;
  }

  /** The order a checkout opens for an open reservation, under the next order id. */
  function NewOrder(t: Tables, userId: nat, reservationId: nat, provider: string): Order
    requires reservationId in t.reservations
  {
    var r := t.reservations[reservationId];
    Order(userId, r.showtimeId, reservationId, Pending, ReservationTotal(t.seats, r.seatIds), "USD", provider,
      Some(SessionIdFor(t.nextOrderId)))
  }

  /** The tables after a checkout opens `order`. */
  function WithOrder(t: Tables, order: Order): Tables
  {
    t.(orders := t.orders[t.nextOrderId := order], nextOrderId := t.nextOrderId + 1)
  }

  lemma AddOrderConsistent(t: Tables, order: Order)
    requires TablesConsistent(t)
    requires !HasOrder(t.orders, order.reservationId)
    requires order.status == Pending && order.providerSessionId == Some(SessionIdFor(t.nextOrderId))
    ensures TablesConsistent(WithOrder(t, order))
  {
    var id := t.nextOrderId;
    var u := WithOrder(t, order);
    assert id !in t.orders;
    forall o | o in u.orders && u.orders[o].status == Paid && u.orders[o].reservationId in u.reservations
      ensures TicketSeats(u.tickets, o) == u.reservations[u.orders[o].reservationId].seatIds
    {
      assert o in t.orders && t.orders[o] == u.orders[o];
    }
  }

  /** Every outcome of a checkout keeps the tables consistent: the swept tables, and the swept
      tables with the new order, which is the only order of its reservation. */
  lemma CheckoutConsistent(t: Tables, userId: nat, reservationId: nat, provider: string, sweepNow: int)
    requires TablesConsistent(t)
    ensures TablesConsistent(Sweep(t, sweepNow))
    ensures var s := Sweep(t, sweepNow);
      reservationId in s.reservations && !HasOrder(s.orders, reservationId) ==>
        TablesConsistent(WithOrder(s, NewOrder(s, userId, reservationId, provider)))
  {
    var s := Sweep(t, sweepNow);
    SweepConsistent(t, sweepNow);
    if reservationId in s.reservations && !HasOrder(s.orders, reservationId) {
      AddOrderConsistent(s, NewOrder(s, userId, reservationId, provider));
    }
  }

  /** create_checkout_session. The hold sweep comes first and every later check reads the swept
      tables; a raised error rolls the transaction back, so the sweep is written to the database
      only on the paths that return normally. */
  method CreateCheckoutSession(db: CinemaDb, userId: nat, reservationId: nat, provider: string, sweepNow: int, now: int)
    returns (r: Result<CheckoutSessionRead>)
    requires sweepNow <= now
    modifies db
    ensures r.Err? ==> db.State() == old(db.State())
    ensures var s := Sweep(old(db.State()), sweepNow);
      var e := ReservationError(s.reservations, reservationId, userId, now);
      (e.Some? ==> r == Err(e.value)) &&
      (e.None? && HasOrder(s.orders, reservationId) ==>
        db.State() == s && r.Ok? && r.value.orderId in s.orders &&
        s.orders[r.value.orderId].reservationId == reservationId &&
        r.value == SessionRead(r.value.orderId, s.orders[r.value.orderId])) &&
      (e.None? && !HasOrder(s.orders, reservationId) &&
       PricedSeats(s.seats, s.reservations[reservationId].seatIds) == [] ==>
        r == Err(HttpError(400, "Reservation has no seats"))) &&
      (e.None? && !HasOrder(s.orders, reservationId) &&
       PricedSeats(s.seats, s.reservations[reservationId].seatIds) != [] ==>
        db.State() == WithOrder(s, NewOrder(s, userId, reservationId, provider)) &&
        r == Ok(SessionRead(s.nextOrderId, NewOrder(s, userId, reservationId, provider))))
  {
    var swept := Sweep(db.State(), sweepNow);
    var e := ReservationError(swept.reservations, reservationId, userId, now);
    if e.Some? {
      return Err(e.value);
    }
    var existing := FindOrder(swept.orders, reservationId);
    if existing.Some? {
      db.ExpireOverdueHolds(sweepNow);
      return Ok(SessionRead(existing.value, swept.orders[existing.value]));
    }
    var seatRows := PricedSeats(swept.seats, swept.reservations[reservationId].seatIds);
    if seatRows == [] {
      return Err(HttpError(400, "Reservation has no seats"));
    }
    var order := NewOrder(swept, userId, reservationId, provider);
    db.ExpireOverdueHolds(sweepNow);
    var id := db.nextOrderId;
    db.orders := db.orders[id := order];
    db.nextOrderId := id + 1;
    return Ok(SessionRead(id, order));
  }

  // ----- Finalize -----

  datatype TicketRead = TicketRead(id: nat, seatId: nat, qrToken: string, status: TicketStatus)

  datatype FinalizeRead = FinalizeRead(orderId: nat, orderStatus: OrderStatus, ticketCount: nat, tickets: seq<TicketRead>)

  function TicketReadOf(id: nat, ticket: Ticket): TicketRead
  {
    TicketRead(id, ticket.seatId, ticket.qrToken, ticket.status)
  }

  /** The ticket ids listed in a payload, in order. */
  function TicketIds(rows: seq<TicketRead>): (ids: seq<nat>)
    ensures |ids| == |rows| && forall i :: 0 <= i < |rows| ==> ids[i] == rows[i].id
  {
    seq(|rows|, i requires 0 <= i < |rows| => rows[i].id)
  }

  /** _finalize_payload: the order's tickets, by ascending id, and their count. */
  function FinalizePayload(tickets: map<nat, Ticket>, orderId: nat, status: OrderStatus): (p: FinalizeRead)
    ensures p.orderId == orderId && p.orderStatus == status
    ensures p.ticketCount == |p.tickets| == |TicketsOf(tickets, orderId)|
    ensures TicketIds(p.tickets) == SortedNats(TicketsOf(tickets, orderId))
    ensures forall i :: 0 <= i < |p.tickets| ==>
      p.tickets[i].id in tickets && tickets[p.tickets[i].id].orderId == orderId &&
      p.tickets[i] == TicketReadOf(p.tickets[i].id, tickets[p.tickets[i].id])
  {
    var ids := SortedNats(TicketsOf(tickets, orderId));
    assert forall i :: 0 <= i < |ids| ==> ids[i] in TicketsOf(tickets, orderId);
    var rows := seq(|ids|, i requires 0 <= i < |ids| => TicketReadOf(ids[i], tickets[ids[i]]));
    assert TicketIds(rows) == ids;
    FinalizeRead(orderId, status, |rows|, rows)
  }

  /** Every seat of the reservation has a status row at its showtime that it holds. */
  predicate AllHeldBy(statuses: map<(nat, nat), SeatStatusRow>, r: Reservation, reservationId: nat)
  {
    forall s :: s in r.seatIds ==> HeldRow(statuses, r.showtimeId, s, reservationId)
  }

  /** The row of seat `seatId` at showtime `showtimeId` exists and is HELD by the reservation. */
  predicate HeldRow(statuses: map<(nat, nat), SeatStatusRow>, showtimeId: nat, seatId: nat, reservationId: nat)
  {
    (showtimeId, seatId) in statuses && statuses[(showtimeId, seatId)] == SeatStatusRow(Held, Some(reservationId))
  }

  /** The finalize checks all pass: the reservation is ACTIVE, has seats, and holds each. */
  predicate CanSell(statuses: map<(nat, nat), SeatStatusRow>, r: Reservation, reservationId: nat)
  {
    r.status == Active && r.seatIds != {} && AllHeldBy(statuses, r, reservationId)
  }

  /** The status rows finalize locks: those of the reservation's seats at its showtime. */
  function RowsFound(statuses: map<(nat, nat), SeatStatusRow>, r: Reservation): set<nat>
  {
    set s | s in r.seatIds && (r.showtimeId, s) in statuses
  }

  lemma RowCountMatches(statuses: map<(nat, nat), SeatStatusRow>, r: Reservation)
    ensures |RowsFound(statuses, r)| == |r.seatIds| <==> forall s :: s in r.seatIds ==> (r.showtimeId, s) in statuses
  {
    var found := RowsFound(statuses, r);
    SubsetCardinality(found, r.seatIds);
    if forall s :: s in r.seatIds ==> (r.showtimeId, s) in statuses {
      assert found == r.seatIds;
    }
  }

  /** Finalize's count check and per-row HELD check, over the rows in seat order. */
  method HeldForSale(statuses: map<(nat, nat), SeatStatusRow>, r: Reservation, reservationId: nat) returns (ok: bool)
    ensures ok <==> AllHeldBy(statuses, r, reservationId)
  {
    var seatIds := SortedNats(r.seatIds);
    RowCountMatches(statuses, r);
    if |RowsFound(statuses, r)| != |seatIds| {
      return false;
    }
    var i := 0;
    while i < |seatIds|
      invariant 0 <= i <= |seatIds|
      invariant forall j :: 0 <= j < i ==> HeldRow(statuses, r.showtimeId, seatIds[j], reservationId)
    {
      assert seatIds[i] in r.seatIds;
      var row := statuses[(r.showtimeId, seatIds[i])];
      if row.status != Held || row.heldBy != Some(reservationId) {
        assert !HeldRow(statuses, r.showtimeId, seatIds[i], reservationId);
        return false;
      }
      i := i + 1;
    }
    assert forall s :: s in r.seatIds ==> s in seatIds;
    return true;
  }

  /** The bulk update of a sale: rows of the reservation's seats that it holds become SOLD
      with no holder. */
  function SoldRows(statuses: map<(nat, nat), SeatStatusRow>, r: Reservation, reservationId: nat)
    : (sold: map<(nat, nat), SeatStatusRow>)
    ensures sold.Keys == statuses.Keys
  {
    map k | k in statuses ::
      if k.0 == r.showtimeId && k.1 in r.seatIds && statuses[k].heldBy == Some(reservationId)
      then SeatStatusRow(Sold, None) else statuses[k]
  }

  /** After the sale every seat of the reservation is SOLD with no holder, and no row held by
      another reservation (or by none) changes. */
  lemma SoldRowsEffect(statuses: map<(nat, nat), SeatStatusRow>, r: Reservation, reservationId: nat)
    requires AllHeldBy(statuses, r, reservationId)
    ensures forall s :: s in r.seatIds ==> SoldRows(statuses, r, reservationId)[(r.showtimeId, s)] == SeatStatusRow(Sold, None)
    ensures forall k :: k in statuses && statuses[k].heldBy != Some(reservationId) ==>
      SoldRows(statuses, r, reservationId)[k] == statuses[k]
  {
  }

  /** The tickets minted for the missing seats, numbered from `next` on. */
  function NewTickets(orderId: nat, missing: seq<nat>, next: nat): (minted: map<nat, Ticket>)
    ensures forall k :: k in minted <==> next <= k < next + |missing|
  {
    map k: nat | next <= k < next + |missing| :: Ticket(orderId, missing[k - next], QrTokenFor(k), Valid, None)
  }

  lemma MintOne(tickets: map<nat, Ticket>, orderId: nat, missing: seq<nat>, next: nat, i: nat)
    requires i < |missing|
    ensures tickets + NewTickets(orderId, missing[..i + 1], next) ==
      (tickets + NewTickets(orderId, missing[..i], next))[next + i := Ticket(orderId, missing[i], QrTokenFor(next + i), Valid, None)]
  {
    var before := NewTickets(orderId, missing[..i], next);
    var after := NewTickets(orderId, missing[..i + 1], next);
    assert after == before[next + i := Ticket(orderId, missing[i], QrTokenFor(next + i), Valid, None)];
  }

  /** session.add_all of the missing tickets: ids and tokens are handed out in seat order. */
  method MintTickets(db: CinemaDb, orderId: nat, missing: seq<nat>)
    modifies db
    ensures db.State() == old(db.State()).(
      tickets := old(db.tickets) + NewTickets(orderId, missing, old(db.nextTicketId)),
      nextTicketId := old(db.nextTicketId) + |missing|)
  {
    ghost var t := db.State();
    var next := db.nextTicketId;
    var i := 0;
    while i < |missing|
      invariant 0 <= i <= |missing|
      invariant db.tickets == t.tickets + NewTickets(orderId, missing[..i], next)
      invariant db.nextTicketId == next + i
      invariant db.State() == t.(tickets := db.tickets, nextTicketId := db.nextTicketId)
    {
      MintOne(t.tickets, orderId, missing, next, i);
      var k := db.nextTicketId;
      db.tickets := db.tickets[k := Ticket(orderId, missing[i], QrTokenFor(k), Valid, None)];
      db.nextTicketId := k + 1;
      i := i + 1;
    }
    assert missing[..i] == missing;
  }

  /** The missing seats of a successful finalize on the tables `s`. */
  function MissingSeats(s: Tables, orderId: nat): seq<nat>
    requires orderId in s.orders && s.orders[orderId].reservationId in s.reservations
  {
    Missing(SortedNats(s.reservations[s.orders[orderId].reservationId].seatIds), TicketSeats(s.tickets, orderId))
  }

  /** The tables after selling the reservation of `orderId` and minting tickets for `missing`. */
  function SaleOf(s: Tables, orderId: nat, missing: seq<nat>): Tables
    requires orderId in s.orders && s.orders[orderId].reservationId in s.reservations
  {
    var o := s.orders[orderId];
    var r := s.reservations[o.reservationId];
    s.(statuses := SoldRows(s.statuses, r, o.reservationId),
       reservations := s.reservations[o.reservationId := r.(status := Completed)],
       orders := s.orders[orderId := o.(status := Paid)],
       tickets := s.tickets + NewTickets(orderId, missing, s.nextTicketId),
       nextTicketId := s.nextTicketId + |missing|)
  }

  /** The tables after a successful finalize of `orderId` on the swept tables `s`. */
  function AfterSale(s: Tables, orderId: nat): Tables
    requires orderId in s.orders && s.orders[orderId].reservationId in s.reservations
  {
    SaleOf(s, orderId, MissingSeats(s, orderId))
  }

  /** The tables after a failed finalize of `orderId` on the swept tables `s`. */
  function AfterFailure(s: Tables, orderId: nat): Tables
    requires orderId in s.orders
  {
    s.(orders := s.orders[orderId := s.orders[orderId].(status := Failed)])
  }

  /** The sale on the swept tables: sell the held seats, complete the reservation, pay the
      order and mint the missing tickets. */
  method Sell(db: CinemaDb, orderId: nat)
    requires orderId in db.orders && db.orders[orderId].reservationId in db.reservations
    modifies db
    ensures db.State() == AfterSale(old(db.State()), orderId)
  {
    var order := db.orders[orderId];
    var reservation := db.reservations[order.reservationId];
    var missing := MissingSeats(db.State(), orderId);
    db.statuses := SoldRows(db.statuses, reservation, order.reservationId);
    db.reservations := db.reservations[order.reservationId := reservation.(status := Completed)];
    db.orders := db.orders[orderId := order.(status := Paid)];
    MintTickets(db, orderId, missing);
  }

  /** What finalize_paid_order does to tables `t`, answering `r` and leaving `after`. The hold
      sweep comes first and the checks read the swept tables; the 404 error rolls the transaction
      back, the sweep included. PAID is the only status left alone: a FAILED order whose
      reservation is still ACTIVE and holding its seats is finalized to PAID like a PENDING one. */
  predicate FinalizesTo(t: Tables, orderId: nat, sweepNow: int, r: Result<FinalizeRead>, after: Tables)
    requires orderId in t.orders
  {
    var o := t.orders[orderId]; var s := Sweep(t, sweepNow);
    (o.reservationId !in t.reservations ==>
      r == Err(HttpError(404, "Order reservation not found")) && after == t) &&
    (o.reservationId in t.reservations && o.status == Paid ==>
      after == s && r == Ok(FinalizePayload(t.tickets, orderId, Paid))) &&
    (o.reservationId in t.reservations && o.status != Paid &&
     !CanSell(s.statuses, s.reservations[o.reservationId], o.reservationId) ==>
      after == AfterFailure(s, orderId) && r == Ok(FinalizePayload(t.tickets, orderId, Failed))) &&
    (o.reservationId in t.reservations && o.status != Paid &&
     CanSell(s.statuses, s.reservations[o.reservationId], o.reservationId) ==>
      after == AfterSale(s, orderId) && r == Ok(FinalizePayload(after.tickets, orderId, Paid)))
  }

  /** finalize_paid_order. */
  method FinalizePaidOrder(db: CinemaDb, orderId: nat, sweepNow: int) returns (r: Result<FinalizeRead>)
    requires orderId in db.orders
    modifies db
    ensures FinalizesTo(old(db.State()), orderId, sweepNow, r, db.State())
  {
    var swept := Sweep(db.State(), sweepNow);
    var order := swept.orders[orderId];
    if order.reservationId !in swept.reservations {
      return Err(HttpError(404, "Order reservation not found"));
    }
    db.ExpireOverdueHolds(sweepNow);
    if order.status == Paid {
      return Ok(FinalizePayload(db.tickets, orderId, Paid));
    }
    var reservation := swept.reservations[order.reservationId];
    var ok := false;
    if reservation.status == Active && reservation.seatIds != {} {
      ok := HeldForSale(swept.statuses, reservation, order.reservationId);
    }
    if !ok {
      db.orders := db.orders[orderId := order.(status := Failed)];
      return Ok(FinalizePayload(db.tickets, orderId, Failed));
    }
    Sell(db, orderId);
    return Ok(FinalizePayload(db.tickets, orderId, Paid));
  }

  // ----- What a finalize guarantees -----

  /** The order whose finalize failed is not PAID, so it has no tickets to lose, and the failure
      keeps the tables consistent. */
  lemma FailureConsistent(s: Tables, orderId: nat)
    requires TablesConsistent(s) && orderId in s.orders && s.orders[orderId].status != Paid
    ensures TablesConsistent(AfterFailure(s, orderId))
  {
    var u := AfterFailure(s, orderId);
    forall p | p in u.orders && u.orders[p].status == Paid && u.orders[p].reservationId in u.reservations
      ensures TicketSeats(u.tickets, p) == u.reservations[u.orders[p].reservationId].seatIds
    {
      assert p != orderId;
    }
  }

  lemma UnpaidHasNoTickets(tickets: map<nat, Ticket>, orders: map<nat, Order>, orderId: nat)
    requires TicketsOfPaidOrders(tickets, orders) && orderId in orders && orders[orderId].status != Paid
    ensures TicketsOf(tickets, orderId) == {} && TicketSeats(tickets, orderId) == {}
  {
    forall k | k in tickets ensures tickets[k].orderId != orderId {
      assert orders[tickets[k].orderId].status == Paid;
    }
  }

  lemma StatusChangeKeepsOrders(orders: map<nat, Order>, orderId: nat, status: OrderStatus)
    requires orderId in orders && OnePerReservation(orders) && SessionIdsMinted(orders)
    ensures OnePerReservation(orders[orderId := orders[orderId].(status := status)])
    ensures SessionIdsMinted(orders[orderId := orders[orderId].(status := status)])
  {
  }

  lemma MintedSeats(orderId: nat, missing: seq<nat>, next: nat)
    requires IncreasingNats(missing)
    ensures TicketSeats(NewTickets(orderId, missing, next), orderId) == set s | s in missing
    ensures OneTicketPerSeat(NewTickets(orderId, missing, next))
    ensures QrTokensMinted(NewTickets(orderId, missing, next))
  {
    var minted := NewTickets(orderId, missing, next);
    forall s | s in missing ensures s in TicketSeats(minted, orderId) {
      var i :| 0 <= i < |missing| && missing[i] == s;
      assert minted[next + i].seatId == s;
    }
  }

  /** Minting for an order without tickets: the order ends with one ticket per minted seat and
      the other orders' tickets do not change. */
  lemma MintedTicketSeats(tickets: map<nat, Ticket>, orderId: nat, missing: seq<nat>, next: nat)
    requires TicketsOf(tickets, orderId) == {}
    requires forall k :: k in tickets ==> k < next
    requires IncreasingNats(missing)
    ensures var u := tickets + NewTickets(orderId, missing, next);
      TicketSeats(u, orderId) == (set s | s in missing) &&
      (forall p :: p != orderId ==> TicketSeats(u, p) == TicketSeats(tickets, p))
  {
    var minted := NewTickets(orderId, missing, next);
    var u := tickets + minted;
    MintedSeats(orderId, missing, next);
    assert forall k :: k in tickets ==> k !in minted && u[k] == tickets[k];
    forall k | k in tickets ensures tickets[k].orderId != orderId {
      assert k !in TicketsOf(tickets, orderId);
    }
    assert TicketSeats(u, orderId) == TicketSeats(minted, orderId);
    forall p | p != orderId ensures TicketSeats(u, p) == TicketSeats(tickets, p) {
    }
  }

  /** Minting for an order without tickets keeps the ticket constraints. */
  lemma MintedTicketsConsistent(tickets: map<nat, Ticket>, orders: map<nat, Order>, orderId: nat, missing: seq<nat>, next: nat)
    requires QrTokensMinted(tickets) && OneTicketPerSeat(tickets) && TicketsOf(tickets, orderId) == {}
    requires TicketsOfPaidOrders(tickets, orders) && orderId in orders
    requires forall k :: k in tickets ==> k < next
    requires IncreasingNats(missing)
    ensures var u := tickets + NewTickets(orderId, missing, next);
      var paid := orders[orderId := orders[orderId].(status := Paid)];
      QrTokensMinted(u) && OneTicketPerSeat(u) && TicketsOfPaidOrders(u, paid) &&
      TicketSeats(u, orderId) == (set s | s in missing) &&
      (forall p :: p != orderId ==> TicketSeats(u, p) == TicketSeats(tickets, p))
  {
    var minted := NewTickets(orderId, missing, next);
    MintedSeats(orderId, missing, next);
    MintedTicketSeats(tickets, orderId, missing, next);
    assert forall k :: k in tickets ==> k !in minted;
    forall k | k in tickets ensures tickets[k].orderId != orderId {
      assert k !in TicketsOf(tickets, orderId);
    }
  }

  /** For an order without tickets, the missing seats are all the reservation's seats. */
  lemma MissingSeatsAll(s: Tables, orderId: nat)
    requires orderId in s.orders && s.orders[orderId].reservationId in s.reservations
    requires TicketSeats(s.tickets, orderId) == {}
    ensures IncreasingNats(MissingSeats(s, orderId))
    ensures (set x | x in MissingSeats(s, orderId)) == s.reservations[s.orders[orderId].reservationId].seatIds
  {
  }

  lemma SaleOfConsistent(s: Tables, orderId: nat, missing: seq<nat>)
    requires TablesConsistent(s)
    requires orderId in s.orders && s.orders[orderId].reservationId in s.reservations
    requires s.orders[orderId].status != Paid
    requires IncreasingNats(missing)
    requires (set x | x in missing) == s.reservations[s.orders[orderId].reservationId].seatIds
    ensures TablesConsistent(SaleOf(s, orderId, missing))
    ensures TicketSeats(SaleOf(s, orderId, missing).tickets, orderId) == s.reservations[s.orders[orderId].reservationId].seatIds
    ensures forall p :: p != orderId ==> TicketSeats(SaleOf(s, orderId, missing).tickets, p) == TicketSeats(s.tickets, p)
  {
    var u := SaleOf(s, orderId, missing);
    UnpaidHasNoTickets(s.tickets, s.orders, orderId);
    MintedTicketsConsistent(s.tickets, s.orders, orderId, missing, s.nextTicketId);
    StatusChangeKeepsOrders(s.orders, orderId, Paid);
    PaidStaysTicketed(s.tickets, u.tickets, s.orders, s.reservations, orderId);
  }

  /** A successful finalize keeps the tables consistent and leaves the order with exactly one VALID
      ticket per reservation seat, and no other order's tickets change. */
  lemma SaleConsistent(s: Tables, orderId: nat)
    requires TablesConsistent(s)
    requires orderId in s.orders && s.orders[orderId].reservationId in s.reservations
    requires s.orders[orderId].status != Paid
    ensures TablesConsistent(AfterSale(s, orderId))
    ensures TicketSeats(AfterSale(s, orderId).tickets, orderId) == s.reservations[s.orders[orderId].reservationId].seatIds
    ensures forall p :: p != orderId ==> TicketSeats(AfterSale(s, orderId).tickets, p) == TicketSeats(s.tickets, p)
  {
    UnpaidHasNoTickets(s.tickets, s.orders, orderId);
    MissingSeatsAll(s, orderId);
    SaleOfConsistent(s, orderId, MissingSeats(s, orderId));
  }

  /** Paying one order whose tickets now match its reservation, while no other order's tickets
      change, keeps every PAID order ticketed. */
  lemma PaidStaysTicketed(
    tickets: map<nat, Ticket>, updated: map<nat, Ticket>, orders: map<nat, Order>,
    reservations: map<nat, Reservation>, orderId: nat)
    requires PaidOrdersTicketed(tickets, orders, reservations)
    requires orderId in orders && orders[orderId].reservationId in reservations
    requires TicketSeats(updated, orderId) == reservations[orders[orderId].reservationId].seatIds
    requires forall p :: p != orderId ==> TicketSeats(updated, p) == TicketSeats(tickets, p)
    ensures var rid := orders[orderId].reservationId;
      PaidOrdersTicketed(updated, orders[orderId := orders[orderId].(status := Paid)],
        reservations[rid := reservations[rid].(status := Completed)])
  {
    var rid := orders[orderId].reservationId;
    var paid := orders[orderId := orders[orderId].(status := Paid)];
    var done := reservations[rid := reservations[rid].(status := Completed)];
    forall p | p in paid && paid[p].status == Paid && paid[p].reservationId in done
      ensures TicketSeats(updated, p) == done[paid[p].reservationId].seatIds
    {
      var q := paid[p].reservationId;
      assert done[q].seatIds == reservations[q].seatIds;
      if p != orderId {
        assert paid[p] == orders[p];
      }
    }
  }

  /** Finalize keeps the tables consistent on every path. */
  lemma FinalizeConsistent(t: Tables, orderId: nat, sweepNow: int)
    requires TablesConsistent(t) && orderId in t.orders && t.orders[orderId].reservationId in t.reservations
    ensures TablesConsistent(Sweep(t, sweepNow))
    ensures t.orders[orderId].status != Paid ==> TablesConsistent(AfterFailure(Sweep(t, sweepNow), orderId))
    ensures t.orders[orderId].status != Paid ==> TablesConsistent(AfterSale(Sweep(t, sweepNow), orderId))
  {
    SweepConsistent(t, sweepNow);
    if t.orders[orderId].status != Paid {
      FailureConsistent(Sweep(t, sweepNow), orderId);
      SaleConsistent(Sweep(t, sweepNow), orderId);
    }
  }

  /** Finalizing again at the same instant, after a finalize that left the order PAID, changes
      nothing and answers the same payload: a replayed webhook is harmless even past its dedup
      gate. The PAID branch does nothing beyond the sweep, and a swept or sold table has no
      overdue hold left to sweep. */
  lemma FinalizePaidIdempotent(t: Tables, orderId: nat, sweepNow: int,
                               r1: Result<FinalizeRead>, after1: Tables, r2: Result<FinalizeRead>, after2: Tables)
    requires orderId in t.orders && FinalizesTo(t, orderId, sweepNow, r1, after1)
    requires r1.Ok? && r1.value.orderStatus == Paid
    requires orderId in after1.orders && FinalizesTo(after1, orderId, sweepNow, r2, after2)
    ensures after1.orders[orderId].status == Paid
    ensures after2 == after1 && r2 == r1
  {
    var o := t.orders[orderId];
    var s := Sweep(t, sweepNow);
    if o.status == Paid {
      SweepIdempotent(t, sweepNow);
    } else {
      assert CanSell(s.statuses, s.reservations[o.reservationId], o.reservationId);
      var sold := AfterSale(s, orderId);
      forall r | r in sold.reservations ensures !Overdue(sold.reservations[r], sweepNow) {
      }
      SweepFixedPoint(sold, sweepNow);
    }
  }

  // ----- Order lookups -----

  method GetOrderForUser(db: CinemaDb, orderId: nat, userId: nat) returns (r: Result<nat>)
    ensures r.Ok? <==> orderId in db.orders && db.orders[orderId].userId == userId
    ensures r.Ok? ==> r.value == orderId
    ensures r.Err? ==> r.error == HttpError(404, "Order not found")
  {
    if orderId in db.orders && db.orders[orderId].userId == userId {
      return Ok(orderId);
    }
    return Err(HttpError(404, "Order not found"));
  }

  /** The lookup by provider session id. The minted session ids make the match unique, as
      scalar_one_or_none needs. */
  method GetOrderByProviderSession(db: CinemaDb, providerSessionId: string) returns (r: Result<nat>)
    requires db.Consistent()
    ensures r.Ok? <==> exists o :: o in db.orders && db.orders[o].providerSessionId == Some(providerSessionId)
    ensures r.Ok? ==> r.value in db.orders && providerSessionId == SessionIdFor(r.value)
    ensures r.Ok? ==> forall o :: o in db.orders && db.orders[o].providerSessionId == Some(providerSessionId) ==> o == r.value
    ensures r.Err? ==> r.error == HttpError(404, "Order not found")
  {
    if exists o :: o in db.orders && db.orders[o].providerSessionId == Some(providerSessionId) {
      var o :| o in db.orders && db.orders[o].providerSessionId == Some(providerSessionId);
      forall p | p in db.orders && db.orders[p].providerSessionId == Some(providerSessionId) ensures p == o {
        SessionIdsUnique(db.orders, p, o);
      }
      return Ok(o);
    }
    return Err(HttpError(404, "Order not found"));
  }

  method GetOrderById(db: CinemaDb, orderId: nat) returns (r: Result<nat>)
    ensures r.Ok? <==> orderId in db.orders
    ensures r.Ok? ==> r.value == orderId
    ensures r.Err? ==> r.error == HttpError(404, "Order not found")
  {
    if orderId in db.orders {
      return Ok(orderId);
    }
    return Err(HttpError(404, "Order not found"));
  }
}

=== FILE: rate_limit.dfy ===
/** The fixed-window request limiter: a per-key counter in a key-value store, incremented on
    every request, whose expiry is armed by the request that creates it. */
module RateLimit {
  import opened Wrappers
  import opened Text

  /** Which store command, if any, fails during one call. A command that succeeded before the
      failing one stays applied. */
  datatype StoreFault = NoFault | FailIncr | FailExpire | FailTtl

  /** The value TTL reports for a missing key, and for a key without an expiry. */
  const TtlMissing: int := -2
  const TtlPersistent: int := -1

  /** The counter a key holds; a missing key counts as 0. */
  function CountOf(counts: map<string, int>, key: string): int
  {
    if key in counts then counts[key] else 0
  }

  /** The limiter's key: the prefix, then the user id when the caller sent one, else the
      client host, "unknown" when there is none. */
  function RateLimitKey(prefix: string, userId: Option<int>, host: Option<string>): (key: string)
    ensures userId.Some? ==> key == "ratelimit:" + prefix + ":user:" + IntToString(userId.value)
    ensures userId.None? && host.Some? ==> key == "ratelimit:" + prefix + ":ip:" + host.value
    ensures userId.None? && host.None? ==> key == "ratelimit:" + prefix + ":ip:unknown"
  {
    var identity :=
      if userId.Some? then "user:" + IntToString(userId.value)
      else "ip:" + (if host.Some? then host.value else "unknown");
    "ratelimit:" + prefix + ":" + identity
  }

  /** Under one prefix, two callers share a counter exactly when they are the same user, or
      both anonymous from the same host (a missing host reads as "unknown"). */
  lemma KeysSeparateCallers(prefix: string, u1: Option<int>, h1: Option<string>,
                            u2: Option<int>, h2: Option<string>)
    ensures RateLimitKey(prefix, u1, h1) == RateLimitKey(prefix, u2, h2) <==>
            (u1.Some? && u2.Some? && u1.value == u2.value) ||
            (u1.None? && u2.None? &&
             (if h1.Some? then h1.value else "unknown") == (if h2.Some? then h2.value else "unknown"))
  {
    var k1, k2 := RateLimitKey(prefix, u1, h1), RateLimitKey(prefix, u2, h2);
    var n := |"ratelimit:" + prefix + ":"|;
    assert k1[n] == (if u1.Some? then 'u' else 'i');
    assert k2[n] == (if u2.Some? then 'u' else 'i');
    if k1 == k2 {
      if u1.Some? && u2.Some? {
        var s1, s2 := IntToString(u1.value), IntToString(u2.value);
        assert k1[n + 5..] == s1 && k2[n + 5..] == s2;
        IntToStringInjective(u1.value, u2.value);
      } else if u1.None? && u2.None? {
        assert k1[n + 3..] == (if h1.Some? then h1.value else "unknown");
        assert k2[n + 3..] == (if h2.Some? then h2.value else "unknown");
      }
    }
  }

  /** The 429 error raised when a request is over the limit. */
  function RateLimitExceeded(retryAfter: int): (e: HttpError)
    ensures e.status == 429
    ensures e.detail == "Rate limit exceeded. Retry in " + IntToString(retryAfter) + "s"
  {
    HttpError(429, "Rate limit exceeded. Retry in " + IntToString(retryAfter) + "s")
  }

  /** The key-value store the counters live in: the counters, and the remaining lifetime in
      seconds of the keys that have an expiry. Time does not pass in this model. */
  class RateLimitStore {
    var counts: map<string, int>
    var ttls: map<string, int>

    /** Counters exist only once incremented; keys with an expiry are keys that exist, and
        their lifetime is positive. */
    predicate Valid()
      reads this
    {
      (forall k :: k in counts ==> counts[k] >= 1) &&
      ttls.Keys <= counts.Keys && (forall k :: k in ttls ==> ttls[k] > 0)
    }

    constructor ()
      ensures Valid() && counts == map[] && ttls == map[]
    {
      counts := map[];
      ttls := map[];
    }

    /** INCR: add one to the key's counter (from 0 when missing) and return the new value. */
    method Incr(key: string) returns (count: int)
      requires Valid()
      modifies this
      ensures Valid()
      ensures count == CountOf(old(counts), key) + 1
      ensures counts == old(counts)[key := count] && ttls == old(ttls)
    {
      count := CountOf(counts, key) + 1;
      counts := counts[key := count];
    }

    /** EXPIRE: arm the key's expiry; a lifetime of zero or less deletes the key at once. */
    method Expire(key: string, seconds: int)
      requires Valid() && key in counts
      modifies this
      ensures Valid()
      ensures seconds > 0 ==> counts == old(counts) && ttls == old(ttls)[key := seconds]
      ensures seconds <= 0 ==> counts == old(counts) - {key} && ttls == old(ttls) - {key}
    {
      if seconds > 0 {
        ttls := ttls[key := seconds];
      } else {
        counts := counts - {key};
        ttls := ttls - {key};
      }
    }

    /** TTL: the key's remaining lifetime, -2 when it is missing, -1 when it has no expiry. */
    method Ttl(key: string) returns (seconds: int)
      requires Valid()
      ensures key !in counts ==> seconds == TtlMissing
      ensures key in counts && key !in ttls ==> seconds == TtlPersistent
      ensures key in ttls ==> seconds == ttls[key] > 0
    {
      if key !in counts {
        seconds := TtlMissing;
      } else if key !in ttls {
        seconds := TtlPersistent;
      } else {
        seconds := ttls[key];
      }
    }

    /** One request against the key: count it, arm the window on the first hit, and report
        whether the request is within the limit and how long until the window resets. A store
        failure lets the request through with no wait. */
    method Consume(key: string, maxRequests: int, windowSeconds: int, fault: StoreFault)
      returns (allowed: bool, retryAfter: int)
      requires Valid()
      modifies this
      ensures Valid()
      ensures retryAfter >= 0
      ensures fault == FailIncr ==> allowed && retryAfter == 0 && counts == old(counts) && ttls == old(ttls)
      // The counter is incremented before anything else can fail.
      ensures fault != FailIncr && (CountOf(old(counts), key) != 0 || windowSeconds > 0 || fault == FailExpire)
              ==> counts == old(counts)[key := CountOf(old(counts), key) + 1]
      // The expiry is armed only by the request that brings the counter to 1.
      ensures CountOf(old(counts), key) != 0 ==> ttls == old(ttls)
      ensures fault == NoFault && CountOf(old(counts), key) == 0 && windowSeconds > 0
              ==> ttls == old(ttls)[key := windowSeconds] && retryAfter == windowSeconds
      ensures fault == NoFault && CountOf(old(counts), key) == 0 && windowSeconds <= 0
              ==> key !in counts && key !in ttls && retryAfter == 0
      ensures forall k :: k != key ==> (k in counts <==> k in old(counts)) &&
                                       (k in counts ==> counts[k] == old(counts)[k]) &&
                                       (k in ttls <==> k in old(ttls)) &&
                                       (k in ttls ==> ttls[k] == old(ttls)[k])
      ensures fault == FailTtl ==> allowed && retryAfter == 0
      // A failed EXPIRE on the first hit leaves a counter that never expires.
      ensures fault == FailExpire && CountOf(old(counts), key) == 0
              ==> allowed && retryAfter == 0 && key in counts && key !in ttls
      // When every command issued succeeds, the request is allowed exactly when the new count
      // is within the limit, and the wait is the window's remaining lifetime.
      ensures var first := CountOf(old(counts), key) == 0;
              fault == NoFault || (fault == FailExpire && !first) ==>
                (allowed <==> CountOf(old(counts), key) + 1 <= maxRequests) &&
                (key in old(ttls) ==> retryAfter == old(ttls)[key]) &&
                (!first && key !in old(ttls) ==> retryAfter == 0)
    {
      if fault == FailIncr {
        return true, 0;
      }
      var count := Incr(key);
      if count == 1 {
        if fault == FailExpire {
          return true, 0;
        }
        Expire(key, windowSeconds);
      }
      if fault == FailTtl {
        return true, 0;
      }
      var ttl := Ttl(key);
      allowed := count <= maxRequests;
      retryAfter := Max(0, ttl);
    }

    /** Consume with the expiry made self-healing: a counter found without an expiry has its
        window armed again, on any request and not only the one that brings it to 1, so a
        failed EXPIRE cannot outlive the next request that reaches the store. Otherwise it
        decides as Consume does. */
    method ConsumeRearmingExpiry(key: string, maxRequests: int, windowSeconds: int,
                                 fault: StoreFault)
      returns (allowed: bool, retryAfter: int)
      requires Valid()
      modifies this
      ensures Valid()
      ensures retryAfter >= 0
      ensures fault == FailIncr ==> allowed && retryAfter == 0 && counts == old(counts) && ttls == old(ttls)
      ensures fault == FailTtl || (fault == FailExpire && key !in old(ttls)) ==>
                allowed && retryAfter == 0 &&
                counts == old(counts)[key := CountOf(old(counts), key) + 1] && ttls == old(ttls)
      // When every command issued succeeds, the request is allowed exactly when the new count
      // is within the limit; a counter that had an expiry keeps it, one that had none gets the
      // window, and the wait is the lifetime the key ends with.
      ensures fault == NoFault || (fault == FailExpire && key in old(ttls)) ==>
                (allowed <==> CountOf(old(counts), key) + 1 <= maxRequests) &&
                (key in old(ttls) ==>
                   counts == old(counts)[key := old(counts)[key] + 1] && ttls == old(ttls) &&
                   retryAfter == old(ttls)[key]) &&
                (key !in old(ttls) && windowSeconds > 0 ==>
                   counts == old(counts)[key := CountOf(old(counts), key) + 1] &&
                   ttls == old(ttls)[key := windowSeconds] && retryAfter == windowSeconds) &&
                (key !in old(ttls) && windowSeconds <= 0 ==>
                   key !in counts && key !in ttls && retryAfter == 0)
      // The intended guarantee: after a request that reaches the store without a fault, the
      // counter has an expiry.
      ensures fault == NoFault && windowSeconds > 0 ==> key in counts && key in ttls
      ensures forall k :: k != key ==> (k in counts <==> k in old(counts)) &&
                                       (k in counts ==> counts[k] == old(counts)[k]) &&
                                       (k in ttls <==> k in old(ttls)) &&
                                       (k in ttls ==> ttls[k] == old(ttls)[k])
    {
      if fault == FailIncr {
        return true, 0;
      }
      var count := Incr(key);
      var ttl := Ttl(key);
      if fault == FailTtl {
        return true, 0;
      }
      if ttl == TtlPersistent {
        if fault == FailExpire {
          return true, 0;
        }
        Expire(key, windowSeconds);
        ttl := Ttl(key);
      }
      allowed := count <= maxRequests;
      retryAfter := Max(0, ttl);
    }

    /** The limiter in front of an endpoint: derive the caller's key, consume one request (with
        the expiry re-armed) and raise 429 when it is over the limit. */
    method CheckRequest(prefix: string, userId: Option<int>, host: Option<string>,
                        maxRequests: int, windowSeconds: int, fault: StoreFault)
      returns (r: Option<HttpError>)
      requires Valid()
      modifies this
      ensures Valid()
      ensures var key := RateLimitKey(prefix, userId, host);
              fault == NoFault ==>
                (r.None? <==> CountOf(old(counts), key) + 1 <= maxRequests)
      ensures fault == FailIncr || fault == FailTtl ==> r.None?
      ensures var key := RateLimitKey(prefix, userId, host);
              fault == FailExpire ==>
                if key !in old(ttls) then r.None?
                else (r.None? <==> CountOf(old(counts), key) + 1 <= maxRequests)
      ensures r.Some? ==> r.value.status == 429
      ensures var key := RateLimitKey(prefix, userId, host);
              r.Some? && key in old(ttls) ==> r.value == RateLimitExceeded(old(ttls)[key])
      ensures var key := RateLimitKey(prefix, userId, host);
              r.Some? && key !in old(ttls) ==> r.value == RateLimitExceeded(Max(0, windowSeconds))
      ensures var key := RateLimitKey(prefix, userId, host);
              fault == NoFault && key in old(ttls) ==>
                counts == old(counts)[key := old(counts)[key] + 1] && ttls == old(ttls)
      ensures var key := RateLimitKey(prefix, userId, host);
              fault == NoFault && key !in old(ttls) && windowSeconds > 0 ==>
                counts == old(counts)[key := CountOf(old(counts), key) + 1] &&
                ttls == old(ttls)[key := windowSeconds]
      ensures var key := RateLimitKey(prefix, userId, host);
              fault == FailTtl || (fault == FailExpire && key !in old(ttls)) ==>
                counts == old(counts)[key := CountOf(old(counts), key) + 1] && ttls == old(ttls)
      ensures forall k :: k in old(counts) && k != RateLimitKey(prefix, userId, host)
                ==> k in counts && counts[k] == old(counts)[k]
    {
      var key := RateLimitKey(prefix, userId, host);
      var allowed, retryAfter := ConsumeRearmingExpiry(key, maxRequests, windowSeconds, fault);
      if allowed {
        return None;
      }
      return Some(RateLimitExceeded(retryAfter));
    }
  }

  /** With a limit of two requests per 60-second window, the same user's first two requests
      pass and the third is rejected with 429. */
  method ThirdRequestRejected(userId: int) returns (first: Option<HttpError>,
                                                    second: Option<HttpError>,
                                                    third: Option<HttpError>)
    ensures first.None? && second.None?
    ensures third.Some? && third.value.status == 429
    ensures third.value.detail == "Rate limit exceeded. Retry in 60s"
  {
    var store := new RateLimitStore();
    first := store.CheckRequest("auth:login", Some(userId), None, 2, 60, NoFault);
    second := store.CheckRequest("auth:login", Some(userId), None, 2, 60, NoFault);
    third := store.CheckRequest("auth:login", Some(userId), None, 2, 60, NoFault);
    assert IntToString(60) == "60";
  }

  /** As written, one failed EXPIRE on a caller's first request leaves their counter without an
      expiry: with a limit of one request, every later request is refused and told to retry in
      0 seconds, and the counter still has no expiry, so the window never resets. */
  method StuckCounterExample(userId: int)
    returns (first: bool, second: bool, secondRetryAfter: int, third: bool, thirdRetryAfter: int,
             store: RateLimitStore)
    ensures first && !second && !third
    ensures secondRetryAfter == 0 && thirdRetryAfter == 0
    ensures RateLimitExceeded(secondRetryAfter).detail == "Rate limit exceeded. Retry in 0s"
    ensures var key := RateLimitKey("auth:login", Some(userId), None);
            key in store.counts && key !in store.ttls
  {
    store := new RateLimitStore();
    var key := RateLimitKey("auth:login", Some(userId), None);
    var retry;
    first, retry := store.Consume(key, 1, 60, FailExpire);
    second, secondRetryAfter := store.Consume(key, 1, 60, NoFault);
    third, thirdRetryAfter := store.Consume(key, 1, 60, NoFault);
    assert IntToString(0) == "0";
  }

  /** With the expiry re-armed, the same sequence gives the counter its window back at the next
      fault-free request: that request is refused with a wait of 60 seconds, and the key
      expires. */
  method RearmedCounterExample(userId: int)
    returns (first: Option<HttpError>, second: Option<HttpError>, store: RateLimitStore)
    ensures first.None?
    ensures second == Some(RateLimitExceeded(60))
    ensures second.value.detail == "Rate limit exceeded. Retry in 60s"
    ensures var key := RateLimitKey("auth:login", Some(userId), None);
            key in store.ttls && store.ttls[key] == 60
  {
    store := new RateLimitStore();
    first := store.CheckRequest("auth:login", Some(userId), None, 1, 60, FailExpire);
    second := store.CheckRequest("auth:login", Some(userId), None, 1, 60, NoFault);
    assert IntToString(60) == "60";
  }
}

=== FILE: recommendations.dfy ===
/** The personal recommendation helpers: the genre list read from a movie's metadata, the
    reason shown next to a recommendation, and the NOT_INTERESTED / SAVE_FOR_LATER feedback
    a user records per movie. */
module Recommendations {
  import opened Wrappers
  import opened Text
  import opened Json

  const NotInterested: string := "NOT_INTERESTED"
  const SaveForLater: string := "SAVE_FOR_LATER"

  /** What one entry of the genre list contributes: a string that is not blank, stripped;
      nothing for any other entry. */
  function KeptEntry(j: Json): (kept: seq<string>)
    ensures |kept| <= 1
    ensures forall g :: g in kept ==> g != "" && IsStripped(g)
  {
    if j.JStr? && Strip(j.s) != "" then
      StripCharacterized(j.s);
      [Strip(j.s)]
    else []
  }

  /** The entries' contributions, one per entry. */
  function EntryParts(items: seq<Json>): (parts: seq<seq<string>>)
    ensures |parts| == |items|
    ensures forall i :: 0 <= i < |items| ==> parts[i] == KeptEntry(items[i])
  {
    seq(|items|, i requires 0 <= i < |items| => KeptEntry(items[i]))
  }

  /** The parts concatenated in order. */
  function Flatten(parts: seq<seq<string>>): seq<string>
  {
    if parts == [] then [] else Flatten(parts[..|parts| - 1]) + parts[|parts| - 1]
  }

  /** The genres kept from a genre list, in order. */
  function KeptGenres(items: seq<Json>): seq<string>
  {
    Flatten(EntryParts(items))
  }

  /** The genre list of a movie: empty unless the metadata is an object whose "genre" entry
      is a list. */
  function GenresOf(metadata: Json): seq<string>
  {
    if !metadata.JObject? then []
    else
      var raw := Get(metadata.fields, "genre");
      if !raw.JList? then [] else KeptGenres(raw.items)
  }

  lemma {:induction false} FlattenMembership(parts: seq<seq<string>>, g: string)
    ensures g in Flatten(parts) <==> exists i :: 0 <= i < |parts| && g in parts[i]
  {
    if parts != [] {
      var init := parts[..|parts| - 1];
      FlattenMembership(init, g);
      if g in Flatten(parts) {
        if g in Flatten(init) {
          var i :| 0 <= i < |init| && g in init[i];
          assert parts[i] == init[i];
        }
      } else {
        forall i | 0 <= i < |parts| ensures g !in parts[i] {
          if i < |init| {
            assert init[i] == parts[i];
          }
        }
      }
    }
  }

  /** A genre is kept exactly when some entry of the list contributes it. */
  lemma KeptGenresMembership(items: seq<Json>, g: string)
    ensures g in KeptGenres(items) <==> exists i :: 0 <= i < |items| && g in KeptEntry(items[i])
  {
    var parts := EntryParts(items);
    FlattenMembership(parts, g);
    if g in KeptGenres(items) {
      var i :| 0 <= i < |parts| && g in parts[i];
      assert g in KeptEntry(items[i]);
    }
  }

  /** Every kept genre is non-blank and stripped. */
  lemma KeptGenresStripped(items: seq<Json>)
    ensures forall g :: g in KeptGenres(items) ==> g != "" && IsStripped(g)
  {
    forall g | g in KeptGenres(items) ensures g != "" && IsStripped(g) {
      KeptGenresMembership(items, g);
      var i :| 0 <= i < |items| && g in KeptEntry(items[i]);
    }
  }

  /** Metadata that is not an object, or whose "genre" entry is not a list, has no genres. */
  lemma MalformedMetadataHasNoGenres(metadata: Json)
    requires !metadata.JObject? || !Get(metadata.fields, "genre").JList?
    ensures GenresOf(metadata) == []
  {
  }

  lemma KeptGenresStep(items: seq<Json>, i: nat)
    requires i < |items|
    ensures KeptGenres(items[..i + 1]) == KeptGenres(items[..i]) + KeptEntry(items[i])
  {
    var longer, shorter := EntryParts(items[..i + 1]), EntryParts(items[..i]);
    assert longer[..i] == shorter;
    assert longer[i] == KeptEntry(items[i]);
  }

  /** The genre extraction loop: walks the list and appends each kept genre. */
  method ExtractGenres(metadata: Json) returns (genres: seq<string>)
    ensures genres == GenresOf(metadata)
    ensures forall g :: g in genres ==> g != "" && IsStripped(g)
  {
    if !metadata.JObject? {
      return [];
    }
    var raw := Get(metadata.fields, "genre");
    if !raw.JList? {
      return [];
    }
    genres := [];
    var i := 0;
    while i < |raw.items|
      invariant 0 <= i <= |raw.items|
      invariant genres == KeptGenres(raw.items[..i])
    {
      var genre := raw.items[i];
      KeptGenresStep(raw.items, i);
      if genre.JStr? && Strip(genre.s) != "" {
        genres := genres + [Strip(genre.s)];
      }
      i := i + 1;
    }
    assert raw.items[..i] == raw.items;
    KeptGenresStripped(raw.items);
  }

  /** The user's weight for a genre, looked up lower-cased; 0 when the genre has none. */
  function GenreWeight(weights: map<string, real>, genre: string): real
  {
    if Lower(genre) in weights then weights[Lower(genre)] else 0.0
  }

  /** The genres with a positive weight, in their original order. */
  function MatchingGenres(genres: seq<string>, weights: map<string, real>): (matching: seq<string>)
    ensures forall g :: g in matching ==> g in genres && GenreWeight(weights, g) > 0.0
  {
    if genres == [] then []
    else if GenreWeight(weights, genres[0]) > 0.0 then [genres[0]] + MatchingGenres(genres[1..], weights)
    else MatchingGenres(genres[1..], weights)
  }

  /** The first matching genre is the first genre, in list order, with a positive weight. */
  lemma {:induction false} FirstMatchingGenre(genres: seq<string>, weights: map<string, real>)
    returns (i: nat)
    requires MatchingGenres(genres, weights) != []
    ensures i < |genres| && GenreWeight(weights, genres[i]) > 0.0
    ensures forall j :: 0 <= j < i ==> GenreWeight(weights, genres[j]) <= 0.0
    ensures MatchingGenres(genres, weights)[0] == genres[i]
  {
    if GenreWeight(weights, genres[0]) > 0.0 {
      i := 0;
    } else {
      var k := FirstMatchingGenre(genres[1..], weights);
      i := k + 1;
    }
  }

  /** No genre matches exactly when no genre has a positive weight. */
  lemma {:induction false} NoMatchingGenre(genres: seq<string>, weights: map<string, real>)
    ensures MatchingGenres(genres, weights) == [] <==>
            forall j :: 0 <= j < |genres| ==> GenreWeight(weights, genres[j]) <= 0.0
  {
    if genres != [] {
      NoMatchingGenre(genres[1..], weights);
      assert forall j :: 1 <= j < |genres| ==> genres[j] == genres[1..][j - 1];
    }
  }

  /** The reason shown with a recommendation, by priority: saved for later, then the watched
      movie it is similar to, then the first genre the user likes, then popularity. */
  function RecommendationReason(sourceMovieId: Option<int>, watchedTitles: map<int, string>,
                                genres: seq<string>, genreWeights: map<string, real>,
                                ticketsSold: int, isSavedForLater: bool): string
  {
    if isSavedForLater then "Saved for later"
    else if sourceMovieId.Some? && sourceMovieId.value in watchedTitles then
      "Because you watched " + watchedTitles[sourceMovieId.value]
    else if genres != [] && MatchingGenres(genres, genreWeights) != [] then
      "Because you watch " + MatchingGenres(genres, genreWeights)[0] + " movies"
    else if ticketsSold > 0 then "Trending with other moviegoers"
    else "Fresh pick for tonight"
  }

  /** Saved for later takes precedence over everything else. */
  lemma SavedForLaterFirst(sourceMovieId: Option<int>, watchedTitles: map<int, string>,
                           genres: seq<string>, genreWeights: map<string, real>, ticketsSold: int)
    ensures RecommendationReason(sourceMovieId, watchedTitles, genres, genreWeights,
                                 ticketsSold, true) == "Saved for later"
  {
  }

  /** A movie recommended because of one the user watched names that movie's title. */
  lemma WatchedSourceSecond(sourceMovieId: int, watchedTitles: map<int, string>,
                            genres: seq<string>, genreWeights: map<string, real>, ticketsSold: int)
    requires sourceMovieId in watchedTitles
    ensures RecommendationReason(Some(sourceMovieId), watchedTitles, genres, genreWeights,
                                 ticketsSold, false)
            == "Because you watched " + watchedTitles[sourceMovieId]
  {
  }

  /** Otherwise, the first genre whose lower-cased weight is positive is named. */
  lemma GenreThird(sourceMovieId: Option<int>, watchedTitles: map<int, string>,
                   genres: seq<string>, genreWeights: map<string, real>, ticketsSold: int)
    returns (i: nat)
    requires sourceMovieId.None? || sourceMovieId.value !in watchedTitles
    requires exists j :: 0 <= j < |genres| && GenreWeight(genreWeights, genres[j]) > 0.0
    ensures i < |genres| && GenreWeight(genreWeights, genres[i]) > 0.0
    ensures forall j :: 0 <= j < i ==> GenreWeight(genreWeights, genres[j]) <= 0.0
    ensures RecommendationReason(sourceMovieId, watchedTitles, genres, genreWeights,
                                 ticketsSold, false)
            == "Because you watch " + genres[i] + " movies"
  {
    NoMatchingGenre(genres, genreWeights);
    i := FirstMatchingGenre(genres, genreWeights);
  }

  /** With no reason of higher priority, sold tickets make a movie trending; otherwise it is a
      fresh pick. */
  lemma PopularityLast(sourceMovieId: Option<int>, watchedTitles: map<int, string>,
                       genres: seq<string>, genreWeights: map<string, real>, ticketsSold: int)
    requires sourceMovieId.None? || sourceMovieId.value !in watchedTitles
    requires forall j :: 0 <= j < |genres| ==> GenreWeight(genreWeights, genres[j]) <= 0.0
    ensures RecommendationReason(sourceMovieId, watchedTitles, genres, genreWeights,
                                 ticketsSold, false)
            == if ticketsSold > 0 then "Trending with other moviegoers" else "Fresh pick for tonight"
  {
    NoMatchingGenre(genres, genreWeights);
  }

  /** One row of the user_movie_events table is identified by user, movie and event type; the
      table maps each identity to the row's creation time. */
  datatype EventKey = EventKey(userId: nat, movieId: nat, eventType: string)

  datatype FeedbackRead = FeedbackRead(movieId: nat, eventType: string, active: bool,
                                       recordedAt: Option<int>)

  predicate IsToggle(eventType: string)
  {
    eventType == NotInterested || eventType == SaveForLater
  }

  /** The toggle that excludes the given one. */
  function OtherToggle(eventType: string): string
  {
    if eventType == NotInterested then SaveForLater else NotInterested
  }

  /** The events after a feedback submission for a known movie: the other toggle is removed for
      this user and movie; then the event is recorded (kept as it was when already present)
      when active, and removed when not. */
  function AfterFeedback(events: map<EventKey, int>, userId: nat, movieId: nat,
                         eventType: string, active: bool, now: int): map<EventKey, int>
  {
    var cleared := events - {EventKey(userId, movieId, OtherToggle(eventType))};
    var key := EventKey(userId, movieId, eventType);
    if !active then cleared - {key}
    else if key in cleared then cleared
    else cleared[key := now]
  }

  /** Submitting feedback leaves the event recorded exactly when it is active, never with the
      other toggle beside it, keeps the first recording time, and touches no other user's,
      movie's or event type's rows. */
  lemma FeedbackOutcome(events: map<EventKey, int>, userId: nat, movieId: nat,
                        eventType: string, active: bool, now: int)
    requires IsToggle(eventType)
    ensures var after := AfterFeedback(events, userId, movieId, eventType, active, now);
            var key := EventKey(userId, movieId, eventType);
            (key in after <==> active) &&
            EventKey(userId, movieId, OtherToggle(eventType)) !in after &&
            (active && key in events ==> after[key] == events[key]) &&
            (active && key !in events ==> after[key] == now) &&
            (forall k: EventKey :: k.userId != userId || k.movieId != movieId || !IsToggle(k.eventType) ==>
               (k in after <==> k in events) && (k in after ==> after[k] == events[k]))
  {
  }

  /** NOT_INTERESTED and SAVE_FOR_LATER are never both recorded for a user and movie after a
      submission. */
  lemma TogglesExclusive(events: map<EventKey, int>, userId: nat, movieId: nat,
                         eventType: string, active: bool, now: int)
    requires IsToggle(eventType)
    ensures var after := AfterFeedback(events, userId, movieId, eventType, active, now);
            !(EventKey(userId, movieId, NotInterested) in after &&
              EventKey(userId, movieId, SaveForLater) in after)
  {
  }

  /** Submitting the same feedback twice has the effect of submitting it once. */
  lemma FeedbackIdempotent(events: map<EventKey, int>, userId: nat, movieId: nat,
                           eventType: string, active: bool, now: int, later: int)
    requires IsToggle(eventType)
    ensures var once := AfterFeedback(events, userId, movieId, eventType, active, now);
            AfterFeedback(once, userId, movieId, eventType, active, later) == once
  {
    var once := AfterFeedback(events, userId, movieId, eventType, active, now);
    var twice := AfterFeedback(once, userId, movieId, eventType, active, later);
    assert EventKey(userId, movieId, OtherToggle(eventType)) !in once;
    assert once - {EventKey(userId, movieId, OtherToggle(eventType))} == once;
  }

  /** The movies that exist, and the user_movie_events table. */
  class FeedbackStore {
    var movies: set<nat>
    var events: map<EventKey, int>

    constructor (movies: set<nat>)
      ensures this.movies == movies && events == map[]
    {
      this.movies := movies;
      events := map[];
    }

    /** Records or clears one feedback toggle. An unknown movie is a 404 and changes nothing;
        otherwise the events become AfterFeedback of the old ones and the answer echoes the
        request, with the recording time of an active toggle. */
    method SubmitFeedback(userId: nat, movieId: nat, eventType: string, active: bool, now: int)
      returns (r: Result<FeedbackRead>)
      requires IsToggle(eventType)
      modifies this
      ensures movies == old(movies)
      ensures movieId !in movies ==>
                r == Err(HttpError(404, "Movie not found")) && events == old(events)
      ensures movieId in movies ==>
                events == AfterFeedback(old(events), userId, movieId, eventType, active, now)
      ensures movieId in movies ==>
                r.Ok? && r.value.movieId == movieId && r.value.eventType == eventType &&
                r.value.active == active &&
                (active ==> r.value.recordedAt == Some(events[EventKey(userId, movieId, eventType)])) &&
                (!active ==> r.value.recordedAt.None?)
    {
      if movieId !in movies {
        return Err(HttpError(404, "Movie not found"));
      }
      events := events - {EventKey(userId, movieId, OtherToggle(eventType))};
      var key := EventKey(userId, movieId, eventType);
      var recordedAt: Option<int> := None;
      if active {
        if key !in events {
          events := events[key := now];
        }
        recordedAt := Some(events[key]);
      } else {
        if key in events {
          events := events - {key};
        }
      }
      return Ok(FeedbackRead(movieId, eventType, active, recordedAt));
    }
  }
}

=== FILE: seat_inventory.dfy ===
/** The seat inventory: the default 8 x 12 seat grid an auditorium gets when it has no seats, and
    the reconciliation of a showtime's seat status rows with its auditorium's seats. */
module SeatInventory {
  import opened Wrappers
  import opened Text
  import opened Sorting
  import opened BookingStore
  import PaymentService

  const DefaultRows: seq<string> := ["A", "B", "C", "D", "E", "F", "G", "H"]

  const DefaultSeatsPerRow: nat := 12

  /** The layout document of a generated seat map. */
  const DefaultLayout: Layout := Layout(DefaultRows, DefaultSeatsPerRow, [4, 8], "top")

  /** Rows A and B are VIP, rows C and D PREMIUM, every other row STANDARD. */
  function SeatTypeForRow(rowLabel: string): (seatType: string)
    ensures seatType == "VIP" <==> rowLabel == "A" || rowLabel == "B"
    ensures seatType == "PREMIUM" <==> rowLabel == "C" || rowLabel == "D"
    ensures seatType == "STANDARD" <==> rowLabel != "A" && rowLabel != "B" && rowLabel != "C" && rowLabel != "D"
  {
    if rowLabel in {"A", "B"} then "VIP"
    else if rowLabel in {"C", "D"} then "PREMIUM"
    else "STANDARD"
  }

  /** With the checkout price table, a generated seat costs 26 dollars in rows A-B, 20 in rows
      C-D and 15 elsewhere. */
  lemma RowPrices(rowLabel: string)
    ensures PaymentService.SeatPriceCents(SeatTypeForRow(rowLabel)) ==
      if rowLabel in {"A", "B"} then 2600 else if rowLabel in {"C", "D"} then 2000 else 1500
  {
    assert Upper("VIP") == "VIP";
    assert Upper("PREMIUM") == "PREMIUM";
    assert Upper("STANDARD") == "STANDARD";
  }

  // ----- The generated grid -----

  /** The i-th generated seat: rows in order, seat numbers 1 to 12 within a row. */
  function SeatAt(auditoriumId: nat, i: nat): Seat
    requires i < |DefaultRows| * DefaultSeatsPerRow
  {
    var row := DefaultRows[i / DefaultSeatsPerRow];
    var number := i % DefaultSeatsPerRow + 1;
    Seat(auditoriumId, row + NatToString(number), row, number, SeatTypeForRow(row))
  }

  function DefaultSeats(auditoriumId: nat): (seats: seq<Seat>)
    ensures |seats| == |DefaultRows| * DefaultSeatsPerRow == 96
  {
    seq(|DefaultRows| * DefaultSeatsPerRow, i requires 0 <= i < |DefaultRows| * DefaultSeatsPerRow => SeatAt(auditoriumId, i))
  }

  lemma GridPosition(r: nat, n: nat)
    requires r < 8 && 1 <= n <= 12
    ensures (12 * r + n - 1) / 12 == r && (12 * r + n - 1) % 12 == n - 1
  {
  }

  /** The seat at grid position (r, n) is seat n of row r. */
  lemma SeatAtGrid(auditoriumId: nat, r: nat, n: nat)
    requires r < 8 && 1 <= n <= 12
    ensures SeatAt(auditoriumId, 12 * r + n - 1) ==
      Seat(auditoriumId, DefaultRows[r] + NatToString(n), DefaultRows[r], n, SeatTypeForRow(DefaultRows[r]))
  {
    GridPosition(r, n);
  }

  lemma DefaultSeatsStep(auditoriumId: nat, i: nat)
    requires i < 96
    ensures DefaultSeats(auditoriumId)[..i + 1] == DefaultSeats(auditoriumId)[..i] + [SeatAt(auditoriumId, i)]
  {
    var seats := DefaultSeats(auditoriumId);
    assert seats[..i + 1] == seats[..i] + [seats[i]];
  }

  lemma NextGridSeat(auditoriumId: nat, r: nat, n: nat)
    requires r < 8 && 1 <= n <= 12
    ensures DefaultSeats(auditoriumId)[..12 * r + n] == DefaultSeats(auditoriumId)[..12 * r + n - 1] +
      [Seat(auditoriumId, DefaultRows[r] + NatToString(n), DefaultRows[r], n, SeatTypeForRow(DefaultRows[r]))]
  {
    var i := 12 * r + n - 1;
    DefaultSeatsStep(auditoriumId, i);
    SeatAtGrid(auditoriumId, r, n);
  }

  /** The nested loops that build the default grid, row by row and seat by seat. */
  method BuildDefaultSeats(auditoriumId: nat) returns (seats: seq<Seat>)
    ensures seats == DefaultSeats(auditoriumId)
  {
    seats := [];
    var r := 0;
    while r < |DefaultRows|
      invariant 0 <= r <= |DefaultRows|
      invariant seats == DefaultSeats(auditoriumId)[..DefaultSeatsPerRow * r]
    {
      var rowLabel := DefaultRows[r];
      var n := 1;
      while n <= DefaultSeatsPerRow
        invariant 1 <= n <= DefaultSeatsPerRow + 1
        invariant seats == DefaultSeats(auditoriumId)[..DefaultSeatsPerRow * r + n - 1]
      {
        NextGridSeat(auditoriumId, r, n);
        seats := seats + [Seat(auditoriumId, rowLabel + NatToString(n), rowLabel, n, SeatTypeForRow(rowLabel))];
        n := n + 1;
      }
      r := r + 1;
    }
    assert seats == DefaultSeats(auditoriumId)[..|DefaultSeats(auditoriumId)|];
  }

  /** Every row letter and seat number of the grid occurs, and nothing else: seat (row, n) for
      a default row and 1 <= n <= 12, typed by its row and coded as the row followed by n. */
  lemma DefaultSeatsCoverGrid(auditoriumId: nat, rowLabel: string, number: nat)
    ensures (exists i :: 0 <= i < 96 && DefaultSeats(auditoriumId)[i].rowLabel == rowLabel
                                     && DefaultSeats(auditoriumId)[i].number == number)
      <==> rowLabel in DefaultRows && 1 <= number <= 12
    ensures forall i :: 0 <= i < 96 ==>
      DefaultSeats(auditoriumId)[i].auditoriumId == auditoriumId &&
      DefaultSeats(auditoriumId)[i].code == DefaultSeats(auditoriumId)[i].rowLabel + NatToString(DefaultSeats(auditoriumId)[i].number) &&
      DefaultSeats(auditoriumId)[i].seatType == SeatTypeForRow(DefaultSeats(auditoriumId)[i].rowLabel)
  {
    var seats := DefaultSeats(auditoriumId);
    if rowLabel in DefaultRows && 1 <= number <= 12 {
      var r :| 0 <= r < 8 && DefaultRows[r] == rowLabel;
      SeatAtGrid(auditoriumId, r, number);
      assert seats[12 * r + number - 1] == SeatAt(auditoriumId, 12 * r + number - 1);
    }
  }

  /** The generated seat codes are pairwise distinct. */
  lemma DefaultSeatCodesDistinct(auditoriumId: nat, i: nat, j: nat)
    requires i < 96 && j < 96 && i != j
    ensures DefaultSeats(auditoriumId)[i].code != DefaultSeats(auditoriumId)[j].code
  {
    var a, b := DefaultSeats(auditoriumId)[i], DefaultSeats(auditoriumId)[j];
    if a.code == b.code {
      assert a.rowLabel[0] == a.code[0] == b.code[0] == b.rowLabel[0];
      assert a.rowLabel == b.rowLabel;
      assert a.code[1..] == NatToString(a.number) && b.code[1..] == NatToString(b.number);
      NatToStringInjective(a.number, b.number);
      assert false;
    }
  }

  /** The ids a batch insert hands out to `rows`, from `next` on. */
  function Numbered(rows: seq<Seat>, next: nat): (numbered: map<nat, Seat>)
    ensures forall k :: k in numbered <==> next <= k < next + |rows|
    ensures forall k :: k in numbered ==> numbered[k] == rows[k - next]
    decreases |rows|
  {
    if rows == [] then map[] else Numbered(rows[1..], next + 1)[next := rows[0]]
  }

  lemma {:induction false} NumberedSize(rows: seq<Seat>, next: nat)
    ensures |Numbered(rows, next).Keys| == |rows|
    decreases |rows|
  {
    if rows != [] {
      NumberedSize(rows[1..], next + 1);
      assert Numbered(rows, next).Keys == {next} + Numbered(rows[1..], next + 1).Keys;
    }
  }

  /** The ids of an auditorium's seats. */
  function AuditoriumSeats(seats: map<nat, Seat>, auditoriumId: nat): set<nat>
  {
    set s | s in seats && seats[s].auditoriumId == auditoriumId
  }

  /** ensure_auditorium_seat_inventory: attach the default seat map when none is set, then create
      the default grid if the auditorium has no seats at all. */
  method EnsureAuditoriumSeatInventory(db: CinemaDb, auditoriumId: nat)
    requires auditoriumId in db.auditoriums
    modifies db
    ensures var t := old(db.State()); var a := t.auditoriums[auditoriumId];
      (a.seatmapId.Some? ==>
        db.auditoriums == t.auditoriums && db.seatMaps == t.seatMaps && db.nextSeatMapId == t.nextSeatMapId) &&
      (a.seatmapId.None? ==>
        db.seatMaps == t.seatMaps[t.nextSeatMapId := SeatMap(a.name + " Standard Layout", DefaultLayout)] &&
        db.auditoriums == t.auditoriums[auditoriumId := a.(seatmapId := Some(t.nextSeatMapId))] &&
        db.nextSeatMapId == t.nextSeatMapId + 1)
    ensures var t := old(db.State());
      (AuditoriumSeats(t.seats, auditoriumId) != {} ==> db.seats == t.seats && db.nextSeatId == t.nextSeatId) &&
      (AuditoriumSeats(t.seats, auditoriumId) == {} ==>
        db.seats == t.seats + Numbered(DefaultSeats(auditoriumId), t.nextSeatId) &&
        db.nextSeatId == t.nextSeatId + 96)
    ensures db.State() == old(db.State()).(
      seats := db.seats, auditoriums := db.auditoriums, seatMaps := db.seatMaps,
      nextSeatId := db.nextSeatId, nextSeatMapId := db.nextSeatMapId)
  {
    var auditorium := db.auditoriums[auditoriumId];
    if auditorium.seatmapId.None? {
      var seatmapId := db.nextSeatMapId;
      db.seatMaps := db.seatMaps[seatmapId := SeatMap(auditorium.name + " Standard Layout", DefaultLayout)];
      db.nextSeatMapId := seatmapId + 1;
      db.auditoriums := db.auditoriums[auditoriumId := auditorium.(seatmapId := Some(seatmapId))];
    }
    var seatCount := |AuditoriumSeats(db.seats, auditoriumId)|;
    if seatCount > 0 {
      return;
    }
    var seats := BuildDefaultSeats(auditoriumId);
    db.seats := db.seats + Numbered(seats, db.nextSeatId);
    db.nextSeatId := db.nextSeatId + |seats|;
  }

  /** After ensure the auditorium has seats, and a second ensure adds none. */
  lemma EnsureIdempotent(seats: map<nat, Seat>, auditoriumId: nat, next: nat)
    requires AuditoriumSeats(seats, auditoriumId) == {}
    ensures AuditoriumSeats(seats + Numbered(DefaultSeats(auditoriumId), next), auditoriumId) != {}
    ensures |AuditoriumSeats(seats + Numbered(DefaultSeats(auditoriumId), next), auditoriumId)| == 96
  {
    var rows := DefaultSeats(auditoriumId);
    assert forall i :: 0 <= i < |rows| ==> rows[i].auditoriumId == auditoriumId;
    InsertedSeatsOwned(seats, rows, auditoriumId, next);
    NumberedSize(rows, next);
    assert next in Numbered(rows, next);
  }

  /** The batch insert of the default grid takes ids no seat row holds yet and stays below the
      advanced counter, so the seat counter stays above every seat id. */
  lemma EnsureKeepsIdsBelow(t: Tables, auditoriumId: nat)
    requires IdsBelow(t)
    ensures forall s :: s in Numbered(DefaultSeats(auditoriumId), t.nextSeatId) ==> s !in t.seats
    ensures forall s :: s in t.seats + Numbered(DefaultSeats(auditoriumId), t.nextSeatId) ==> s < t.nextSeatId + 96
  {
  }

  lemma InsertedSeatsOwned(seats: map<nat, Seat>, rows: seq<Seat>, auditoriumId: nat, next: nat)
    requires AuditoriumSeats(seats, auditoriumId) == {}
    requires forall i :: 0 <= i < |rows| ==> rows[i].auditoriumId == auditoriumId
    ensures AuditoriumSeats(seats + Numbered(rows, next), auditoriumId) == Numbered(rows, next).Keys
  {
    var added := seats + Numbered(rows, next);
    forall k | k in added && added[k].auditoriumId == auditoriumId ensures k in Numbered(rows, next) {
      assert k !in AuditoriumSeats(seats, auditoriumId);
    }
  }

  // ----- Reconciling a showtime's status rows -----

  /** The showtime's rows after the stale ones are deleted: every row of another showtime, and
      every row of this showtime whose seat is still in the auditorium. */
  function KeptRows(statuses: map<(nat, nat), SeatStatusRow>, showtimeId: nat, target: set<nat>)
    : map<(nat, nat), SeatStatusRow>
  {
    map k | k in statuses && (k.0 != showtimeId || k.1 in target) :: statuses[k]
  }

  /** The AVAILABLE rows inserted for the seats in `added`. */
  function AvailableRows(showtimeId: nat, added: set<nat>): map<(nat, nat), SeatStatusRow>
  {
    map s | s in added :: (showtimeId, s) := SeatStatusRow(Available, None)
  }

  function RowSeats(statuses: map<(nat, nat), SeatStatusRow>, showtimeId: nat): set<nat>
  {
    set k | k in statuses && k.0 == showtimeId :: k.1
  }

  /** The status rows after a sync against the seat ids `target`. */
  function Synced(statuses: map<(nat, nat), SeatStatusRow>, showtimeId: nat, target: set<nat>)
    : map<(nat, nat), SeatStatusRow>
  {
    KeptRows(statuses, showtimeId, target) + AvailableRows(showtimeId, target - RowSeats(statuses, showtimeId))
  }

  /** The showtime ends with a row for exactly the target seats; rows of other showtimes and rows
      of seats still present keep their status and holder; new rows are AVAILABLE with no holder. */
  lemma SyncedExactly(statuses: map<(nat, nat), SeatStatusRow>, showtimeId: nat, target: set<nat>)
    ensures forall s :: (showtimeId, s) in Synced(statuses, showtimeId, target) <==> s in target
    ensures forall k :: k in statuses && (k.0 != showtimeId || k.1 in target) ==>
      k in Synced(statuses, showtimeId, target) && Synced(statuses, showtimeId, target)[k] == statuses[k]
    ensures forall k :: k in Synced(statuses, showtimeId, target) && k !in statuses ==>
      k.0 == showtimeId && Synced(statuses, showtimeId, target)[k] == SeatStatusRow(Available, None)
    ensures forall k: (nat, nat) :: k.0 != showtimeId ==> (k in Synced(statuses, showtimeId, target) <==> k in statuses)
  {
    var synced := Synced(statuses, showtimeId, target);
    forall s | s in target ensures (showtimeId, s) in synced {
      if s in RowSeats(statuses, showtimeId) {
        var k :| k in statuses && k.0 == showtimeId && k.1 == s;
        assert k == (showtimeId, s);
      }
    }
    forall k | k in statuses && (k.0 != showtimeId || k.1 in target) ensures synced[k] == statuses[k] {
      if k.0 == showtimeId {
        assert k.1 in RowSeats(statuses, showtimeId);
      }
    }
  }

  /** Syncing twice against the same seats changes nothing the second time. */
  lemma SyncIdempotent(statuses: map<(nat, nat), SeatStatusRow>, showtimeId: nat, target: set<nat>)
    ensures Synced(Synced(statuses, showtimeId, target), showtimeId, target) == Synced(statuses, showtimeId, target)
  {
    var once := Synced(statuses, showtimeId, target);
    SyncedExactly(statuses, showtimeId, target);
    assert KeptRows(once, showtimeId, target) == once;
    forall s | s in RowSeats(once, showtimeId) ensures s in target {
      var k :| k in once && k.0 == showtimeId && k.1 == s;
      assert k == (showtimeId, s);
    }
    forall s | s in target ensures s in RowSeats(once, showtimeId) {
      assert (showtimeId, s) in once;
    }
    assert target - RowSeats(once, showtimeId) == {};
  }

  function Elements(xs: seq<nat>): set<nat>
  {
    set s | s in xs
  }

  /** The sync's insert loop: one AVAILABLE row per missing seat. */
  method InsertAvailableRows(db: CinemaDb, showtimeId: nat, missing: seq<nat>)
    modifies db
    ensures db.State() == old(db.State()).(statuses := old(db.statuses) + AvailableRows(showtimeId, Elements(missing)))
  {
    ghost var t := db.State();
    var i := 0;
    while i < |missing|
      invariant 0 <= i <= |missing|
      invariant db.State() == t.(statuses := t.statuses + AvailableRows(showtimeId, Elements(missing[..i])))
    {
      var done, next := missing[..i], missing[..i + 1];
      assert Elements(next) == Elements(done) + {missing[i]};
      AddAvailableRow(t.statuses, showtimeId, Elements(done), missing[i]);
      db.statuses := db.statuses[(showtimeId, missing[i]) := SeatStatusRow(Available, None)];
      i := i + 1;
    }
    assert missing[..i] == missing;
  }

  lemma AddAvailableRow(statuses: map<(nat, nat), SeatStatusRow>, showtimeId: nat, added: set<nat>, s: nat)
    ensures (statuses + AvailableRows(showtimeId, added))[(showtimeId, s) := SeatStatusRow(Available, None)]
         == statuses + AvailableRows(showtimeId, added + {s})
  {
  }

  /** The sync's bulk delete: the showtime's rows for the seats in `stale` go. */
  function WithoutRows(statuses: map<(nat, nat), SeatStatusRow>, showtimeId: nat, stale: set<nat>)
    : map<(nat, nat), SeatStatusRow>
  {
    map k | k in statuses && !(k.0 == showtimeId && k.1 in stale) :: statuses[k]
  }

  /** Deleting the rows whose seat left the auditorium keeps exactly the rows KeptRows keeps, and
      when there are none to delete the rows are already those. */
  lemma DeleteStaleRows(statuses: map<(nat, nat), SeatStatusRow>, showtimeId: nat, target: set<nat>)
    ensures WithoutRows(statuses, showtimeId, RowSeats(statuses, showtimeId) - target) == KeptRows(statuses, showtimeId, target)
    ensures RowSeats(statuses, showtimeId) - target == {} ==> statuses == KeptRows(statuses, showtimeId, target)
  {
    if RowSeats(statuses, showtimeId) - target == {} {
      forall k | k in statuses ensures k.0 != showtimeId || k.1 in target {
        if k.0 == showtimeId {
          assert k.1 in RowSeats(statuses, showtimeId);
          assert k.1 !in RowSeats(statuses, showtimeId) - target;
        }
      }
    }
  }

  lemma MissingAreUnrowed(seatIds: seq<nat>, target: set<nat>, existing: set<nat>)
    requires forall s :: s in seatIds <==> s in target
    ensures Elements(Missing(seatIds, existing)) == target - existing
  {
  }

  /** The delete-then-insert of sync_showtime_seat_statuses yields the Synced rows: the delete
      (skipped when nothing is stale) leaves KeptRows, the insert (skipped when nothing is
      missing) adds the AVAILABLE rows. */
  lemma SyncSteps(statuses: map<(nat, nat), SeatStatusRow>, showtimeId: nat, target: set<nat>, seatIds: seq<nat>)
    requires forall s :: s in seatIds <==> s in target
    ensures var existing := RowSeats(statuses, showtimeId);
      var kept := KeptRows(statuses, showtimeId, target);
      (existing - target == {} ==> statuses == kept) &&
      WithoutRows(statuses, showtimeId, existing - target) == kept &&
      (Missing(seatIds, existing) == [] ==> kept == Synced(statuses, showtimeId, target)) &&
      kept + AvailableRows(showtimeId, Elements(Missing(seatIds, existing))) == Synced(statuses, showtimeId, target)
  {
    var existing := RowSeats(statuses, showtimeId);
    DeleteStaleRows(statuses, showtimeId, target);
    MissingAreUnrowed(seatIds, target, existing);
    if Missing(seatIds, existing) == [] {
      assert AvailableRows(showtimeId, target - existing) == map[];
    }
  }

  /** sync_showtime_seat_statuses for a showtime of the given auditorium. */
  method SyncShowtimeSeatStatuses(db: CinemaDb, showtimeId: nat, auditoriumId: nat)
    modifies db
    ensures var t := old(db.State()); var target := AuditoriumSeats(t.seats, auditoriumId);
      (target == {} ==> db.State() == t) &&
      (target != {} ==> db.State() == t.(statuses := Synced(t.statuses, showtimeId, target)))
  {
    var target := AuditoriumSeats(db.seats, auditoriumId);
    var seatIds := SortedNats(target);
    if seatIds == [] {
      return;
    }
    var existing := RowSeats(db.statuses, showtimeId);
    var stale := existing - target;
    SyncSteps(db.statuses, showtimeId, target, seatIds);
    if stale != {} {
      db.statuses := WithoutRows(db.statuses, showtimeId, stale);
    }
    var missing := Missing(seatIds, existing);
    if missing == [] {
      return;
    }
    InsertAvailableRows(db, showtimeId, missing);
  }
}

=== FILE: sorting.dfy ===
/** Python's sorted() over a set of ids or of strings: the ascending enumeration of the set. */
module Sorting {
  import opened Text

  predicate IncreasingNats(r: seq<nat>)
  {
    forall i, j :: 0 <= i < j < |r| ==> r[i] < r[j]
  }

  predicate IncreasingStrings(r: seq<string>)
  {
    forall i, j :: 0 <= i < j < |r| ==> StrLess(r[i], r[j])
  }

  predicate IsLeastNat(m: nat, s: set<nat>)
  {
    m in s && forall x :: x in s ==> m <= x
  }

  lemma {:induction false} LeastNatExists(s: set<nat>)
    requires |s| > 0
    ensures exists m :: IsLeastNat(m, s)
    decreases |s|
  {
    var x :| x in s;
    var rest := s - {x};
    if |rest| == 0 {
      assert s == {x};
      assert IsLeastNat(x, s);
    } else {
      LeastNatExists(rest);
      var m :| IsLeastNat(m, rest);
      var least := if x < m then x else m;
      forall y | y in s ensures least <= y {
        if y != x { assert y in rest; }
      }
      assert IsLeastNat(least, s);
    }
  }

  /** sorted(s) for a set of ids (non-negative ints). */
  function SortedNats(s: set<nat>): (r: seq<nat>)
    ensures IncreasingNats(r) && |r| == |s|
    ensures forall x :: x in r <==> x in s
    decreases |s|
  {
    if |s| == 0 then []
    else
      LeastNatExists(s);
      var m :| IsLeastNat(m, s);
      var rest := SortedNats(s - {m});
      assert forall j :: 0 <= j < |rest| ==> m < rest[j] by {
        forall j | 0 <= j < |rest| ensures m < rest[j] { assert rest[j] in s - {m}; }
      }
      [m] + rest
  }

  predicate IsLeastString(m: string, s: set<string>)
  {
    m in s && forall x :: x in s && x != m ==> StrLess(m, x)
  }

  lemma {:induction false} LeastStringExists(s: set<string>)
    requires |s| > 0
    ensures exists m :: IsLeastString(m, s)
    ensures forall m, m' :: IsLeastString(m, s) && IsLeastString(m', s) ==> m == m'
    decreases |s|
  {
    forall m, m' | IsLeastString(m, s) && IsLeastString(m', s) ensures m == m' {
      if m != m' {
        StrLessAsymmetric(m, m');
      }
    }
    var x :| x in s;
    if |s - {x}| > 0 {
      LeastStringExists(s - {x});
      var m :| IsLeastString(m, s - {x});
      StrLessTotal(x, m);
      if StrLess(x, m) {
        forall y | y in s && y != x ensures StrLess(x, y) {
          if y != m {
            StrLessTransitive(x, m, y);
          }
        }
        assert IsLeastString(x, s);
      } else {
        assert IsLeastString(m, s);
      }
    } else {
      assert s == {x};
      assert IsLeastString(x, s);
    }
  }

  /** sorted(s) for a set of strings, in Python's code-point order. */
  function SortedStrings(s: set<string>): (r: seq<string>)
    ensures IncreasingStrings(r) && |r| == |s|
    ensures forall x :: x in r <==> x in s
    decreases |s|
  {
    if |s| == 0 then []
    else
      LeastStringExists(s);
      var m :| IsLeastString(m, s);
      var rest := SortedStrings(s - {m});
      assert forall j :: 0 <= j < |rest| ==> StrLess(m, rest[j]) by {
        forall j | 0 <= j < |rest| ensures StrLess(m, rest[j]) { assert rest[j] in s - {m}; }
      }
      [m] + rest
  }

  /** The elements of `seatIds` not in `existing`, in list order. */
  function Missing(seatIds: seq<nat>, existing: set<nat>): (missing: seq<nat>)
    ensures forall s :: s in missing <==> s in seatIds && s !in existing
    ensures IncreasingNats(seatIds) ==> IncreasingNats(missing)
  {
    if seatIds == [] then []
    else if seatIds[0] in existing then Missing(seatIds[1..], existing)
    else
      var rest := Missing(seatIds[1..], existing);
      assert IncreasingNats(seatIds) ==> forall i :: 0 <= i < |rest| ==> seatIds[0] < rest[i] by {
        if IncreasingNats(seatIds) {
          forall i | 0 <= i < |rest| ensures seatIds[0] < rest[i] {
            assert rest[i] in rest;
            var j :| 0 <= j < |seatIds[1..]| && seatIds[1..][j] == rest[i];
            assert seatIds[j + 1] == rest[i];
          }
        }
      }
      [seatIds[0]] + rest
  }

  /** A subset is no larger than its superset, and of equal size only when it is the superset. */
  lemma {:induction false} SubsetCardinality<T>(a: set<T>, b: set<T>)
    requires a <= b
    ensures |a| <= |b|
    ensures |a| == |b| ==> a == b
  {
    if a != {} {
      var x :| x in a;
      SubsetCardinality(a - {x}, b - {x});
    }
  }
}

=== FILE: text.dfy ===
/** The few Python string operations the backend relies on: strip(), upper(), lower(),
    decimal formatting of integers and the code-point ordering used by sorted(). */
module Text {

  /** Python's str.isspace() for one character: the characters whose bidirectional class
      is WS, B or S, or whose category is Zs. */
  predicate IsSpace(c: char)
  {
    var n := c as int;
    (9 <= n <= 13) || (28 <= n <= 32) || n == 0x85 || n == 0xA0 || n == 0x1680
    || (0x2000 <= n <= 0x200A) || n == 0x2028 || n == 0x2029 || n == 0x202F
    || n == 0x205F || n == 0x3000
  }

  predicate AllSpace(s: string)
  {
    forall i :: 0 <= i < |s| ==> IsSpace(s[i])
  }

  function StripLeft(s: string): (r: string)
    ensures |r| <= |s| && r == s[|s| - |r|..]
    ensures r == [] || !IsSpace(r[0])
    ensures AllSpace(s[..|s| - |r|])
  {
    if s != [] && IsSpace(s[0]) then
      var r := StripLeft(s[1..]);
      assert s[..|s| - |r|] == [s[0]] + s[1..][..|s| - 1 - |r|];
      r
    else s
  }

  function StripRight(s: string): (r: string)
    ensures |r| <= |s| && r == s[..|r|]
    ensures r == [] || !IsSpace(r[|r| - 1])
    ensures AllSpace(s[|r|..])
  {
    if s != [] && IsSpace(s[|s| - 1]) then
      var r := StripRight(s[..|s| - 1]);
      assert s[|r|..] == s[..|s| - 1][|r|..] + [s[|s| - 1]];
      r
    else s
  }

  /** A string with no leading and no trailing whitespace. */
  predicate IsStripped(s: string)
  {
    s == [] || (!IsSpace(s[0]) && !IsSpace(s[|s| - 1]))
  }

  /** Python's str.strip() with no arguments. */
  function Strip(s: string): (r: string)
  {
    StripRight(StripLeft(s))
  }

  /** strip() removes exactly the surrounding whitespace: what is left is stripped, and it is
      empty exactly when the whole string is whitespace. */
  lemma StripCharacterized(s: string)
    ensures IsStripped(Strip(s))
    ensures Strip(s) == [] <==> AllSpace(s)
  {
    var l := StripLeft(s);
    var r := StripRight(l);
    if r != [] {
      assert l != [] && r[0] == l[0];
    }
    if r == [] {
      assert s == s[..|s| - |l|] + l[|r|..];
    } else {
      assert !IsSpace(s[|s| - |l|]) by { assert s[|s| - |l|] == l[0] == r[0]; }
    }
  }

  lemma StripStripped(s: string)
    requires IsStripped(s)
    ensures Strip(s) == s
  {
  }

  /** strip() is idempotent. */
  lemma StripIdempotent(s: string)
    ensures Strip(Strip(s)) == Strip(s)
  {
    StripCharacterized(s);
    StripStripped(Strip(s));
  }

  /** Leading whitespace is skipped by lstrip(). */
  lemma {:induction false} StripLeftSkipsSpace(p: string, s: string)
    requires AllSpace(p)
    ensures StripLeft(p + s) == StripLeft(s)
    decreases |p|
  {
    if p != [] {
      assert (p + s)[0] == p[0];
      assert (p + s)[1..] == p[1..] + s;
      StripLeftSkipsSpace(p[1..], s);
    } else {
      assert p + s == s;
    }
  }

  /** Trailing whitespace is skipped by rstrip(). */
  lemma {:induction false} StripRightSkipsSpace(s: string, q: string)
    requires AllSpace(q)
    ensures StripRight(s + q) == StripRight(s)
    decreases |q|
  {
    if q != [] {
      var init := q[..|q| - 1];
      assert (s + q)[|s + q| - 1] == q[|q| - 1];
      assert (s + q)[..|s + q| - 1] == s + init;
      StripRightSkipsSpace(s, init);
    } else {
      assert s + q == s;
    }
  }

  /** Once a string holds a non-blank, what follows it is kept whole by lstrip(). */
  lemma {:induction false} StripLeftAppend(x: string, q: string)
    requires !AllSpace(x)
    ensures StripLeft(x + q) == StripLeft(x) + q
    decreases |x|
  {
    assert (x + q)[0] == x[0];
    if IsSpace(x[0]) {
      assert !AllSpace(x[1..]) by {
        var k :| 0 <= k < |x| && !IsSpace(x[k]);
        assert x[1..][k - 1] == x[k];
      }
      assert (x + q)[1..] == x[1..] + q;
      StripLeftAppend(x[1..], q);
    }
  }

  /** strip() ignores whitespace added at either end. */
  lemma StripIgnoresPadding(p: string, x: string, q: string)
    requires AllSpace(p) && AllSpace(q)
    ensures Strip(p + x + q) == Strip(x)
  {
    assert p + x + q == p + (x + q);
    StripLeftSkipsSpace(p, x + q);
    StripCharacterized(x);
    if AllSpace(x) {
      StripLeftSkipsSpace(x, q);
      StripCharacterized(q);
    } else {
      StripLeftAppend(x, q);
      StripRightSkipsSpace(StripLeft(x), q);
    }
  }

  function UpperChar(c: char): char
  {
    if 'a' <= c <= 'z' then (c as int - 32) as char else c
  }

  function LowerChar(c: char): char
  {
    if 'A' <= c <= 'Z' then (c as int + 32) as char else c
  }

  /** str.upper() on the ASCII letters. */
  function Upper(s: string): string
  {
    seq(|s|, i requires 0 <= i < |s| => UpperChar(s[i]))
  }

  /** str.lower() on the ASCII letters. */
  function Lower(s: string): string
  {
    seq(|s|, i requires 0 <= i < |s| => LowerChar(s[i]))
  }

  /** Upper-casing works character by character, so it distributes over concatenation, and it
      leaves whitespace alone. */
  lemma UpperAppend(a: string, b: string)
    ensures Upper(a + b) == Upper(a) + Upper(b)
    ensures AllSpace(a) ==> Upper(a) == a
  {
  }

  /** Upper-casing ignores an earlier lower-casing. */
  lemma UpperOfLower(s: string)
    ensures Upper(Lower(s)) == Upper(s)
  {
  }

  lemma LowerIdempotent(s: string)
    ensures Lower(Lower(s)) == Lower(s)
  {
  }

  /** Lower-casing leaves whitespace where it was, so a stripped string stays stripped. */
  lemma LowerKeepsStripped(s: string)
    requires IsStripped(s)
    ensures IsStripped(Lower(s)) && |Lower(s)| == |s|
  {
  }

  function DigitChar(d: nat): (c: char)
    requires d < 10
    ensures '0' <= c <= '9'
  {
    ('0' as int + d) as char
  }

  /** The decimal digits of n, without leading zeros. */
  function NatToString(n: nat): (r: string)
    ensures |r| >= 1
    ensures forall i :: 0 <= i < |r| ==> '0' <= r[i] <= '9'
    ensures n >= 10 <==> |r| >= 2
  {
    if n < 10 then [DigitChar(n)] else NatToString(n / 10) + [DigitChar(n % 10)]
  }

  /** Python's str(n) for an int. */
  function IntToString(n: int): (r: string)
  {
    if n < 0 then "-" + NatToString(-n) else NatToString(n)
  }

  /** Different numbers print differently. */
  lemma {:induction false} NatToStringInjective(a: nat, b: nat)
    requires NatToString(a) == NatToString(b)
    ensures a == b
  {
    if a >= 10 && b >= 10 {
      var sa, sb := NatToString(a), NatToString(b);
      assert sa[..|sa| - 1] == NatToString(a / 10);
      assert sb[..|sb| - 1] == NatToString(b / 10);
      assert DigitChar(a % 10) == sa[|sa| - 1] == sb[|sb| - 1] == DigitChar(b % 10);
      NatToStringInjective(a / 10, b / 10);
    } else if a < 10 && b < 10 {
      assert DigitChar(a) == NatToString(a)[0] == NatToString(b)[0] == DigitChar(b);
    }
  }

  lemma IntToStringInjective(a: int, b: int)
    requires IntToString(a) == IntToString(b)
    ensures a == b
  {
    var sa, sb := IntToString(a), IntToString(b);
    assert sa[0] == '-' <==> a < 0;
    assert sb[0] == '-' <==> b < 0;
    if a < 0 && b < 0 {
      assert NatToString(-a) == sa[1..] == sb[1..] == NatToString(-b);
      NatToStringInjective(-a, -b);
    } else if a >= 0 && b >= 0 {
      NatToStringInjective(a, b);
    }
  }

  /** Python's ordering of str values: lexicographic by code point, a proper prefix first. */
  predicate StrLess(a: string, b: string)
    decreases |a|
  {
    if a == [] then b != []
    else if b == [] then false
    else if a[0] != b[0] then a[0] < b[0]
    else StrLess(a[1..], b[1..])
  }

  lemma {:induction false} StrLessIrreflexive(a: string)
    ensures !StrLess(a, a)
  {
    if a != [] {
      StrLessIrreflexive(a[1..]);
    }
  }

  lemma {:induction false} StrLessAsymmetric(a: string, b: string)
    requires StrLess(a, b)
    ensures !StrLess(b, a)
  {
    if a != [] && b != [] && a[0] == b[0] {
      StrLessAsymmetric(a[1..], b[1..]);
    }
  }

  lemma {:induction false} StrLessTransitive(a: string, b: string, c: string)
    requires StrLess(a, b) && StrLess(b, c)
    ensures StrLess(a, c)
  {
    if a != [] && b != [] && c != [] && a[0] == b[0] && b[0] == c[0] {
      StrLessTransitive(a[1..], b[1..], c[1..]);
    }
  }

  lemma {:induction false} StrLessTotal(a: string, b: string)
    requires a != b
    ensures StrLess(a, b) || StrLess(b, a)
  {
    if a != [] && b != [] && a[0] == b[0] {
      assert a == [a[0]] + a[1..] && b == [b[0]] + b[1..];
      StrLessTotal(a[1..], b[1..]);
    }
  }
}

=== FILE: ticket_lifecycle.dfy ===
/** The time window in which a ticket admits entry, and the state a ticket is shown in.
    Timestamps are integer seconds; the window lengths are given in minutes. */
module TicketLifecycle {
  import opened Wrappers
  import opened Text

  datatype LifecycleWindow = LifecycleWindow(entryOpensAt: int, activeUntilAt: int)

  datatype LifecycleState = Upcoming | Active | Expired | Used | Void | Invalid

  const SecondsPerMinute: int := 60

  /** A showtime without an end time ends when it starts. */
  function EffectiveEnd(startsAt: int, endsAt: Option<int>): int
  {
    if endsAt.Some? then endsAt.value else startsAt
  }

  /** Entry opens a non-negative number of minutes before the start, and the ticket stays
      usable a non-negative number of minutes after the effective end. */
  function BuildWindow(startsAt: int, endsAt: Option<int>, entryOpenMinutes: int,
                       activeGraceMinutes: int): (w: LifecycleWindow)
    ensures w.entryOpensAt <= startsAt
    ensures startsAt - w.entryOpensAt == SecondsPerMinute * Max(entryOpenMinutes, 0)
    ensures w.activeUntilAt >= EffectiveEnd(startsAt, endsAt)
    ensures w.activeUntilAt - EffectiveEnd(startsAt, endsAt)
            == SecondsPerMinute * Max(activeGraceMinutes, 0)
  {
    LifecycleWindow(
      startsAt - SecondsPerMinute * Max(entryOpenMinutes, 0),
      EffectiveEnd(startsAt, endsAt) + SecondsPerMinute * Max(activeGraceMinutes, 0))
  }

  /** The stored status, upper-cased and stripped. */
  function NormalizedStatus(status: string): string
  {
    Strip(Upper(status))
  }

  /** USED and VOID win over the clock; any other status but VALID is INVALID; a VALID ticket
      is UPCOMING before the window, ACTIVE inside it (both ends included), EXPIRED after. */
  function ResolveState(status: string, now: int, w: LifecycleWindow): (s: LifecycleState)
    ensures s == Used <==> NormalizedStatus(status) == "USED"
    ensures s == Void <==> NormalizedStatus(status) == "VOID"
    ensures s == Invalid <==> NormalizedStatus(status) !in {"USED", "VOID", "VALID"}
    ensures s == Upcoming <==> NormalizedStatus(status) == "VALID" && now < w.entryOpensAt
    ensures s == Active <==>
            NormalizedStatus(status) == "VALID" && w.entryOpensAt <= now <= w.activeUntilAt
    ensures s == Expired <==>
            NormalizedStatus(status) == "VALID" && w.entryOpensAt <= now && w.activeUntilAt < now
  {
    var normalized := NormalizedStatus(status);
    if normalized == "USED" then Used
    else if normalized == "VOID" then Void
    else if normalized != "VALID" then Invalid
    else if now < w.entryOpensAt then Upcoming
    else if now <= w.activeUntilAt then Active
    else Expired
  }

  function Phase(s: LifecycleState): nat
  {
    match s
    case Upcoming => 0
    case Active => 1
    case Expired => 2
    case _ => 3
  }

  /** As time passes a VALID ticket only moves forward: UPCOMING, then ACTIVE, then EXPIRED. */
  lemma ValidTicketMovesForward(status: string, w: LifecycleWindow, now1: int, now2: int)
    requires NormalizedStatus(status) == "VALID"
    requires now1 <= now2
    ensures Phase(ResolveState(status, now1, w)) <= Phase(ResolveState(status, now2, w)) < 3
  {
  }

  /** For a showtime that does not end before it starts, a VALID ticket is ACTIVE throughout
      the showtime, from its start to its effective end. */
  lemma ActiveDuringShowtime(status: string, startsAt: int, endsAt: Option<int>,
                             entryOpenMinutes: int, activeGraceMinutes: int, now: int)
    requires NormalizedStatus(status) == "VALID"
    requires startsAt <= now <= EffectiveEnd(startsAt, endsAt)
    ensures ResolveState(status, now,
              BuildWindow(startsAt, endsAt, entryOpenMinutes, activeGraceMinutes)) == Active
  {
  }

  /** The status is read without its surrounding whitespace: padding it changes nothing. */
  lemma PaddingIgnored(pad: string, status: string, trail: string, now: int, w: LifecycleWindow)
    requires AllSpace(pad) && AllSpace(trail)
    ensures ResolveState(pad + status + trail, now, w) == ResolveState(status, now, w)
  {
    var padded := pad + status + trail;
    assert Upper(padded) == pad + Upper(status) + trail by {
      UpperAppend(pad + status, trail);
      UpperAppend(pad, status);
      UpperAppend(trail, []);
    }
    assert NormalizedStatus(padded) == NormalizedStatus(status) by {
      StripIgnoresPadding(pad, Upper(status), trail);
    }
  }

  /** The status is read case-insensitively: lower-casing it changes nothing. */
  lemma CaseIgnored(status: string, now: int, w: LifecycleWindow)
    ensures ResolveState(Lower(status), now, w) == ResolveState(status, now, w)
  {
    UpperOfLower(status);
  }

  /** A status that is none of VALID, USED and VOID makes the ticket INVALID. */
  lemma UnknownStatusIsInvalid(now: int, w: LifecycleWindow)
    ensures ResolveState("refunded", now, w) == Invalid
  {
    var upper := Upper("refunded");
    assert |upper| == 8 && upper[0] == 'R';
    StripStripped(upper);
  }
}

=== FILE: tickets.dfy ===
/** The staff ticket scan: a staff-token check, a lookup of the ticket by its QR token, and the
    one-shot VALID -> USED transition. */
module TicketScan {
  import opened Wrappers
  import opened BookingStore

  /** The scan response; the optional fields are null when no ticket was found. */
  datatype ScanResponse = ScanResponse(
    result: string,
    ticketId: Option<nat>,
    orderId: Option<nat>,
    showtimeId: Option<nat>,
    seatCode: Option<string>,
    usedAt: Option<int>,
    message: string)

  const NotFound: ScanResponse := ScanResponse("INVALID", None, None, None, None, None, "Ticket not found")

  /** The ticket `id` is a row of the lookup query: it carries the token and joins its order and
      its seat. */
  predicate Found(t: Tables, id: nat, qrToken: string)
  {
    id in t.tickets && t.tickets[id].qrToken == qrToken &&
    t.tickets[id].orderId in t.orders && t.tickets[id].seatId in t.seats
  }

  /** Two ticket tables that differ at most in status and use time. */
  predicate SameTicketRows(a: map<nat, Ticket>, b: map<nat, Ticket>)
  {
    a.Keys == b.Keys &&
    forall k :: k in a ==> a[k].orderId == b[k].orderId && a[k].seatId == b[k].seatId && a[k].qrToken == b[k].qrToken
  }

  /** The response and the new ticket table when the scan finds ticket `id`: a USED ticket is
      reported ALREADY_USED with its earlier use time, any other non-VALID ticket INVALID, both
      without a change; a VALID ticket becomes USED at `now`. */
  function ScanFound(t: Tables, id: nat, now: int): (out: (ScanResponse, map<nat, Ticket>))
    requires id in t.tickets && t.tickets[id].orderId in t.orders && t.tickets[id].seatId in t.seats
    ensures out.0.ticketId == Some(id) && out.0.orderId == Some(t.tickets[id].orderId)
    ensures out.0.showtimeId == Some(t.orders[t.tickets[id].orderId].showtimeId)
    ensures out.0.seatCode == Some(t.seats[t.tickets[id].seatId].code)
    ensures out.0.result == "VALID" <==> t.tickets[id].status == Valid
    ensures out.0.result == "ALREADY_USED" <==> t.tickets[id].status == Used
    ensures out.0.result == "INVALID" <==> t.tickets[id].status == Void
    ensures t.tickets[id].status != Valid ==> out.1 == t.tickets && out.0.usedAt == t.tickets[id].usedAt
    ensures t.tickets[id].status == Valid ==>
      out.0.usedAt == Some(now) && out.1.Keys == t.tickets.Keys &&
      out.1[id] == t.tickets[id].(status := Used, usedAt := Some(now)) &&
      forall k :: k in t.tickets && k != id ==> out.1[k] == t.tickets[k]
    ensures SameTicketRows(t.tickets, out.1)
  {
    var ticket := t.tickets[id];
    var showtimeId := t.orders[ticket.orderId].showtimeId;
    var seatCode := t.seats[ticket.seatId].code;
    if ticket.status == Used then
      (ScanResponse("ALREADY_USED", Some(id), Some(ticket.orderId), Some(showtimeId), Some(seatCode),
                    ticket.usedAt, "Ticket has already been used"), t.tickets)
    else if ticket.status != Valid then
      (ScanResponse("INVALID", Some(id), Some(ticket.orderId), Some(showtimeId), Some(seatCode),
                    ticket.usedAt, "Ticket is not valid for entry (" + TicketStatusName(ticket.status) + ")"), t.tickets)
    else
      var used := ticket.(status := Used, usedAt := Some(now));
      (ScanResponse("VALID", Some(id), Some(ticket.orderId), Some(showtimeId), Some(seatCode),
                    Some(now), "Ticket validated and marked as used"), t.tickets[id := used])
  }

  /** scan_ticket; `staffToken` is the x-staff-token header, `configured` the configured token. */
  method ScanTicket(db: CinemaDb, staffToken: Option<string>, configured: string, qrToken: string, now: int)
    returns (r: Result<ScanResponse>)
    modifies db
    ensures staffToken != Some(configured) ==>
      r == Err(HttpError(401, "Invalid staff scan token")) && db.State() == old(db.State())
    ensures staffToken == Some(configured) && (forall id :: !Found(old(db.State()), id, qrToken)) ==>
      r == Ok(NotFound) && db.State() == old(db.State())
    ensures staffToken == Some(configured) && (exists id :: Found(old(db.State()), id, qrToken)) ==>
      r.Ok? && r.value.ticketId.Some? && Found(old(db.State()), r.value.ticketId.value, qrToken) &&
      r.value == ScanFound(old(db.State()), r.value.ticketId.value, now).0 &&
      db.State() == old(db.State()).(tickets := ScanFound(old(db.State()), r.value.ticketId.value, now).1)
  {
    if staffToken != Some(configured) {
      return Err(HttpError(401, "Invalid staff scan token"));
    }
    if !exists id | id in db.tickets :: Found(db.State(), id, qrToken) {
      return Ok(NotFound);
    }
    var id :| id in db.tickets && Found(db.State(), id, qrToken);
    var ticket := db.tickets[id];
    var showtimeId := db.orders[ticket.orderId].showtimeId;
    var seatCode := db.seats[ticket.seatId].code;
    if ticket.status == Used {
      return Ok(ScanResponse("ALREADY_USED", Some(id), Some(ticket.orderId), Some(showtimeId), Some(seatCode),
                             ticket.usedAt, "Ticket has already been used"));
    }
    if ticket.status != Valid {
      return Ok(ScanResponse("INVALID", Some(id), Some(ticket.orderId), Some(showtimeId), Some(seatCode),
                             ticket.usedAt, "Ticket is not valid for entry (" + TicketStatusName(ticket.status) + ")"));
    }
    db.tickets := db.tickets[id := ticket.(status := Used, usedAt := Some(now))];
    return Ok(ScanResponse("VALID", Some(id), Some(ticket.orderId), Some(showtimeId), Some(seatCode),
                           Some(now), "Ticket validated and marked as used"));
  }

  /** In consistent tables a QR token names at most one ticket, so the scan is determined. */
  lemma FoundUnique(t: Tables, qrToken: string, id1: nat, id2: nat)
    requires TablesConsistent(t)
    requires Found(t, id1, qrToken) && Found(t, id2, qrToken)
    ensures id1 == id2
  {
    QrTokensUnique(t.tickets, id1, id2);
  }

  /** Scanning a token twice gives VALID and then ALREADY_USED, reporting the first scan's time:
      a ticket is never admitted twice. */
  lemma NeverValidTwice(t: Tables, id: nat, qrToken: string, now: int, later: int)
    requires Found(t, id, qrToken)
    requires ScanFound(t, id, now).0.result == "VALID"
    ensures Found(t.(tickets := ScanFound(t, id, now).1), id, qrToken)
    ensures ScanFound(t.(tickets := ScanFound(t, id, now).1), id, later).0.result == "ALREADY_USED"
    ensures ScanFound(t.(tickets := ScanFound(t, id, now).1), id, later).0.usedAt == Some(now)
  {
  }

  lemma SameTicketSeats(a: map<nat, Ticket>, b: map<nat, Ticket>, orderId: nat)
    requires SameTicketRows(a, b)
    ensures TicketSeats(a, orderId) == TicketSeats(b, orderId)
  {
    forall s | s in TicketSeats(b, orderId) ensures s in TicketSeats(a, orderId) {
      var k :| k in b && b[k].orderId == orderId && b[k].seatId == s;
      assert a[k].orderId == orderId && a[k].seatId == s;
    }
  }

  /** The consistency constraints read only a ticket's order, seat and token, so a change of
      status and use time keeps all of them. */
  lemma StatusChangeConsistent(t: Tables, tickets: map<nat, Ticket>)
    requires TablesConsistent(t)
    requires SameTicketRows(t.tickets, tickets)
    ensures TablesConsistent(t.(tickets := tickets))
  {
    forall o | o in t.orders ensures TicketSeats(tickets, o) == TicketSeats(t.tickets, o) {
      SameTicketSeats(tickets, t.tickets, o);
    }
  }

  /** Scanning keeps the tables consistent. */
  lemma ScanConsistent(t: Tables, id: nat, now: int)
    requires TablesConsistent(t)
    requires id in t.tickets && t.tickets[id].orderId in t.orders && t.tickets[id].seatId in t.seats
    ensures TablesConsistent(t.(tickets := ScanFound(t, id, now).1))
  {
    StatusChangeConsistent(t, ScanFound(t, id, now).1);
  }
}

=== FILE: wrappers.dfy ===
/** Option and Result values used for nullable columns and for the HTTP error paths. */
module Wrappers {

  datatype Option<+T> = None | Some(value: T)

  /** An HTTP error as raised by the service: a status code and its detail text. */
  datatype HttpError = HttpError(status: int, detail: string)

  datatype Result<+R> = Ok(value: R) | Err(error: HttpError)

  function Max(a: int, b: int): int { if a < b then b else a }

  function Min(a: int, b: int): int { if a < b then a else b }
}
